=== FILE: README.md ===
# operator-manifest in Dafny

A model of the core of `operator-manifest`. The tool finds the container image
references ("pullspecs") in an operator's ClusterServiceVersion (CSV) document,
rewrites them, pins them to digests and rebuilds the CSV's `spec.relatedImages`
list. The model covers these parts of the source:

- `ImageName` (`image_name.dfy`): parsing a pullspec into registry, namespace,
  repository and tag; rendering it back with `to_str`; `get_repo`; `enclose`;
  and the scan of free text for pullspecs (`from_text`).
- The YAML document (`document.dfy`): a tree value (mapping, sequence, string,
  other scalar). Python's subscripting, iteration, `in`, `.get` and `chain_get`
  are written out with their error cases (`KeyError`, `TypeError`,
  `AttributeError`).
- The named-pullspec views of a CSV (`pullspecs.dfy`): related images, the
  `containerImage` annotation, containers, init containers and `RELATED_IMAGE_*`
  environment variables, in the order the CSV collects them.
- The replacement passes (`replacement.dfy`): `replace_pullspecs_everywhere`
  rewrites every string of the document. `replace_pullspecs` rewrites only the
  images of the named views. Each pass stops at the first error and keeps the
  writes made before it.
- `set_related_images` (`related_images.dfy`): it keeps the first view of each
  name and reports conflicting images. When there is no conflict it rebuilds
  `spec.relatedImages`.
- The `OperatorCSV` object (`operator_csv.dfy`): a class whose methods update
  its `data` field in place. `dump` is a log of saved documents.
- The command-line operations `extract`, `replace` and `pin`, plus the
  "should apply" guard (`cli.dfy`).
- `resolve_image_reference`, `_get_container_image_name` and the retry
  decorator (`resolver.dfy`).
- `get_error_message` (`helpers.dfy`).

Three behaviours of the code are worth stating up front:

- annotations are read only at `metadata.annotations.containerImage`;
- `set_related_images` with no pullspecs still writes an empty
  `spec.relatedImages`;
- `ImageName.parse` never fails: the empty string gives an empty repository.

## Model

| member | source | states |
|---|---|---|
| ImageNames.SplitSlash | operator_manifest/operator.py:384 | `split('/', 2)` gives one to three pieces; only the last piece may still contain `/`, and only when there are three |
| ImageNames.SplitSlashJoinBack | operator_manifest/operator.py:384 | joining the pieces with `/` gives the text back |
| ImageNames.SplitTag | operator_manifest/operator.py:396-401 | the repo/tag cut is at the last `@` when there is one, otherwise at the last `:`; with neither, the tag is `latest`; the two parts rebuild the text |
| ImageNames.Parse | operator_manifest/operator.py:376-404 | a parsed string always has a repository, the empty string included |
| ImageNames.FromPieces | operator_manifest/operator.py:384-402 | three pieces give registry and namespace; two give a registry when the first holds `.` or `:`, else a namespace; each is the piece itself; repo and tag are the `@`/`:` cut of the last piece |
| ImageNames.ParseShape | operator_manifest/operator.py:384-402 | the registry and namespace lead the text, each followed by `/` and free of `/`; the rest is cut into repo and tag; a lone leading piece is a registry iff it holds `.` or `:`, and text with neither field has no `/` |
| ImageNames.ParseText | operator_manifest/operator.py:384-395 | the text after the registry and namespace is the last piece of `split('/', 2)` |
| ImageNames.CutTag | operator_manifest/operator.py:396-402 | the `for sep in '@:'` loop computes the repo/tag cut `SplitTag` |
| ImageNames.ParseImageName | operator_manifest/operator.py:376-404 | the field-by-field `@`/`:` loop gives the same ImageName as `Parse`; an ImageName argument comes back unchanged |
| ImageNames.GetRepo | operator_manifest/operator.py:434-440 | a present namespace prefixes the repo; otherwise `library/` does when asked; otherwise the repo alone |
| ImageNames.ToStr | operator_manifest/operator.py:415-432 | fails iff there is no repo, with the "No image repository" error |
| ImageNames.ToStrShape | operator_manifest/operator.py:415-432 | the registry and `/` come first when asked for and present; a tag holding `:` follows `@`, any other non-empty tag follows `:`; the whole text is the optional registry prefix, `get_repo`, then the tag part |
| ImageNames.ToStrText | operator_manifest/operator.py:415-432 | the whole text: `registry/` when asked for and present, then `get_repo(explicit_namespace)`, then `@tag` for a tag holding `:`, `:tag` for another non-empty tag, `:latest` for an empty tag under `explicit_tag`, or nothing |
| ImageNames.SplitTagRender | operator_manifest/operator.py:396-401 | the repo/tag cut recovers the repo and tag that `to_str` joined |
| ImageNames.RenderCanonical | operator_manifest/operator.py:453-454 | `str()` of a well-shaped ImageName is its registry, namespace and `repo[@:]tag` joined by `/` |
| ImageNames.ParseRenderFull | operator_manifest/operator.py:376-432 | parse(str(x)) == x for a well-shaped x with registry and namespace |
| ImageNames.ParseRenderPartial | operator_manifest/operator.py:376-432 | parse(str(x)) == x for a well-shaped x that lacks the registry or the namespace |
| ImageNames.ParseRender | operator_manifest/operator.py:376-432 | parse(str(x)) == x for every well-shaped x (round trip) |
| ImageNames.RenderExampleDigest | tests/test_operator.py:720-723 | the test row with registry, namespace and digest renders as listed |
| ImageNames.ParseExampleDigest | tests/test_operator.py:720-723 | that test row parses as listed |
| ImageNames.RenderExamplePort | tests/test_operator.py:731 | the registry-with-port row renders as listed |
| ImageNames.ParseExamplePort | tests/test_operator.py:731 | the registry-with-port row parses as listed |
| ImageNames.RenderExampleNamespace | tests/test_operator.py:739 | the namespace-only row renders as listed |
| ImageNames.ParseExampleNamespace | tests/test_operator.py:739 | the namespace-only row parses as listed |
| ImageNames.RenderExampleBare | tests/test_operator.py:734 | the bare-repo-with-digest row renders as listed |
| ImageNames.ParseExampleBare | tests/test_operator.py:734 | the bare-repo-with-digest row parses as listed |
| ImageNames.Enclose | operator_manifest/operator.py:442-451 | nothing changes when the namespace already is the organization; otherwise it fails iff the repo is missing; registry and tag never change and the namespace becomes the organization |
| ImageNames.EncloseRepo | tests/test_operator.py:765-792 | `get_repo()` after `enclose` is `org/repo`, or `org/namespace-repo` when another namespace was present |
| ImageNames.EncloseIdempotent | operator_manifest/operator.py:442-451 | enclosing twice in the same organization is enclosing once |
| ImageNames.Strip | operator_manifest/operator.py:409-410 | the trimmed word is the slice of the word after its leading non-word characters, only non-word characters follow it, and it starts and ends with a word character (or is empty) |
| ImageNames.Keep | operator_manifest/operator.py:412-413 | keeps exactly the candidates that have both a registry and a repo |
| ImageNames.FromText | operator_manifest/operator.py:406-413 | every reference found has a registry and a repo |
| ImageNames.FromTextAppend | operator_manifest/operator.py:406-413 | the references in two texts joined by a space are those of each text, in order |
| ImageNames.FromTextWord | operator_manifest/operator.py:408-413 | a single word yields its trimmed parse iff that parse is accepted |
| ImageNames.StripWord | operator_manifest/operator.py:409-410 | a word that starts and ends with a word character is not trimmed |
| ImageNames.FromTextEmpty | operator_manifest/operator.py:406-413 | nothing is found in the empty text |
| ImageNames.FromTextPlainWord | operator_manifest/operator.py:406-413 | a word without `/` names no registry, so nothing is found in it |
| ImageNames.FromTextSurrounded | tests/test_operator.py:852-855 | a pullspec word between plain words is found, and nothing else is |
| Text.Split | operator_manifest/operator.py:408 | the pieces contain no separator and join back to the text |
| Text.SplitJoin | operator_manifest/operator.py:408 | splitting a join of separator-free pieces gives the pieces back |
| Text.TrimStart | operator_manifest/operator.py:367 | removes exactly the leading non-word characters |
| Text.TrimEnd | operator_manifest/operator.py:368 | removes exactly the trailing non-word characters |
| Text.Basename | operator_manifest/cli.py:262 | the text after the last `/`: the whole path iff it has no `/`, otherwise the `/`-free suffix that a `/` precedes |
| Document.Subscript | operator_manifest/operator.py:491 | `obj[sel]`: unsubscriptable iff a scalar, or a key applied to a list or string; a key is found iff present and gives the first entry with it; an index is found iff within `-len..len-1` and gives that item or character, counted from the end when negative |
| Document.KeyIndex | operator_manifest/operator.py:491 | the first entry holding the key; none iff no entry holds it |
| Document.ChainGet | operator_manifest/operator.py:476-494 | the value at the path when every step finds one; the default as soon as a step finds its key or index missing; `TypeError` as soon as a step hits an unsubscriptable value; no other error |
| Document.ChainGetLoop | operator_manifest/operator.py:488-494 | the loop of `chain_get` computes `ChainGet` |
| Document.ChainGetMissingKey | operator_manifest/operator.py:490-493 | a key missing from a mapping on the way gives the default |
| Document.ChainGetAtAgrees | operator_manifest/operator.py:476-494 | the position-tracking lookup agrees with `chain_get` |
| Document.ChainGetAt | operator_manifest/operator.py:476-494 | the position-tracking lookup fails only with `TypeError`; a value found from an attached value lies one level down per key |
| Document.ChainGetAtInTree | operator_manifest/operator.py:476-494 | a value found from a value of the document is in the document |
| Document.Field | operator_manifest/operator.py:40-46 | `data[key]` succeeds iff the view is a mapping holding the key; otherwise `KeyError(key)` or `TypeError`; the result lies one step below the view |
| Document.GetOr | operator_manifest/operator.py:280 | `.get(key)` fails with `AttributeError` iff the view is not a mapping; it finds the field iff subscripting does |
| Document.Iterate | operator_manifest/operator.py:253 | iterating fails with `TypeError` iff the value is a scalar; otherwise it yields the mapping's keys, the list's items (at their positions) or the string's characters, in order |
| Document.Elements | operator_manifest/operator.py:253 | what iterating yields: a mapping's keys, a list's items, a string's characters, in order; nothing for a scalar |
| Document.IterateInTree | operator_manifest/operator.py:253 | iterating a value of the document yields values of the document |
| Document.Contains | operator_manifest/operator.py:283 | `needle in x` is key membership for a mapping, item membership for a list and a substring test for a string; only a non-string scalar raises `TypeError` |
| Document.Show | operator_manifest/operator.py:222-223 | a string or other scalar is written as its text; a mapping or list as a non-empty placeholder |
| Document.PutAt | operator_manifest/operator.py:48-50 | after an assignment the position holds the new value |
| Document.PutElsewhere | operator_manifest/operator.py:48-50 | an assignment changes no position outside the one assigned |
| Document.SubscriptInTree | operator_manifest/operator.py:40-46 | a field of a value in the document is in the document |
| Pullspecs.KindCheck | operator_manifest/operator.py:127-128 | accepted iff the data is a mapping whose `kind` is `ClusterServiceVersion`; otherwise `NotOperatorCSV`, or `AttributeError` for a non-mapping |
| Pullspecs.ParseNode | operator_manifest/operator.py:173 | `ImageName.parse(p.image)` succeeds iff the image is a string, and then is its parse |
| Pullspecs.Name | operator_manifest/operator.py:40-42 | an environment variable's name is its lower-cased name without `RELATED_IMAGE_`; an annotation's name is its parsed repo plus `-annotation`; any other view's name is its `name` field |
| Pullspecs.Description | operator_manifest/operator.py:65-106 | `container <name>`, `initContainer <name>`, `relatedImage <name>`, `<name> var`, `<key> annotation`; fails iff the `name` field is missing, never for an annotation |
| Pullspecs.Views | operator_manifest/operator.py:251-254 | one view of the given kind per element, in order |
| Pullspecs.ListAtValues | operator_manifest/operator.py:251-253 | listing gives the elements of `chain_get(..., default=[])` in order, and fails iff that lookup fails or gives a scalar |
| Pullspecs.RelatedImagePullspecsValues | operator_manifest/operator.py:249-254 | related-image view `i` looks at element `i` of `chain_get(spec.relatedImages, default=[])`; collecting fails iff that lookup fails or gives a scalar |
| Pullspecs.RelatedImagePullspecs | operator_manifest/operator.py:249-254 | one related-image view per listed element of `spec.relatedImages`, in order; fails with `TypeError` iff the listing does; every view is located in the document |
| Pullspecs.AnnotationPullspecs | operator_manifest/operator.py:268-274 | at most one view, of the `containerImage` annotation kind, located in the document; the only error is `TypeError` |
| Pullspecs.AnnotationPullspecsValues | operator_manifest/operator.py:268-274 | there is a view iff `containerImage` is in `chain_get(metadata.annotations, default={})`; the view looks at that mapping |
| Pullspecs.DeploymentsValues | operator_manifest/operator.py:256-258 | the deployments are the elements of `chain_get(spec.install.spec.deployments, default=[])`, in order; listing fails iff that lookup fails or gives a scalar |
| Pullspecs.ContainersOf | operator_manifest/operator.py:263-266 | the container lists of the given deployments, concatenated in order; succeeds iff each list can be read |
| Pullspecs.ContainersIn | operator_manifest/operator.py:260-266 | the same for the CSV's own deployments; fails iff listing the deployments or one of their lists fails |
| Pullspecs.ContainerPullspecs | operator_manifest/operator.py:260-266 | one view of the kind per item of each deployment's `containers` (or `initContainers`) list, deployment by deployment; succeeds iff every list can be read; views are located in the document |
| Pullspecs.NodeStartsWith | operator_manifest/operator.py:280 | `.startswith` succeeds iff the value is a string; otherwise `AttributeError` |
| Pullspecs.RelatedEnvs | operator_manifest/operator.py:278-281 | succeeds iff every variable has a string name; then exactly the variables whose name starts with `RELATED_IMAGE_`, in order |
| Pullspecs.EnvList | operator_manifest/operator.py:280 | `c.get("env", [])`: `AttributeError` iff the container is not a mapping; otherwise `TypeError` iff the lookup fails or gives a scalar |
| Pullspecs.EnvCandidates | operator_manifest/operator.py:277-281 | the selected variables of all containers, concatenated in order, each a `RELATED_IMAGE_*` variable; succeeds iff every container's variables can be read |
| Pullspecs.CheckValueFrom | operator_manifest/operator.py:282-285 | passes iff no selected variable has `valueFrom` |
| Pullspecs.EnvPullspecs | operator_manifest/operator.py:276-288 | succeeds iff the containers are listed, their variables are read and none of the `RELATED_IMAGE_*` ones has `valueFrom`; otherwise raises the first of those errors; on success one view per `RELATED_IMAGE_*` variable of the containers, then the init containers, in order, each located in the document |
| Pullspecs.NamedPullspecs | operator_manifest/operator.py:239-247 | succeeds iff every collector does; the views are then the related images, the annotation, the containers, the init containers and the variables, concatenated in that order, all located in the document |
| Pullspecs.TopLevelPullspecs | operator_manifest/operator.py:240-243 | related-image and annotation views come first, in rank order, located in the document |
| Pullspecs.DeploymentPullspecs | operator_manifest/operator.py:244-246 | container, init-container and variable views follow, in rank order, located in the document |
| Pullspecs.NamedPullspecsPlaced | operator_manifest/operator.py:239-296 | every view sits at its kind's route: `spec.relatedImages[i]`, `metadata.annotations`, a deployment's `containers[i]` or `initContainers[i]`, or a container's `env[j]` |
| Pullspecs.NamedPullspecsSeparate | operator_manifest/operator.py:239-296 | two different views look at disjoint parts of the document, apart from a container and its own variables |
| Pullspecs.NonEmpty | operator_manifest/operator.py:155 | Python's truth of a mapping, list or string: it is non-empty |
| Pullspecs.HasRelatedImageEnvs | operator_manifest/operator.py:157-161 | succeeds iff collecting the variables does, and otherwise raises the collector's error; then true iff some container or init container has a `RELATED_IMAGE_*` variable |
| Pullspecs.HasRelatedImages | operator_manifest/operator.py:151-155 | fails with `TypeError` iff `chain_get(spec.relatedImages, default=[])` fails or gives a scalar; otherwise true iff that value is non-empty |
| RelatedImages.FactOf | operator_manifest/operator.py:219-221 | a view reads iff its name exists and is hashable (not a mapping or list) and its image exists; it then gives that name and image; an unhashable name raises `TypeError` |
| RelatedImages.FactsAt | operator_manifest/operator.py:215-221 | fact `i` is what view `i` reads |
| RelatedImages.IndexOfName | operator_manifest/operator.py:219 | finds the entry with that name, or none iff no entry has it |
| RelatedImages.FirstIndexOfName | operator_manifest/operator.py:219 | the index of the first fact with the name; none iff no fact has it |
| RelatedImages.ScanCovers | operator_manifest/operator.py:219 | every name read is kept |
| RelatedImages.ScanDistinct | operator_manifest/operator.py:212-219 | each name is kept once |
| RelatedImages.ScanFirst | operator_manifest/operator.py:216-219 | each kept entry is the first view read with its name |
| RelatedImages.ScanSizes | operator_manifest/operator.py:212-224 | the loop keeps at most one entry or message per view, and keeps entries iff there are views |
| RelatedImages.ScanLookup | operator_manifest/operator.py:219 | a name is kept iff some view has it, and its entry is the first view with it |
| RelatedImages.ScanOrder | operator_manifest/operator.py:212-219 | each entry is the first view of its name, and entries come in the order their names are first met |
| RelatedImages.ConflictAt | operator_manifest/operator.py:219-224 | a view adds one message iff its image differs from the first view of its name; the message starts with that first view's description and ends with this view's description and image |
| RelatedImages.ConflictMessageShape | operator_manifest/operator.py:222-223 | a conflict message starts with the first view's description and `: `, and ends with the later view's description, `: ` and image |
| RelatedImages.ScanConflicts | operator_manifest/operator.py:215-224 | the loop's messages are exactly the per-view messages, in view order |
| RelatedImages.NoConflictsIffConsistent | operator_manifest/operator.py:215-228 | there are no conflicts iff views of the same name all have the same image |
| RelatedImages.ConsistentNoConflicts | operator_manifest/operator.py:215-228 | consistent views give no conflicts |
| RelatedImages.NoConflictsConsistent | operator_manifest/operator.py:215-228 | no conflicts means the views are consistent |
| RelatedImages.Records | operator_manifest/operator.py:234-237 | one `{name, image}` record per kept entry, in order |
| RelatedImages.RecordName | operator_manifest/operator.py:56-62 | a record's `name` field is the name it was built from |
| RelatedImages.WithRelatedImagesFails | operator_manifest/operator.py:230-232 | the write fails iff `spec` exists but is not a mapping, or `relatedImages` exists but is not a list |
| RelatedImages.WithRelatedImagesEffect | operator_manifest/operator.py:230-237 | `spec.relatedImages` is created if missing and holds exactly the records; every other key keeps its value |
| RelatedImages.RecordsCover | operator_manifest/operator.py:234-237 | with no conflicts, every view's name and image appear as a record |
| RelatedImages.RecordsOfScan | operator_manifest/operator.py:212-237 | the records have distinct names and cover every view |
| RelatedImages.RelatedImagesUpdateRecords | operator_manifest/operator.py:205-237 | a successful update writes the records of the kept entries: one per name, distinct names, and each view's name and image among them |
| RelatedImages.RelatedImagesUpdate | operator_manifest/operator.py:205-237 | succeeds iff the views are collected and read, every name has one image, and the write succeeds; the result is a mapping |
| RelatedImages.RelatedImagesUpdateOrder | operator_manifest/operator.py:212-237 | the records written are those of the first view of each name, in first-met order, and every view's name has one |
| RelatedImages.RelatedImagesUpdateConflict | operator_manifest/operator.py:222-228 | inconsistent views raise a conflict error naming the path and the messages, which are exactly one per view whose image differs from the first view of its name, in view order |
| RelatedImages.ConflictReport | operator_manifest/operator.py:227-228 | the report starts with the path and the conflict header, followed by the first message |
| RelatedImages.ConflictReportLines | operator_manifest/operator.py:227-228 | after the header, the report's lines are exactly the messages, when none holds a line break |
| Replacement.Rewrite | operator_manifest/operator.py:298-303 | a string is kept when no different replacement exists; otherwise it becomes the replacement's text, or raises iff the replacement has no repo |
| Replacement.RewriteNamesReplacement | operator_manifest/operator.py:298-303 | after a rewrite the string parses as the replacement |
| Replacement.Walk | operator_manifest/operator.py:305-316 | the walk keeps each node's kind and every mapping's and list's length; scalars are untouched |
| Replacement.WalkKeys | operator_manifest/operator.py:305-316 | the walk keeps every mapping's keys in place, error or not |
| Replacement.WalkEntriesKeys | operator_manifest/operator.py:307-309 | the walk of a mapping's entries keeps every key at its index |
| Replacement.WalkItems | operator_manifest/operator.py:310-312 | the walk of a list's items keeps their number |
| Replacement.WalkAt | operator_manifest/operator.py:305-316 | without error, each position of the result holds the walk of what the document held there |
| Replacement.WalkLeaf | operator_manifest/operator.py:313-316 | without error, each string of the document is replaced by its rewrite |
| Replacement.WalkNoError | operator_manifest/operator.py:305-316 | a rewrite that never fails never makes the walk fail |
| Replacement.WalkIdentity | operator_manifest/operator.py:305-316 | a rewrite that keeps every string keeps the document |
| Replacement.ReplaceString | operator_manifest/operator.py:298-303 | parsing with the `@`/`:` loop and replacing computes `Rewrite` |
| Replacement.ReplaceEverywhere | operator_manifest/operator.py:305-316 | the recursive method computes the walk |
| Replacement.ReplaceInEntries | operator_manifest/operator.py:307-309 | the key loop computes the walk of the entries, stopping at the first error |
| Replacement.ReplaceInItems | operator_manifest/operator.py:310-312 | the index loop computes the walk of the items, stopping at the first error |
| Replacement.Current | operator_manifest/operator.py:187-188 | a view is read again at its position in the current document |
| Replacement.ImageKept | operator_manifest/operator.py:187-188 | re-reading a view in a document that kept its route and image position gives the same image |
| Replacement.TurnReads | operator_manifest/operator.py:187-194 | a turn that raises nothing read a string image; it writes that string's rewrite at the image position iff the parsed image has a different replacement, and otherwise leaves the document |
| Replacement.Write | operator_manifest/operator.py:187-194 | a turn writes only at the view's image position, just below the view, and only when a different replacement with a repo exists; it writes that replacement's text |
| Replacement.ReplaceOneLocal | operator_manifest/operator.py:187-194 | a turn changes nothing at any position neither at, above nor below the image it reads (`p.data[p._image_key]`) |
| Replacement.ReplaceOneWrites | operator_manifest/operator.py:194 | after a replacing turn, the image position holds the replacement's text |
| Replacement.ReplaceUpToApart | operator_manifest/operator.py:185-194 | the loop over views found in the document, error or not, changes nothing at any position apart from those views' image positions |
| Replacement.ReplaceUpToStops | operator_manifest/operator.py:187-194 | once a turn raises, later turns change nothing |
| Replacement.ReplaceUpToKeepsMap | operator_manifest/operator.py:187-194 | the document stays a mapping |
| Replacement.ReplaceViews | operator_manifest/operator.py:187-194 | the loop computes the turns in order, stopping at the first error |
| Replacement.ReplaceNamedLocal | operator_manifest/operator.py:179-194 | `replace_pullspecs`, error or not, changes nothing apart from the image positions of the named views: other fields of a container, other variables and other annotations keep their values |
| Replacement.ReplaceNamedEffect | operator_manifest/operator.py:179-194 | without error, every named view's image position holds the rewrite of its original image (the image itself when no different replacement exists) |
| Replacement.ReplaceOneEmpty | operator_manifest/operator.py:189-191 | with no replacements a turn writes nothing |
| Replacement.ReplaceUpToEmpty | operator_manifest/operator.py:179-194 | with no replacements the document is unchanged |
| OperatorCsv.PullspecOfParsed | operator_manifest/operator.py:172-175 | a view gives a pullspec iff its image is a string and it has a description; the pullspec is the parse of the image |
| OperatorCsv.Images | operator_manifest/operator.py:172-173 | one reading per view |
| OperatorCsv.PullspecSetOk | operator_manifest/operator.py:170-177 | the loop completes iff every view gives a pullspec |
| OperatorCsv.PullspecSetMembers | operator_manifest/operator.py:170-177 | the set holds exactly the pullspecs of the views |
| OperatorCsv.CollectPullspecs | operator_manifest/operator.py:170-177 | the loop computes the set, or the first error |
| OperatorCsv.PullspecsAreNamedImages | operator_manifest/operator.py:163-177 | the pullspecs found are exactly the parsed images of the named views, and each has a repo |
| OperatorCsv.OperatorCSV.Init | operator_manifest/operator.py:120-130 | keeps the path and data of an accepted document |
| OperatorCsv.OperatorCSV.New | operator_manifest/operator.py:120-130 | succeeds iff the kind check passes; otherwise raises its error |
| OperatorCsv.OperatorCSV.Dump | operator_manifest/operator.py:144-149 | the current document is saved; the data is unchanged |
| OperatorCsv.OperatorCSV.GetPullspecs | operator_manifest/operator.py:163-177 | gives the set of pullspecs found, or the error |
| OperatorCsv.OperatorCSV.ReplacePullspecs | operator_manifest/operator.py:179-194 | the new data and error are those of `replace_pullspecs` on the old data; with `Replacement.ReplaceNamedEffect`, each named image holds its rewrite |
| OperatorCsv.OperatorCSV.ReplacePullspecsEverywhere | operator_manifest/operator.py:196-203 | the new data and error are those of the walk of the old data |
| OperatorCsv.OperatorCSV.SetRelatedImages | operator_manifest/operator.py:205-237 | on success the data is the rebuilt document; on an error the error is raised and the data is unchanged |
| OperatorCsv.ScanViews | operator_manifest/operator.py:212-224 | the reading loop computes the scan of the facts, or the first read error |
| OperatorCsv.ScanFact | operator_manifest/operator.py:215-224 | one turn extends the scan by the new fact |
| Cli.ShouldApply | operator_manifest/cli.py:258-272 | true iff `spec.relatedImages` is missing or empty; false iff there are related images and no `RELATED_IMAGE_*` variables; related images with such variables are refused naming the file; a `TypeError` from the lookup propagates |
| Cli.ShouldApplyRefusal | operator_manifest/cli.py:262-269 | related images together with `RELATED_IMAGE_*` variables are refused, naming the file |
| Cli.ShouldApplySkip | operator_manifest/cli.py:262-270 | a CSV that is left alone has related images and no `RELATED_IMAGE_*` variables |
| Cli.EnvsNotAllowedNames | operator_manifest/cli.py:266-270 | the refusal message is the opening words, the file's base name, and the rest of the sentence |
| Cli.AssocKeys | operator_manifest/cli.py:199-201 | the dictionary's keys are the keys of the pairs |
| Cli.AssocValues | operator_manifest/cli.py:199-201 | every value comes from a pair with that key |
| Cli.AssocLast | operator_manifest/cli.py:199-201 | a pair whose key is not repeated later gives that key's value |
| Cli.Parsed | operator_manifest/cli.py:199-200 | one parsed pair per member of the file |
| Cli.ReplacementsOfKeys | operator_manifest/cli.py:198-201 | the replacement keys are exactly the parsed keys of the file |
| Cli.ReplacementsOfValues | operator_manifest/cli.py:198-201 | every replacement is the parsed value of a member with that key, and has a repo |
| Cli.ReplacementsOfLast | operator_manifest/cli.py:198-201 | a member whose key is not repeated later gives that key's replacement |
| Cli.BuildReplacements | operator_manifest/cli.py:198-201 | the loop builds the replacement dictionary |
| Cli.Replaced | operator_manifest/cli.py:193-211 | a guard error comes back with the document unchanged; a skip changes nothing; only an applied replacement reaches the write, and then raised nothing; the document stays a mapping |
| Cli.ReplacedWalkClean | operator_manifest/cli.py:204 | the rewrite pass never fails on replacements read from a file |
| Cli.ReplacedRelatedImages | operator_manifest/cli.py:204-207 | an applied replacement leaves one related-image record per name, covering every view of the rewritten document |
| Cli.ReplacedIdentity | operator_manifest/cli.py:198-207 | a file that maps every image to itself changes only the related images |
| Cli.ReplaceImageReferences | operator_manifest/cli.py:177-211 | the CSV's new data and error are those of `Replaced`; the document is saved iff it got that far and this is not a dry run |
| Cli.ExtractImageReferences | operator_manifest/cli.py:156-174 | fails iff finding the pullspecs fails; otherwise lists the text of every pullspec found, each once |
| Cli.RenderEach | operator_manifest/cli.py:169 | the text of every pullspec of the set, each once |
| Cli.Assign | operator_manifest/cli.py:248 | an existing key keeps its place and gets the value; a new key goes last; other pairs are unchanged |
| Cli.AssignKeys | operator_manifest/cli.py:248 | the keys after an assignment are the old keys plus the assigned one |
| Cli.PinPairsStops | operator_manifest/cli.py:244-248 | the first failed resolution is the outcome |
| Cli.PinPairsGrow | operator_manifest/cli.py:244-248 | one more reference keeps the keys gathered so far, and adds itself as a key unless it has a digest |
| Cli.ResolveAll | operator_manifest/cli.py:243-248 | the loop computes the gathered replacements |
| Cli.PinPairsEntries | operator_manifest/cli.py:243-248 | the keys are distinct digest-free extracted references, each mapped to its resolution |
| Cli.PinPairsCovers | operator_manifest/cli.py:244-248 | every extracted reference without a digest is a key |
| Cli.PinPairsPinned | operator_manifest/cli.py:248 | every value is its key's image name followed by `@` |
| Cli.PinPairsOk | operator_manifest/cli.py:244-248 | gathering succeeds iff every digest-free reference resolves |
| Cli.PinImageReferences | operator_manifest/cli.py:214-255 | rejects a non-seekable output; otherwise extracts, skips when replacements do not apply, resolves, writes the replacements and applies them as `replace` does |
| Resolver.ContainerImageNameAsWritten | operator_manifest/resolver.py:47-57 | the text before the first `@`, else the text before the last `:`, else the whole reference |
| Resolver.ContainerImageNameAsWrittenCutsPort | operator_manifest/resolver.py:54-57 | as written, `registry:5000/image` gives `registry` |
| Resolver.ContainerImageName | operator_manifest/resolver.py:47-57 | a prefix of the reference, cut before the first `@` when there is one |
| Resolver.ContainerImageNameOfDigest | operator_manifest/resolver.py:54-55 | the name of `name@digest` is `name` |
| Resolver.ContainerImageNameOfTag | operator_manifest/resolver.py:56-57 | the name of `name:tag` is `name` |
| Resolver.ContainerImageNameOfUntagged | operator_manifest/resolver.py:56-57 | a reference without a tag is its own name, even with a registry port |
| Resolver.ContainerImageNameKeepsPort | operator_manifest/resolver.py:56-57 | `registry:5000/image` keeps its whole name |
| Resolver.AttemptLimit | operator_manifest/resolver.py:74-81 | at least one call is made, and `attempts` calls when it is positive |
| Resolver.RetryFrom | operator_manifest/resolver.py:74-81 | the result is that of the last call made, within the allowed calls |
| Resolver.Retry | operator_manifest/resolver.py:60-85 | the retry loop computes `RetryFrom` from call zero |
| Resolver.RetryOutcome | operator_manifest/resolver.py:74-81 | every earlier call failed with an error the loop waits on; such an error is given up on only after all allowed calls |
| Resolver.RetryFirstSuccess | operator_manifest/resolver.py:74-77 | the first success within the allowed calls is returned |
| Resolver.AuthArgs | operator_manifest/resolver.py:22-27 | `--authfile path` when an authfile is given, nothing otherwise |
| Resolver.Resolve | operator_manifest/resolver.py:13-44 | a missing authfile is reported before any command runs; a result starts with the image name and `@`; the first command inspects the raw manifest; at most two commands run |
| Resolver.ResolveSchemaTwo | operator_manifest/resolver.py:31-34 | a schema 2 manifest resolves to `name@sha256:<hash of the raw manifest>` after one command |
| Resolver.ResolveSchemaOne | operator_manifest/resolver.py:35-42 | otherwise a second inspect without `--raw` runs; its error, or a missing digest field, is raised; else the result is `name@<digest>` |
| Resolver.ResolveRawFails | operator_manifest/resolver.py:31 | a failed raw inspect is raised after that one command |
| Helpers.ElementText | operator_manifest/helpers.py:62-65 | `[i]` for an index, `.key` for a key |
| Helpers.PathText | operator_manifest/helpers.py:62-65 | at least one character per path element; empty iff the path is; a one-element path is that element's text |
| Helpers.PathTextAppend | operator_manifest/helpers.py:62-65 | the text of joined paths is the joined texts |
| Helpers.PathTextEmpty | operator_manifest/helpers.py:72-73 | the text is empty (so `at top level` is written) iff the path is empty |
| Helpers.PathTextOfKeyAndIndex | operator_manifest/helpers.py:62-65 | a key followed by an index renders as `.spec[0]` |
| Helpers.Distinct | operator_manifest/helpers.py:67-70 | the same messages, each once |
| Helpers.Details | operator_manifest/helpers.py:67-74 | without sub-errors the error's own message; otherwise every non-empty sub-error message appears in the text |
| Helpers.DistinctRepeated | operator_manifest/helpers.py:67-70 | a message repeated any number of times is kept once |
| Helpers.DetailsWithoutContext | operator_manifest/helpers.py:74 | without sub-errors the error's own message is used |
| Helpers.DetailsRepeated | operator_manifest/helpers.py:67-74 | a repeated sub-error message is written once |
| Helpers.GetErrorMessage | operator_manifest/helpers.py:61-76 | the loop builds the message from path, validator and details |
| Helpers.ErrorMessageShape | operator_manifest/helpers.py:72-74 | the message starts with the path text (or `at top level`) and `: validating '`, and ends with the details and `)` |

## Left out

- File and directory I/O: `from_file`, `from_directory`, the walk over the
  YAML files, `_normalize_dir_path`, YAML loading and dumping, and JSON loading
  and dumping. An operation receives the loaded document, or the replacements
  file as its members in file order. `dump` appends the document to a log of
  saved documents.
- `OperatorManifest` with more than one CSV, and the "more than one CSV" error:
  the model works on a single loaded CSV.
- The argument parser and logging; the messages passed to logging are not modelled.
- `skopeo`, `subprocess`, `os.path.exists`, the JSON manifest fields and
  SHA-256 are parameters of `Resolver.Resolve` (the `Environment` record).
  `_run_cmd` and `_skopeo_inspect` are not modelled beyond that: the retried
  command output is one function of the arguments.
- `Resolver.Retry`: the retried function is a function of the call number;
  exceptions are values, and `wait_on` is a predicate on them.
- YAML aliasing and ruamel's comment and format preservation: the document is
  a tree value, and each update builds a new tree that the class assigns to its
  `data` field.
- Mapping keys are strings only. Python equality of numeric keys and non-string
  YAML keys is not modelled. Lower-casing and the regex `\W` are ASCII only.
- Python set iteration order is unspecified:
  - `Cli.ExtractImageReferences` states only that the list holds each found
    pullspec once, in some order.
  - `Helpers.Distinct` (and so `Helpers.GetErrorMessage`) keeps the sub-error
    messages in first-seen order, where the source joins a set in unspecified
    order.
- Cli.ShouldApply: the refusal of a CSV whose related images coexist with
  `RELATED_IMAGE_*` variables carries the CSV file's base name, not the
  formatted message; `Cli.EnvsNotAllowed` builds that message separately.
- Document.Show: a mapping or list inside a description or a conflict message
  is written as a fixed placeholder, where Python formats the whole value.
- Node equality, used only where `set_related_images` compares two images
  (`new.image != old.image`), compares non-string scalars by their `str()`
  text. So values Python counts equal across types, such as `1` and `1.0` or
  `True` and `1`, count as different here. Mappings compare in entry order,
  as the loader's `CommentedMap` values (an `OrderedDict`) do.
- Replacement.Walk: its contract does not name the error it can raise. That
  error is the one `ImageNames.ToStr` raises for a replacement without a repo
  (stated by `Replacement.Rewrite`).
- Resolver.Resolve uses the corrected `Resolver.ContainerImageName` (see
  Findings).
- `ImageName.__hash__`, `__repr__` and `copy`: the ImageName is a value and
  hashing is its equality.

## Findings

| source | as written | input that shows it | evidently intended | confidence | as-written member | corrected member |
|---|---|---|---|---|---|---|
| operator_manifest/resolver.py:54-57 | `_get_container_image_name` cuts a reference without `@` at its last `:`, even when that `:` is the registry port and the reference has no tag | `registry:5000/image` gives `registry`, so the resolved reference becomes `registry@sha256:…` | cut at the last `:` only when it follows the last `/` (a tag), keeping `registry:5000/image` | not executed | Resolver.ContainerImageNameAsWritten (Resolver.ContainerImageNameAsWrittenCutsPort) | Resolver.ContainerImageName (Resolver.ContainerImageNameKeepsPort, Resolver.ContainerImageNameOfTag, Resolver.ContainerImageNameOfUntagged) |

=== FILE: cli.dfy ===
/**
 * The command-line operations of operator_manifest/cli.py on the
 * ClusterServiceVersion of a manifest directory: `extract` lists the
 * pullspecs, `replace` rewrites them from a JSON object of replacements and
 * rebuilds `spec.relatedImages`, and `pin` resolves every tagged pullspec to
 * a digest and then replaces with the result. The directory scan and the
 * YAML and JSON files are outside the model: an operation receives the
 * loaded CSV object, the replacements file as its key and value strings in
 * file order, and the resolution of a reference through the environment of
 * the resolver.
 */
module Cli {
  import opened Wrappers
  import opened Text
  import opened Document
  import opened ImageNames
  import opened Pullspecs
  import opened Replacement
  import opened RelatedImages
  import opened OperatorCsv
  import Resolver

  /** The members of a JSON object of strings, in order, each key once. */
  type Pairs = seq<(string, string)>

  /** The words of the refusal before and after the file name. */
  const RefusalHead := "The ClusterServiceVersion file "
  const RefusalTail := " has entries in spec.relatedImages and one or more containers have RELATED_IMAGE_* environment variables set. This is not allowed."

  /** The message of the refusal of a CSV, named by its file's base name, that has both `spec.relatedImages` and `RELATED_IMAGE_*` variables. */
  function EnvsNotAllowed(csvFile: string): (r: string)
  {
    RefusalHead + csvFile + RefusalTail
  }

  /** The refusal names the file right after its opening words and ends with the rest of the sentence. */
  lemma EnvsNotAllowedNames(csvFile: string)
    ensures var r := EnvsNotAllowed(csvFile);
      |r| == |RefusalHead| + |csvFile| + |RefusalTail| && r[|RefusalHead|..|RefusalHead| + |csvFile|] == csvFile
    ensures StartsWith(EnvsNotAllowed(csvFile), RefusalHead)
    ensures Suffix(RefusalTail, EnvsNotAllowed(csvFile))
  {
    var r := EnvsNotAllowed(csvFile);
    PrefixOf(RefusalHead, csvFile + RefusalTail);
    assert r == RefusalHead + (csvFile + RefusalTail);
    SuffixOf(RefusalHead + csvFile, RefusalTail);
    assert r[|RefusalHead|..][..|csvFile|] == csvFile;
  }

  /**
   * `_should_apply_replacements`: replacements are applied exactly when
   * `spec.relatedImages` is missing or empty (a mapping, list or string
   * without elements); a CSV that already has related images is left alone,
   * and refused, naming its file, when it also has `RELATED_IMAGE_*`
   * variables.
   */
  function ShouldApply(path: string, data: Node): (r: Result<bool, Error>)
    ensures r == Ok(true) <==>
      var v := ChainGet(data, Keys(["spec", "relatedImages"]), Seq([]));
      v.Ok? && !v.value.Other? && !NonEmpty(v.value)
    ensures r == Ok(false) <==> HasRelatedImages(data) == Ok(true) && HasRelatedImageEnvs(data) == Ok(false)
    ensures HasRelatedImages(data) == Ok(true) && HasRelatedImageEnvs(data) == Ok(true) ==> r == Err(RelatedImagesWithEnvs(Basename(path)))
    ensures HasRelatedImages(data).Err? ==> r == Err(TypeError)
  {
    var has := HasRelatedImages(data);
    if has.Err? then Err(has.error)
    else if !has.value then Ok(true)
    else
      var envs := HasRelatedImageEnvs(data);
      if envs.Err? then Err(envs.error)
      else if envs.value then Err(RelatedImagesWithEnvs(Basename(path)))
      else Ok(false)
  }

  /** A CSV with both related-image views and `RELATED_IMAGE_*` variables is refused, naming the file. */
  lemma ShouldApplyRefusal(path: string, data: Node)
    requires RelatedImagePullspecs(data).Ok? && |RelatedImagePullspecs(data).value| > 0
    requires EnvPullspecs(data).Ok? && |EnvPullspecs(data).value| > 0
    ensures ShouldApply(path, data) == Err(RelatedImagesWithEnvs(Basename(path)))
  {
    assert HasRelatedImages(data) == Ok(true);
    assert HasRelatedImageEnvs(data) == Ok(true);
  }

  /** A CSV left alone has related-image views and no `RELATED_IMAGE_*` variables. */
  lemma ShouldApplySkip(path: string, data: Node)
    requires ShouldApply(path, data) == Ok(false)
    ensures RelatedImagePullspecs(data).Ok? && |RelatedImagePullspecs(data).value| > 0
    ensures EnvPullspecs(data) == Ok([])
  {
    assert HasRelatedImages(data) == Ok(true) && HasRelatedImageEnvs(data) == Ok(false);
  }

  /** A dictionary filled from key and value pairs in order: a later pair for a key overrides an earlier one. */
  function Assoc<K, V>(kvs: seq<(K, V)>): map<K, V>
  {
    if kvs == [] then map[]
    else Assoc(kvs[..|kvs| - 1])[kvs[|kvs| - 1].0 := kvs[|kvs| - 1].1]
  }

  /** One more pair of the list, in order, sets its key to its value. */
  lemma AssocSnoc<K, V>(kvs: seq<(K, V)>, i: nat)
    requires i < |kvs|
    ensures Assoc(kvs[..i + 1]) == Assoc(kvs[..i])[kvs[i].0 := kvs[i].1]
  {
    assert kvs[..i + 1][..i] == kvs[..i];
  }

  /** The keys of the dictionary are the keys of the pairs. */
  lemma {:induction false} AssocKeys<K, V>(kvs: seq<(K, V)>, x: K)
    ensures x in Assoc(kvs) <==> exists i :: 0 <= i < |kvs| && kvs[i].0 == x
  {
    if kvs != [] {
      var prev := kvs[..|kvs| - 1];
      AssocKeys(prev, x);
      if x in Assoc(prev) {
        var i :| 0 <= i < |prev| && prev[i].0 == x;
        assert kvs[i] == prev[i];
      }
      if exists i :: 0 <= i < |kvs| && kvs[i].0 == x {
        var i :| 0 <= i < |kvs| && kvs[i].0 == x;
        if i < |prev| {
          assert prev[i] == kvs[i];
        }
      }
    }
  }

  /** Every value of the dictionary is the value of a pair with that key. */
  lemma {:induction false} AssocValues<K, V>(kvs: seq<(K, V)>, x: K)
    requires x in Assoc(kvs)
    ensures exists i :: 0 <= i < |kvs| && kvs[i] == (x, Assoc(kvs)[x])
  {
    var prev := kvs[..|kvs| - 1];
    var last := kvs[|kvs| - 1];
    if last.0 == x {
      assert kvs[|kvs| - 1] == (x, Assoc(kvs)[x]);
    } else {
      AssocValues(prev, x);
      var i :| 0 <= i < |prev| && prev[i] == (x, Assoc(prev)[x]);
      assert kvs[i] == prev[i];
    }
  }

  /** A pair whose key no later pair repeats gives the value of that key. */
  lemma {:induction false} AssocLast<K, V>(kvs: seq<(K, V)>, i: nat)
    requires i < |kvs|
    requires forall j :: i < j < |kvs| ==> kvs[j].0 != kvs[i].0
    ensures kvs[i].0 in Assoc(kvs) && Assoc(kvs)[kvs[i].0] == kvs[i].1
  {
    var prev := kvs[..|kvs| - 1];
    if i < |prev| {
      assert prev[i] == kvs[i] && kvs[|kvs| - 1].0 != kvs[i].0;
      forall j | i < j < |prev|
        ensures prev[j].0 != prev[i].0
      {
        assert prev[j] == kvs[j];
      }
      AssocLast(prev, i);
    }
  }

  /** The members of the replacements file with key and value parsed. */
  function Parsed(pairs: Pairs): (r: seq<(ImageName, ImageName)>)
    ensures |r| == |pairs|
  {
    seq(|pairs|, i requires 0 <= i < |pairs| => (Parse(pairs[i].0), Parse(pairs[i].1)))
  }

  /**
   * The dictionary `replace_image_references` builds from the replacements
   * file: the parsed key maps to the parsed value, and a later member whose
   * key parses to the same name overrides an earlier one.
   */
  function ReplacementsOf(pairs: Pairs): Replacements
  {
    Assoc(Parsed(pairs))
  }

  /** The dictionary has the parsed keys of the file and nothing else. */
  lemma ReplacementsOfKeys(pairs: Pairs, x: ImageName)
    ensures x in ReplacementsOf(pairs) <==> exists i :: 0 <= i < |pairs| && Parse(pairs[i].0) == x
  {
    var kvs := Parsed(pairs);
    AssocKeys(kvs, x);
    if exists i :: 0 <= i < |pairs| && Parse(pairs[i].0) == x {
      var i :| 0 <= i < |pairs| && Parse(pairs[i].0) == x;
      assert kvs[i].0 == x;
    }
  }

  /** Every replacement is the parsed value of a member whose key parses to the replaced name, so it has a repo. */
  lemma ReplacementsOfValues(pairs: Pairs, x: ImageName)
    requires x in ReplacementsOf(pairs)
    ensures exists i :: 0 <= i < |pairs| && Parse(pairs[i].0) == x && ReplacementsOf(pairs)[x] == Parse(pairs[i].1)
    ensures ReplacementsOf(pairs)[x].repo.Some?
  {
    var kvs := Parsed(pairs);
    AssocValues(kvs, x);
    var i :| 0 <= i < |kvs| && kvs[i] == (x, Assoc(kvs)[x]);
    assert Parse(pairs[i].0) == x && ReplacementsOf(pairs)[x] == Parse(pairs[i].1);
  }

  /** A member whose key no later member repeats (once parsed) gives the replacement of that key. */
  lemma ReplacementsOfLast(pairs: Pairs, i: nat)
    requires i < |pairs|
    requires forall j :: i < j < |pairs| ==> Parse(pairs[j].0) != Parse(pairs[i].0)
    ensures Parse(pairs[i].0) in ReplacementsOf(pairs)
    ensures ReplacementsOf(pairs)[Parse(pairs[i].0)] == Parse(pairs[i].1)
  {
    var kvs := Parsed(pairs);
    forall j | i < j < |kvs|
      ensures kvs[j].0 != kvs[i].0
    {
    }
    AssocLast(kvs, i);
  }

  /** The loop of `replace_image_references` that fills the dictionary. */
  method BuildReplacements(pairs: Pairs) returns (m: Replacements)
    ensures m == ReplacementsOf(pairs)
  {
    ghost var kvs := Parsed(pairs);
    m := map[];
    var i := 0;
    while i < |pairs|
      invariant 0 <= i <= |pairs|
      invariant m == Assoc(kvs[..i])
    {
      AssocSnoc(kvs, i);
      m := m[Parse(pairs[i].0) := Parse(pairs[i].1)];
      i := i + 1;
    }
    assert kvs[..|pairs|] == kvs;
  }

  /**
   * What `replace_image_references` does to the document of the CSV at
   * `path`: the document it leaves in memory, the error it raises, and
   * whether it gets as far as writing (which `--dry-run` then skips).
   */
  function Replaced(path: string, data: Node, pairs: Pairs): (r: (Node, Option<Error>, bool))
    requires data.Map?
    ensures r.0.Map?
    ensures r.2 ==> r.1.None?
    ensures ShouldApply(path, data).Err? ==> r == (data, Some(ShouldApply(path, data).error), false)
    ensures ShouldApply(path, data) == Ok(false) ==> r == (data, None, false)
    ensures r.2 ==> ShouldApply(path, data) == Ok(true)
  {
    match ShouldApply(path, data)
    case Err(e) => (data, Some(e), false)
    case Ok(false) => (data, None, false)
    case Ok(true) =>
      var walked := Walk(data, Rewriter(ReplacementsOf(pairs))).0;
      match RelatedImagesUpdate(path, walked)
      case Ok(d) => (d, None, true)
      case Err(e) => (walked, Some(e), false)
  }

  /** The rewrite of every string never fails on the replacements of a file, since parsing always yields a repo. */
  lemma ReplacedWalkClean(data: Node, pairs: Pairs)
    ensures Walk(data, Rewriter(ReplacementsOf(pairs))).1.None?
  {
    var m := ReplacementsOf(pairs);
    forall s
      ensures Rewriter(m)(s).Ok?
    {
      if Parse(s) in m {
        ReplacementsOfValues(pairs, Parse(s));
      }
    }
    WalkNoError(data, Rewriter(m));
  }

  /**
   * A replacement that is applied and written leaves `spec.relatedImages`
   * with one record per name, the records of every view of the rewritten
   * document, and the rest of the rewritten document as it was.
   */
  lemma ReplacedRelatedImages(path: string, data: Node, pairs: Pairs)
    requires data.Map? && Replaced(path, data, pairs).2
    ensures ShouldApply(path, data) == Ok(true)
    ensures var walked := Walk(data, Rewriter(ReplacementsOf(pairs))).0;
      && walked.Map?
      && NamedPullspecs(walked).Ok? && Facts(NamedPullspecs(walked).value).Ok?
      && var records := Records(Scan(Facts(NamedPullspecs(walked).value).value).0);
      && WriteEffect(walked, records, Replaced(path, data, pairs).0)
      && (forall j, j' :: 0 <= j < j' < |records| ==> Subscript(records[j], Key("name")) != Subscript(records[j'], Key("name")))
  {
    var walked := Walk(data, Rewriter(ReplacementsOf(pairs))).0;
    RelatedImagesUpdateRecords(path, walked);
  }

  /** A file whose every value names the same image as its key changes nothing but the related images. */
  lemma ReplacedIdentity(path: string, data: Node, pairs: Pairs)
    requires data.Map? && ShouldApply(path, data) == Ok(true)
    requires forall i :: 0 <= i < |pairs| ==> Parse(pairs[i].1) == Parse(pairs[i].0)
    ensures Replaced(path, data, pairs) ==
      match RelatedImagesUpdate(path, data)
      case Ok(d) => (d, None, true)
      case Err(e) => (data, Some(e), false)
  {
    var m := ReplacementsOf(pairs);
    forall s
      ensures Rewriter(m)(s) == Ok(s)
    {
      if Parse(s) in m {
        ReplacementsOfValues(pairs, Parse(s));
      }
    }
    WalkIdentity(data, Rewriter(m));
  }

  /**
   * `replace_image_references` on a loaded CSV: unless the CSV is to be left
   * alone, every string naming a replaced image is rewritten, the related
   * images are rebuilt, and the document is written unless `dryRun`.
   */
  method ReplaceImageReferences(csv: OperatorCSV, pairs: Pairs, dryRun: bool) returns (err: Option<Error>)
    requires csv.Valid()
    modifies csv
    ensures csv.Valid()
    ensures (csv.data, err) == (Replaced(csv.path, old(csv.data), pairs).0, Replaced(csv.path, old(csv.data), pairs).1)
    ensures csv.saved == old(csv.saved) + (if Replaced(csv.path, old(csv.data), pairs).2 && !dryRun then [csv.data] else [])
  {
    var should := ShouldApply(csv.path, csv.data);
    if should.Err? {
      return Some(should.error);
    }
    if !should.value {
      return None;
    }
    var m := BuildReplacements(pairs);
    ReplacedWalkClean(csv.data, pairs);
    err := csv.ReplacePullspecsEverywhere(m);
    err := csv.SetRelatedImages();
    if err.Some? {
      return;
    }
    if !dryRun {
      csv.Dump();
    }
  }

  /** `refs` holds the text of every image of `found` and nothing else, as many texts as images. */
  predicate Lists(found: set<ImageName>, refs: seq<string>)
  {
    && |refs| == |found|
    && (forall x :: x in found ==> x.repo.Some? && Render(x) in refs)
    && (forall i :: 0 <= i < |refs| ==> exists x :: x in found && x.repo.Some? && refs[i] == Render(x))
  }

  /**
   * `extract_image_references` on a loaded CSV: the text of every pullspec
   * found, each once, in the unspecified order of the set they come from.
   */
  method ExtractImageReferences(csv: OperatorCSV) returns (r: Result<seq<string>, Error>)
    ensures r.Err? <==> FoundPullspecs(csv.data).Err?
    ensures r.Err? ==> r.error == FoundPullspecs(csv.data).error
    ensures r.Ok? ==> Lists(FoundPullspecs(csv.data).value, r.value)
  {
    var found := csv.GetPullspecs();
    if found.Err? {
      return Err(found.error);
    }
    var all := found.value;
    forall x | x in all
      ensures x.repo.Some?
    {
      PullspecsAreNamedImages(csv.data, x);
    }
    var refs := RenderEach(all);
    return Ok(refs);
  }

  /** The text of each image of a set, taken out one at a time in an unspecified order. */
  method RenderEach(all: set<ImageName>) returns (refs: seq<string>)
    requires forall x :: x in all ==> x.repo.Some?
    ensures Lists(all, refs)
  {
    var rest := all;
    refs := [];
    while rest != {}
      invariant rest <= all
      invariant |refs| + |rest| == |all|
      invariant forall x :: x in all && x !in rest ==> Render(x) in refs
      invariant forall i :: 0 <= i < |refs| ==> exists x :: x in all && x.repo.Some? && refs[i] == Render(x)
      decreases |rest|
    {
      var x :| x in rest;
      refs := refs + [Render(x)];
      rest := rest - {x};
    }
  }

  predicate HasKey(pairs: Pairs, k: string)
  {
    exists i :: 0 <= i < |pairs| && pairs[i].0 == k
  }

  /** No key appears twice, as in any dictionary. */
  predicate DistinctKeys(pairs: Pairs)
  {
    forall i, j :: 0 <= i < j < |pairs| ==> pairs[i].0 != pairs[j].0
  }

  /** `replacements[reference] = pinned` on a dictionary: an existing key keeps its place, a new one goes last. */
  function Assign(pairs: Pairs, k: string, v: string): (r: Pairs)
    ensures HasKey(pairs, k) ==> |r| == |pairs|
    ensures !HasKey(pairs, k) ==> r == pairs + [(k, v)]
    ensures forall i :: 0 <= i < |pairs| ==> r[i].0 == pairs[i].0
    ensures forall i :: 0 <= i < |pairs| && pairs[i].0 != k ==> r[i] == pairs[i]
    ensures DistinctKeys(pairs) ==> DistinctKeys(r) && forall i :: 0 <= i < |pairs| && pairs[i].0 == k ==> r[i] == (k, v)
  {
    match FirstKey(pairs, k)
    case None => pairs + [(k, v)]
    case Some(i) => pairs[i := (k, v)]
  }

  /** The position of the first pair with the key, if any. */
  function FirstKey(pairs: Pairs, k: string): (r: Option<nat>)
    ensures r.None? <==> !HasKey(pairs, k)
    ensures r.Some? ==> r.value < |pairs| && pairs[r.value].0 == k && forall i :: 0 <= i < r.value ==> pairs[i].0 != k
  {
    if pairs == [] then None
    else if pairs[0].0 == k then Some(0)
    else match FirstKey(pairs[1..], k)
      case None =>
        assert forall i :: 0 < i < |pairs| ==> pairs[i] == pairs[1..][i - 1];
        None
      case Some(i) => Some(i + 1)
  }

  /**
   * The replacements `pin_image_references` gathers from the extracted
   * references: a reference already holding a digest is skipped, every
   * other one is resolved, and the first failing resolution stops it.
   */
  function PinPairs(refs: seq<string>, authfile: string, env: Resolver.Environment): (r: Result<Pairs, Error>)
  {
    if refs == [] then Ok([])
    else
      var done :- PinPairs(refs[..|refs| - 1], authfile, env);
      var ref := refs[|refs| - 1];
      if '@' in ref then Ok(done)
      else
        var pinned :- Resolver.Resolve(ref, authfile, env).0;
        Ok(Assign(done, ref, pinned))
  }

  /** One more reference extends the gathered replacements as the loop body does. */
  lemma PinPairsStep(refs: seq<string>, i: nat, authfile: string, env: Resolver.Environment, done: Pairs)
    requires i < |refs| && PinPairs(refs[..i], authfile, env) == Ok(done)
    ensures PinPairs(refs[..i + 1], authfile, env) ==
      var resolved := Resolver.Resolve(refs[i], authfile, env).0;
      if '@' in refs[i] then Ok(done)
      else if resolved.Err? then Err(resolved.error)
      else Ok(Assign(done, refs[i], resolved.value))
  {
    var q := refs[..i + 1];
    assert q[..|q| - 1] == refs[..i] && q[|q| - 1] == refs[i];
  }

  /** Once a resolution fails, the later references change nothing: its error is the outcome. */
  lemma {:induction false} PinPairsStops(refs: seq<string>, k: nat, authfile: string, env: Resolver.Environment)
    requires k <= |refs| && PinPairs(refs[..k], authfile, env).Err?
    ensures PinPairs(refs, authfile, env) == PinPairs(refs[..k], authfile, env)
  {
    if k < |refs| {
      var prev := refs[..|refs| - 1];
      assert prev[..k] == refs[..k];
      PinPairsStops(prev, k, authfile, env);
    } else {
      assert refs[..k] == refs;
    }
  }

  /** The gathering loop of `pin_image_references`. */
  method ResolveAll(refs: seq<string>, authfile: string, env: Resolver.Environment) returns (r: Result<Pairs, Error>)
    ensures r == PinPairs(refs, authfile, env)
  {
    var pairs: Pairs := [];
    var i := 0;
    while i < |refs|
      invariant 0 <= i <= |refs|
      invariant PinPairs(refs[..i], authfile, env) == Ok(pairs)
    {
      PinPairsStep(refs, i, authfile, env, pairs);
      if '@' !in refs[i] {
        var resolved := Resolver.Resolve(refs[i], authfile, env).0;
        if resolved.Err? {
          PinPairsStops(refs, i + 1, authfile, env);
          return Err(resolved.error);
        }
        pairs := Assign(pairs, refs[i], resolved.value);
      }
      i := i + 1;
    }
    assert refs[..|refs|] == refs;
    return Ok(pairs);
  }

  /**
   * The gathered replacements have each key once, and every key is an
   * extracted reference without a digest whose value is that reference
   * resolved.
   */
  lemma {:induction false} PinPairsEntries(refs: seq<string>, authfile: string, env: Resolver.Environment)
    requires PinPairs(refs, authfile, env).Ok?
    ensures var pairs := PinPairs(refs, authfile, env).value;
      && DistinctKeys(pairs)
      && forall j :: 0 <= j < |pairs| ==>
           pairs[j].0 in refs && '@' !in pairs[j].0 && Resolver.Resolve(pairs[j].0, authfile, env).0 == Ok(pairs[j].1)
  {
    if refs != [] {
      var prev := refs[..|refs| - 1];
      var ref := refs[|refs| - 1];
      PinPairsLast(refs, authfile, env);
      PinPairsEntries(prev, authfile, env);
      var done := PinPairs(prev, authfile, env).value;
      forall j | 0 <= j < |done|
        ensures done[j].0 in refs
      {
        assert done[j].0 in prev;
      }
      if '@' !in ref {
        var pinned := Resolver.Resolve(ref, authfile, env).0.value;
        var pairs := Assign(done, ref, pinned);
        forall j | 0 <= j < |pairs|
          ensures pairs[j].0 in refs && '@' !in pairs[j].0 && Resolver.Resolve(pairs[j].0, authfile, env).0 == Ok(pairs[j].1)
        {
          if j < |done| && done[j].0 != ref {
            assert pairs[j] == done[j];
          } else {
            assert pairs[j] == (ref, pinned);
          }
        }
      }
    }
  }

  /** A successful gathering is the gathering of all but the last reference, with the last one assigned unless it has a digest. */
  lemma PinPairsLast(refs: seq<string>, authfile: string, env: Resolver.Environment)
    requires refs != [] && PinPairs(refs, authfile, env).Ok?
    ensures PinPairs(refs[..|refs| - 1], authfile, env).Ok?
    ensures '@' !in refs[|refs| - 1] ==> Resolver.Resolve(refs[|refs| - 1], authfile, env).0.Ok?
    ensures PinPairs(refs, authfile, env).value ==
      var done := PinPairs(refs[..|refs| - 1], authfile, env).value;
      if '@' in refs[|refs| - 1] then done
      else Assign(done, refs[|refs| - 1], Resolver.Resolve(refs[|refs| - 1], authfile, env).0.value)
  {
  }

  /** After an assignment the keys are the old keys and the assigned one. */
  lemma AssignKeys(pairs: Pairs, k: string, v: string, x: string)
    ensures HasKey(Assign(pairs, k, v), x) <==> HasKey(pairs, x) || x == k
  {
    var r := Assign(pairs, k, v);
    if HasKey(pairs, x) {
      var j :| 0 <= j < |pairs| && pairs[j].0 == x;
      assert r[j].0 == x;
    }
    if HasKey(r, x) && x != k {
      var j :| 0 <= j < |r| && r[j].0 == x;
      assert j < |pairs| && pairs[j].0 == x;
    }
    if x == k && !HasKey(pairs, k) {
      assert r[|pairs|].0 == k;
    }
  }

  /** Every extracted reference without a digest is a key of the gathered replacements. */
  lemma {:induction false} PinPairsCovers(refs: seq<string>, authfile: string, env: Resolver.Environment)
    requires PinPairs(refs, authfile, env).Ok?
    ensures forall i :: 0 <= i < |refs| && '@' !in refs[i] ==> HasKey(PinPairs(refs, authfile, env).value, refs[i])
  {
    if refs != [] {
      var prev := refs[..|refs| - 1];
      PinPairsGrow(refs, authfile, env);
      PinPairsCovers(prev, authfile, env);
      forall i | 0 <= i < |refs| - 1 && '@' !in refs[i]
        ensures HasKey(PinPairs(refs, authfile, env).value, refs[i])
      {
        assert prev[i] == refs[i];
      }
    }
  }

  /** One more reference keeps every key gathered so far and adds its own when it has no digest. */
  lemma PinPairsGrow(refs: seq<string>, authfile: string, env: Resolver.Environment)
    requires refs != [] && PinPairs(refs, authfile, env).Ok?
    ensures PinPairs(refs[..|refs| - 1], authfile, env).Ok?
    ensures forall x :: HasKey(PinPairs(refs[..|refs| - 1], authfile, env).value, x) ==> HasKey(PinPairs(refs, authfile, env).value, x)
    ensures '@' !in refs[|refs| - 1] ==> HasKey(PinPairs(refs, authfile, env).value, refs[|refs| - 1])
  {
    var ref := refs[|refs| - 1];
    var done := PinPairs(refs[..|refs| - 1], authfile, env).value;
    PinPairsLast(refs, authfile, env);
    if '@' !in ref {
      var pinned := Resolver.Resolve(ref, authfile, env).0.value;
      forall x | HasKey(done, x) || x == ref
        ensures HasKey(Assign(done, ref, pinned), x)
      {
        AssignKeys(done, ref, pinned, x);
      }
    }
  }

  /** Every value written to the replacements file is its key's image name pinned to a digest. */
  lemma PinPairsPinned(refs: seq<string>, authfile: string, env: Resolver.Environment)
    requires PinPairs(refs, authfile, env).Ok?
    ensures var pairs := PinPairs(refs, authfile, env).value;
      forall j :: 0 <= j < |pairs| ==> StartsWith(pairs[j].1, Resolver.ContainerImageName(pairs[j].0) + "@")
  {
    PinPairsEntries(refs, authfile, env);
  }

  /** The gathering succeeds exactly when every reference without a digest resolves. */
  lemma {:induction false} PinPairsOk(refs: seq<string>, authfile: string, env: Resolver.Environment)
    ensures PinPairs(refs, authfile, env).Ok? <==>
      forall i :: 0 <= i < |refs| && '@' !in refs[i] ==> Resolver.Resolve(refs[i], authfile, env).0.Ok?
  {
    if refs != [] {
      var prev := refs[..|refs| - 1];
      PinPairsOk(prev, authfile, env);
      forall i | 0 <= i < |prev|
        ensures prev[i] == refs[i]
      {
      }
    }
  }

  /**
   * `pin_image_references` on a loaded CSV: the references extracted, the
   * replacements written to the replacements file (when it gets that far),
   * and then what `replace_image_references` does with them.
   */
  method PinImageReferences(csv: OperatorCSV, seekable: bool, authfile: string, env: Resolver.Environment, dryRun: bool)
    returns (err: Option<Error>, references: seq<string>, written: Option<Pairs>)
    requires csv.Valid()
    modifies csv
    ensures csv.Valid()
    ensures !seekable ==> err == Some(NotSeekable) && written.None? && csv.data == old(csv.data) && csv.saved == old(csv.saved)
    ensures seekable && FoundPullspecs(old(csv.data)).Err? ==>
      err == Some(FoundPullspecs(old(csv.data)).error) && written.None? && csv.data == old(csv.data) && csv.saved == old(csv.saved)
    ensures seekable && FoundPullspecs(old(csv.data)).Ok? ==> Lists(FoundPullspecs(old(csv.data)).value, references)
    ensures seekable && FoundPullspecs(old(csv.data)).Ok? && ShouldApply(csv.path, old(csv.data)) != Ok(true) ==>
      && written.None?
      && (csv.data, err) == (Replaced(csv.path, old(csv.data), []).0, Replaced(csv.path, old(csv.data), []).1)
      && csv.saved == old(csv.saved)
    ensures seekable && FoundPullspecs(old(csv.data)).Ok? && ShouldApply(csv.path, old(csv.data)) == Ok(true) ==>
      match PinPairs(references, authfile, env)
      case Err(e) => err == Some(e) && written.None? && csv.data == old(csv.data) && csv.saved == old(csv.saved)
      case Ok(pairs) =>
        && written == Some(pairs)
        && (csv.data, err) == (Replaced(csv.path, old(csv.data), pairs).0, Replaced(csv.path, old(csv.data), pairs).1)
        && csv.saved == old(csv.saved) + (if Replaced(csv.path, old(csv.data), pairs).2 && !dryRun then [csv.data] else [])
  {
    references, written := [], None;
    if !seekable {
      return Some(NotSeekable), references, written;
    }
    var extracted := ExtractImageReferences(csv);
    if extracted.Err? {
      return Some(extracted.error), references, written;
    }
    references := extracted.value;
    var should := ShouldApply(csv.path, csv.data);
    if should.Err? {
      return Some(should.error), references, written;
    }
    if !should.value {
      return None, references, written;
    }
    var pairs := ResolveAll(references, authfile, env);
    if pairs.Err? {
      return Some(pairs.error), references, written;
    }
    written := Some(pairs.value);
    err := ReplaceImageReferences(csv, pairs.value, dryRun);
  }
}

=== FILE: document.dfy ===
/**
 * The parsed YAML document the operator code walks, and the Python
 * operations it applies to it: subscripting by key or index, `.get`,
 * iteration, `in`, and `chain_get` (operator_manifest/operator.py).
 *
 * Every mapping and sequence is one that the YAML loader produced; mapping
 * keys are strings and a mapping has no two entries with the same key.
 * Scalars other than strings (numbers, booleans, null) are `Other`, carrying
 * the text Python's `str()` gives them.
 */
module Document {
  import opened Wrappers
  import opened Text

  datatype Node =
    | Map(entries: seq<(string, Node)>)
    | Seq(items: seq<Node>)
    | Str(s: string)
    | Other(text: string)

  /** A position in the document: the entry index in a mapping or the item index in a sequence, from the root down. */
  type Pos = seq<nat>

  /** The child at index `i` of a mapping or sequence. */
  function Child(n: Node, i: nat): (r: Option<Node>)
    ensures r.Some? <==> (n.Map? && i < |n.entries|) || (n.Seq? && i < |n.items|)
  {
    match n
    case Map(es) => if i < |es| then Some(es[i].1) else None
    case Seq(xs) => if i < |xs| then Some(xs[i]) else None
    case _ => None
  }

  /** The node at position `p`, if there is one. */
  function At(n: Node, p: Pos): Option<Node>
    decreases |p|
  {
    if p == [] then Some(n)
    else match Child(n, p[0])
      case None => None
      case Some(c) => At(c, p[1..])
  }

  /** `n` with its child `i` replaced by `c` (keys and the other children are kept). */
  function WithChild(n: Node, i: nat, c: Node): (r: Node)
    requires Child(n, i).Some?
    ensures Child(r, i) == Some(c)
    ensures forall j: nat :: j != i ==> Child(r, j) == Child(n, j)
    ensures n.Map? ==> r.Map? && |r.entries| == |n.entries| && forall j :: 0 <= j < |n.entries| ==> r.entries[j].0 == n.entries[j].0
    ensures n.Seq? ==> r.Seq? && |r.items| == |n.items|
  {
    match n
    case Map(es) => Map(es[i := (es[i].0, c)])
    case Seq(xs) => Seq(xs[i := c])
  }

  /** The assignment `obj[k] = v` at position `p`: the node there becomes `v`. */
  function Put(n: Node, p: Pos, v: Node): Node
    decreases |p|
  {
    if p == [] then v
    else match Child(n, p[0])
      case None => n
      case Some(c) => WithChild(n, p[0], Put(c, p[1..], v))
  }

  predicate IsPrefix(p: Pos, q: Pos)
  {
    |p| <= |q| && q[..|p|] == p
  }

  lemma PrefixTail(p: Pos, q: Pos)
    requires p != [] && q != [] && p[0] == q[0]
    ensures IsPrefix(p, q) <==> IsPrefix(p[1..], q[1..])
  {
    if |p| <= |q| {
      assert q[..|p|] == [q[0]] + q[1..][..|p| - 1];
      assert p == [p[0]] + p[1..];
    }
  }

  /** After an assignment at an existing position, that position holds the new value. */
  lemma {:induction false} PutAt(n: Node, p: Pos, v: Node)
    requires At(n, p).Some?
    ensures At(Put(n, p, v), p) == Some(v)
    decreases |p|
  {
    if p != [] {
      var c := Child(n, p[0]).value;
      PutAt(c, p[1..], v);
    }
  }

  /** An assignment leaves every position that is neither above nor below it as it was. */
  lemma {:induction false} PutElsewhere(n: Node, p: Pos, v: Node, q: Pos)
    requires !IsPrefix(p, q) && !IsPrefix(q, p)
    ensures At(Put(n, p, v), q) == At(n, q)
    decreases |p|
  {
    assert p != [] && q != [];
    match Child(n, p[0])
    case None =>
    case Some(c) =>
      if q[0] == p[0] {
        PrefixTail(p, q);
        PrefixTail(q, p);
        PutElsewhere(c, p[1..], v, q[1..]);
      }
  }

  /** Two positions that part ways somewhere: neither lies at or below the other. */
  predicate Apart(p: Pos, q: Pos)
  {
    exists s :: 0 <= s < |p| && s < |q| && p[s] != q[s]
  }

  lemma ApartNotPrefix(p: Pos, q: Pos)
    requires Apart(p, q)
    ensures !IsPrefix(p, q) && !IsPrefix(q, p)
  {
    var s :| 0 <= s < |p| && s < |q| && p[s] != q[s];
    assert |p| <= |q| ==> q[..|p|][s] != p[s];
    assert |q| <= |p| ==> p[..|q|][s] != q[s];
  }

  /** Positions below two positions that part ways part ways too. */
  lemma ApartBelow(p: Pos, q: Pos, p': Pos, q': Pos)
    requires Apart(p, q) && IsPrefix(p, p') && IsPrefix(q, q')
    ensures Apart(p', q')
  {
    var s :| 0 <= s < |p| && s < |q| && p[s] != q[s];
    assert p'[..|p|][s] == p'[s] && q'[..|q|][s] == q'[s];
  }

  /** Two nodes with the same kind and, for mappings, the same keys in the same order. */
  predicate SameKeys(a: Node, b: Node)
  {
    && (a.Map? <==> b.Map?)
    && (a.Seq? <==> b.Seq?)
    && (a.Map? ==> |a.entries| == |b.entries| && forall i :: 0 <= i < |a.entries| ==> a.entries[i].0 == b.entries[i].0)
    && (a.Seq? ==> |a.items| == |b.items|)
  }

  /** An assignment keeps every position above it, and the keys of the mappings there. */
  lemma {:induction false} PutAbove(n: Node, p: Pos, v: Node, q: Pos)
    requires At(n, p).Some? && IsPrefix(q, p) && q != p
    ensures At(Put(n, p, v), q).Some? && At(n, q).Some? && SameKeys(At(Put(n, p, v), q).value, At(n, q).value)
    decreases |q|
  {
    var c := Child(n, p[0]).value;
    if q == [] {
    } else {
      PrefixTail(q, p);
      assert q[0] == p[0];
      PutAbove(c, p[1..], v, q[1..]);
    }
  }

  /** A mapping lookup only depends on the keys. */
  lemma {:induction false} KeyIndexSameKeys(a: seq<(string, Node)>, b: seq<(string, Node)>, k: string)
    requires |a| == |b| && forall i :: 0 <= i < |a| ==> a[i].0 == b[i].0
    ensures KeyIndex(a, k) == KeyIndex(b, k)
  {
    if a != [] {
      KeyIndexSameKeys(a[1..], b[1..], k);
    }
  }

  /** One step down a position: the key of a mapping entry or the index of a sequence item. */
  datatype Step = KeyStep(key: string) | IndexStep(index: nat)

  /** The keys and indices that lead from `n` down to position `p`, as far as `p` exists. */
  function Route(n: Node, p: Pos): (r: seq<Step>)
    ensures At(n, p).Some? ==> |r| == |p|
    decreases |p|
  {
    if p == [] then []
    else match n
      case Map(es) => if p[0] < |es| then [KeyStep(es[p[0]].0)] + Route(es[p[0]].1, p[1..]) else []
      case Seq(xs) => if p[0] < |xs| then [IndexStep(p[0])] + Route(xs[p[0]], p[1..]) else []
      case _ => []
  }

  /** The step to child `i` of `n`. */
  function StepTo(n: Node, i: nat): Step
    requires Child(n, i).Some?
  {
    if n.Map? then KeyStep(n.entries[i].0) else IndexStep(i)
  }

  lemma {:induction false} RouteExtend(n: Node, p: Pos, i: nat)
    requires At(n, p).Some? && Child(At(n, p).value, i).Some?
    ensures Route(n, p + [i]) == Route(n, p) + [StepTo(At(n, p).value, i)]
    decreases |p|
  {
    if p == [] {
      assert [i][1..] == [];
    } else {
      assert (p + [i])[1..] == p[1..] + [i];
      assert (p + [i])[0] == p[0];
      RouteExtend(Child(n, p[0]).value, p[1..], i);
    }
  }

  /** Two positions whose routes differ at a step both of them take part ways. */
  lemma {:induction false} RouteApart(n: Node, p: Pos, q: Pos, t: nat)
    requires At(n, p).Some? && At(n, q).Some?
    requires t < |p| && t < |q| && Route(n, p)[t] != Route(n, q)[t]
    ensures Apart(p, q)
    decreases t
  {
    if p[0] != q[0] {
      assert p[0] != q[0];
    } else {
      var c := Child(n, p[0]).value;
      assert t > 0;
      RouteApart(c, p[1..], q[1..], t - 1);
      var s :| 0 <= s < |p[1..]| && s < |q[1..]| && p[1..][s] != q[1..][s];
      assert p[s + 1] != q[s + 1];
    }
  }

  /** The route to a position above another is the start of the route to it. */
  lemma {:induction false} RoutePrefix(n: Node, p: Pos, q: Pos)
    requires At(n, q).Some? && IsPrefix(p, q)
    ensures Route(n, p) == Route(n, q)[..|p|]
    decreases |p|
  {
    if p != [] {
      PrefixTail(p, q);
      assert q[0] == q[..|p|][0] == p[0];
      RoutePrefix(Child(n, p[0]).value, p[1..], q[1..]);
    }
  }

  /** Index of the first entry with key `k` (a mapping lookup). */
  function KeyIndex(es: seq<(string, Node)>, k: string): (r: Option<nat>)
    ensures r.None? <==> forall i :: 0 <= i < |es| ==> es[i].0 != k
    ensures r.Some? ==> r.value < |es| && es[r.value].0 == k && forall i :: 0 <= i < r.value ==> es[i].0 != k
  {
    if es == [] then None
    else if es[0].0 == k then Some(0)
    else match KeyIndex(es[1..], k)
      case None => None
      case Some(i) => Some(i + 1)
  }

  /** A key or index of a `chain_get` path. */
  datatype Selector = Key(name: string) | Index(i: int)

  /** How `obj[sel]` ends: a value, KeyError/IndexError, or TypeError. */
  datatype Lookup = Found(value: Node) | Missing | Unsubscriptable

  /**
   * Python's `obj[sel]`: a mapping looks the key up (an integer is never one
   * of its keys), a sequence or string takes the item at the index, counting
   * from the end when it is negative, and anything else cannot be subscripted.
   */
  function Subscript(n: Node, sel: Selector): (r: Lookup)
    ensures r.Unsubscriptable? <==> n.Other? || (sel.Key? && (n.Seq? || n.Str?))
    ensures n.Map? && sel.Key? ==> (r.Found? <==> exists i :: 0 <= i < |n.entries| && n.entries[i].0 == sel.name)
    ensures n.Map? && sel.Key? && r.Found? ==>
      exists i :: 0 <= i < |n.entries| && n.entries[i] == (sel.name, r.value) && forall j :: 0 <= j < i ==> n.entries[j].0 != sel.name
    ensures n.Map? && sel.Index? ==> r == Missing
    ensures n.Seq? && sel.Index? ==> (r.Found? <==> -|n.items| <= sel.i < |n.items|)
    ensures n.Seq? && sel.Index? && r.Found? ==> r.value == n.items[if sel.i < 0 then |n.items| + sel.i else sel.i]
    ensures n.Str? && sel.Index? ==> (r.Found? <==> -|n.s| <= sel.i < |n.s|)
    ensures n.Str? && sel.Index? && r.Found? ==> r.value == Str([n.s[if sel.i < 0 then |n.s| + sel.i else sel.i]])
  {
    match (n, sel)
    case (Map(es), Key(k)) =>
      (match KeyIndex(es, k)
       case Some(i) => Found(es[i].1)
       case None => Missing)
    case (Map(_), Index(_)) => Missing
    case (Seq(xs), Index(i)) =>
      if -|xs| <= i < |xs| then Found(xs[if i < 0 then i + |xs| else i]) else Missing
    case (Str(s), Index(i)) =>
      if -|s| <= i < |s| then Found(Str([s[if i < 0 then i + |s| else i]])) else Missing
    case (_, _) => Unsubscriptable
  }

  /** Following a path of subscripts while every one of them finds something. */
  function Select(n: Node, path: seq<Selector>): Option<Node>
    decreases |path|
  {
    if path == [] then Some(n)
    else match Subscript(n, path[0])
      case Found(c) => Select(c, path[1..])
      case _ => None
  }

  /**
   * `chain_get(d, path, default)`: the value at the end of the path, the
   * default as soon as a key or index is missing, and the TypeError of a
   * subscript on something that cannot take it.
   */
  function ChainGet(d: Node, path: seq<Selector>, default: Node): (r: Result<Node, Error>)
    ensures Select(d, path).Some? ==> r == Ok(Select(d, path).value)
    ensures r.Err? ==> r.error == TypeError
    ensures r.Ok? ==> r.value == default || Select(d, path) == Some(r.value)
    ensures forall k :: 0 <= k < |path| && Select(d, path[..k]).Some? ==>
      && (Subscript(Select(d, path[..k]).value, path[k]).Missing? ==> r == Ok(default))
      && (Subscript(Select(d, path[..k]).value, path[k]).Unsubscriptable? ==> r == Err(TypeError))
    decreases |path|
  {
    if path == [] then Ok(d)
    else
      assert path[..0] == [];
      match Subscript(d, path[0])
      case Found(c) =>
        SelectFirstStep(d, path);
        ChainGet(c, path[1..], default)
      case Missing =>
        SelectFirstStep(d, path);
        Ok(default)
      case Unsubscriptable =>
        SelectFirstStep(d, path);
        Err(TypeError)
  }

  /** Following the first `k` selectors of a path is the first subscript and then the next `k - 1`. */
  lemma SelectFirstStep(d: Node, path: seq<Selector>)
    requires path != []
    ensures Subscript(d, path[0]).Found? ==>
      forall k :: 1 <= k <= |path| ==> Select(d, path[..k]) == Select(Subscript(d, path[0]).value, path[1..][..k - 1])
    ensures !Subscript(d, path[0]).Found? ==> forall k :: 1 <= k <= |path| ==> Select(d, path[..k]).None?
  {
    forall k | 1 <= k <= |path|
      ensures Select(d, path[..k]) ==
        match Subscript(d, path[0])
        case Found(c) => Select(c, path[1..][..k - 1])
        case _ => None
    {
      assert path[..k][0] == path[0];
      assert path[..k][1..] == path[1..][..k - 1];
    }
  }

  /** `chain_get` as the source writes it: a loop that moves `obj` down the path. */
  method ChainGetLoop(d: Node, path: seq<Selector>, default: Node) returns (r: Result<Node, Error>)
    ensures r == ChainGet(d, path, default)
  {
    var obj := d;
    var k := 0;
    while k < |path|
      invariant 0 <= k <= |path|
      invariant ChainGet(d, path, default) == ChainGet(obj, path[k..], default)
      decreases |path| - k
    {
      assert path[k..][1..] == path[k + 1..];
      match Subscript(obj, path[k]) {
        case Found(c) =>
          obj := c;
        case Missing =>
          return Ok(default);
        case Unsubscriptable =>
          return Err(TypeError);
      }
      k := k + 1;
    }
    return Ok(obj);
  }

  /** A missing key anywhere along the path makes `chain_get` return the default. */
  lemma {:induction false} ChainGetMissingKey(d: Node, path: seq<Selector>, i: nat, default: Node)
    requires i < |path| && path[i].Key?
    requires Select(d, path[..i]).Some? && Select(d, path[..i]).value.Map?
    requires forall j :: 0 <= j < |Select(d, path[..i]).value.entries| ==> Select(d, path[..i]).value.entries[j].0 != path[i].name
    ensures ChainGet(d, path, default) == Ok(default)
    decreases i
  {
    if i > 0 {
      assert path[..i][1..] == path[1..][..i - 1];
      var c := Subscript(d, path[0]).value;
      ChainGetMissingKey(c, path[1..], i - 1, default);
    } else {
      assert path[..0] == [];
    }
  }

  /**
   * A value the operator code holds: a node of the document with its
   * position, or a string that is not in the document (a mapping key or a
   * character produced by iteration).
   */
  datatype Located = Attached(node: Node, at: Pos) | Detached(text: string)

  function Value(l: Located): Node
  {
    match l
    case Attached(n, _) => n
    case Detached(t) => Str(t)
  }

  /** `l` is what the document `root` holds at its position. */
  predicate InTree(root: Node, l: Located)
  {
    l.Attached? ==> At(root, l.at) == Some(l.node)
  }

  /** `obj[key]` on a held value: KeyError for a missing key, TypeError on a non-mapping. */
  function Field(l: Located, key: string): (r: Result<Located, Error>)
    ensures r.Ok? <==> l.Attached? && l.node.Map? && exists i :: 0 <= i < |l.node.entries| && l.node.entries[i].0 == key
    ensures r.Err? ==> r.error == (if l.Attached? && l.node.Map? then KeyError(key) else TypeError)
    ensures r.Ok? ==> r.value.Attached? && |r.value.at| == |l.at| + 1 && IsPrefix(l.at, r.value.at)
    ensures r.Ok? ==> Value(r.value) == Subscript(Value(l), Key(key)).value
  {
    if l.Attached? && l.node.Map? then
      match KeyIndex(l.node.entries, key)
      case Some(i) => Ok(Attached(l.node.entries[i].1, l.at + [i]))
      case None => Err(KeyError(key))
    else Err(TypeError)
  }

  /** Subscripting a value held in the document gives a value held in the document. */
  lemma SubscriptInTree(root: Node, l: Located, key: string)
    requires InTree(root, l) && Field(l, key).Ok?
    ensures InTree(root, Field(l, key).value)
  {
    var r := Field(l, key).value;
    AtExtend(root, l.at, r.at[|l.at|]);
    assert r.at == l.at + [r.at[|l.at|]];
  }

  /** Subscripting by `key` adds the step `key` to the route. */
  lemma FieldRoute(root: Node, l: Located, key: string)
    requires InTree(root, l) && Field(l, key).Ok?
    ensures InTree(root, Field(l, key).value)
    ensures Route(root, Field(l, key).value.at) == Route(root, l.at) + [KeyStep(key)]
  {
    var r := Field(l, key).value;
    var i := r.at[|l.at|];
    SubscriptInTree(root, l, key);
    assert r.at == l.at + [i];
    RouteExtend(root, l.at, i);
  }

  lemma {:induction false} AtExtend(n: Node, p: Pos, i: nat)
    ensures At(n, p + [i]) == match At(n, p) case None => None case Some(m) => Child(m, i)
    decreases |p|
  {
    if p == [] {
      assert [i][1..] == [];
    } else {
      assert (p + [i])[1..] == p[1..] + [i];
      match Child(n, p[0])
      case None =>
      case Some(c) => AtExtend(c, p[1..], i);
    }
  }

  /** `obj.get(key)` with a default: None when the key is absent; AttributeError on a non-mapping. */
  function GetOr(l: Located, key: string): (r: Result<Option<Located>, Error>)
    ensures r.Err? <==> !(l.Attached? && l.node.Map?)
    ensures r.Err? ==> r.error == AttributeError
    ensures r.Ok? && r.value.Some? ==> Field(l, key) == Ok(r.value.value)
    ensures r.Ok? && r.value.None? ==> Field(l, key).Err?
  {
    if !(l.Attached? && l.node.Map?) then Err(AttributeError)
    else match Field(l, key)
      case Ok(v) => Ok(Some(v))
      case Err(_) => Ok(None)
  }

  lemma GetOrInTree(root: Node, l: Located, key: string)
    requires InTree(root, l)
    ensures GetOr(l, key).Ok? && GetOr(l, key).value.Some? ==> InTree(root, GetOr(l, key).value.value)
  {
    if GetOr(l, key).Ok? && GetOr(l, key).value.Some? {
      SubscriptInTree(root, l, key);
    }
  }

  /** `chain_get(l, keys, default)` on held values; `None` stands for the default. */
  function ChainGetAt(l: Located, keys: seq<string>): (r: Result<Option<Located>, Error>)
    ensures r.Err? ==> r.error == TypeError
    ensures r.Ok? && r.value.Some? && l.Attached? ==>
      r.value.value.Attached? && |r.value.value.at| == |l.at| + |keys| && IsPrefix(l.at, r.value.value.at)
    ensures r.Ok? && r.value.Some? && keys != [] ==> r.value.value.Attached?
    decreases |keys|
  {
    if keys == [] then Ok(Some(l))
    else match Field(l, keys[0])
      case Ok(c) => ChainGetAt(c, keys[1..])
      case Err(KeyError(_)) => Ok(None)
      case Err(e) => Err(TypeError)
  }

  function Keys(keys: seq<string>): (r: seq<Selector>)
    ensures |r| == |keys| && forall i :: 0 <= i < |keys| ==> r[i] == Key(keys[i])
  {
    if keys == [] then [] else [Key(keys[0])] + Keys(keys[1..])
  }

  /** The positional `chain_get` agrees with `chain_get` on the node itself. */
  lemma {:induction false} ChainGetAtAgrees(l: Located, keys: seq<string>, default: Node)
    ensures ChainGet(Value(l), Keys(keys), default) ==
      match ChainGetAt(l, keys)
      case Ok(Some(x)) => Ok(Value(x))
      case Ok(None) => Ok(default)
      case Err(e) => Err(e)
    decreases |keys|
  {
    if keys != [] {
      assert Keys(keys)[1..] == Keys(keys[1..]);
      match Field(l, keys[0])
      case Ok(c) => ChainGetAtAgrees(c, keys[1..], default);
      case Err(_) =>
    }
  }

  function KeySteps(keys: seq<string>): (r: seq<Step>)
    ensures |r| == |keys| && forall i :: 0 <= i < |keys| ==> r[i] == KeyStep(keys[i])
  {
    if keys == [] then [] else [KeyStep(keys[0])] + KeySteps(keys[1..])
  }

  /** What `chain_get` finds by a path of keys lies at the end of the route of those keys. */
  lemma {:induction false} ChainGetAtRoute(root: Node, l: Located, keys: seq<string>, x: Located)
    requires InTree(root, l) && l.Attached? && ChainGetAt(l, keys) == Ok(Some(x))
    ensures InTree(root, x) && x.Attached?
    ensures Route(root, x.at) == Route(root, l.at) + KeySteps(keys)
    decreases |keys|
  {
    if keys == [] {
      assert x == l;
    } else {
      var c := ChainGetAtFirst(root, l, keys);
      ChainGetAtRoute(root, c, keys[1..], x);
      ConcatSteps(Route(root, l.at), keys);
    }
  }

  lemma ConcatSteps(rl: seq<Step>, keys: seq<string>)
    requires keys != []
    ensures (rl + [KeyStep(keys[0])]) + KeySteps(keys[1..]) == rl + KeySteps(keys)
  {
    assert KeySteps(keys) == [KeyStep(keys[0])] + KeySteps(keys[1..]);
  }

  /** A `chain_get` that finds something found the first key first. */
  lemma ChainGetAtFirst(root: Node, l: Located, keys: seq<string>) returns (c: Located)
    requires InTree(root, l) && keys != [] && ChainGetAt(l, keys).Ok? && ChainGetAt(l, keys).value.Some?
    ensures ChainGetAt(l, keys) == ChainGetAt(c, keys[1..])
    ensures InTree(root, c) && c.Attached? && Route(root, c.at) == Route(root, l.at) + [KeyStep(keys[0])]
  {
    c := Field(l, keys[0]).value;
    FieldRoute(root, l, keys[0]);
  }

  /** What `chain_get` finds from a value held in the document is held in the document. */
  lemma {:induction false} ChainGetAtInTree(root: Node, l: Located, keys: seq<string>)
    requires InTree(root, l)
    ensures ChainGetAt(l, keys).Ok? && ChainGetAt(l, keys).value.Some? ==> InTree(root, ChainGetAt(l, keys).value.value)
    decreases |keys|
  {
    if keys != [] {
      match Field(l, keys[0])
      case Ok(c) =>
        SubscriptInTree(root, l, keys[0]);
        ChainGetAtInTree(root, c, keys[1..]);
      case Err(_) =>
    }
  }

  /** The values `for x in n` goes through: the keys of a mapping, the items of a sequence, the characters of a string. */
  function Elements(n: Node): (r: seq<Node>)
    ensures n.Map? ==> |r| == |n.entries| && forall i :: 0 <= i < |r| ==> r[i] == Str(n.entries[i].0)
    ensures n.Seq? ==> r == n.items
    ensures n.Str? ==> |r| == |n.s| && forall i :: 0 <= i < |r| ==> r[i] == Str([n.s[i]])
    ensures n.Other? ==> r == []
  {
    match n
    case Map(es) => seq(|es|, i requires 0 <= i < |es| => Str(es[i].0))
    case Seq(xs) => xs
    case Str(t) => seq(|t|, i requires 0 <= i < |t| => Str([t[i]]))
    case Other(_) => []
  }

  /** `for x in obj`: a mapping yields its keys, a sequence its items, a string its characters. */
  function Iterate(l: Located): (r: Result<seq<Located>, Error>)
    ensures r.Err? <==> Value(l).Other?
    ensures r.Err? ==> r.error == TypeError
    ensures r.Ok? ==> |r.value| == |Elements(Value(l))| && forall i :: 0 <= i < |r.value| ==> Value(r.value[i]) == Elements(Value(l))[i]
    ensures r.Ok? && l.Attached? && l.node.Seq? ==> forall i :: 0 <= i < |r.value| ==> r.value[i] == Attached(l.node.items[i], l.at + [i])
    ensures r.Ok? && !(l.Attached? && l.node.Seq?) ==> forall i :: 0 <= i < |r.value| ==> r.value[i].Detached?
  {
    match l
    case Detached(t) => Ok(seq(|t|, i requires 0 <= i < |t| => Detached([t[i]])))
    case Attached(n, at) =>
      match n
      case Map(es) => Ok(seq(|es|, i requires 0 <= i < |es| => Detached(es[i].0)))
      case Seq(xs) => Ok(seq(|xs|, i requires 0 <= i < |xs| => Attached(xs[i], at + [i])))
      case Str(t) => Ok(seq(|t|, i requires 0 <= i < |t| => Detached([t[i]])))
      case Other(_) => Err(TypeError)
  }

  /** Iterating a value held in the document yields values held in the document. */
  lemma IterateInTree(root: Node, l: Located)
    requires InTree(root, l) && Iterate(l).Ok?
    ensures forall x :: x in Iterate(l).value ==> InTree(root, x)
  {
    if l.Attached? && l.node.Seq? {
      forall i | 0 <= i < |l.node.items|
        ensures InTree(root, Iterate(l).value[i])
      {
        AtExtend(root, l.at, i);
      }
    }
  }

  /** Iterating a sequence of the document adds the item's index to the route. */
  lemma IterateRoute(root: Node, l: Located)
    requires InTree(root, l) && l.Attached? && l.node.Seq?
    ensures forall i :: 0 <= i < |Iterate(l).value| ==>
      InTree(root, Iterate(l).value[i]) && Route(root, Iterate(l).value[i].at) == Route(root, l.at) + [IndexStep(i)]
  {
    forall i | 0 <= i < |l.node.items|
      ensures InTree(root, Iterate(l).value[i]) && Route(root, Iterate(l).value[i].at) == Route(root, l.at) + [IndexStep(i)]
    {
      AtExtend(root, l.at, i);
      RouteExtend(root, l.at, i);
    }
  }

  /** Python's `needle in obj`: key of a mapping, item of a sequence, substring of a string. */
  function Contains(n: Node, needle: string): (r: Result<bool, Error>)
    ensures r.Err? <==> n.Other?
    ensures r.Err? ==> r.error == TypeError
    ensures r.Ok? && n.Map? ==> (r.value <==> exists i :: 0 <= i < |n.entries| && n.entries[i].0 == needle)
    ensures r.Ok? && n.Seq? ==> (r.value <==> Str(needle) in n.items)
    ensures r.Ok? && n.Str? ==> (r.value <==> exists i :: 0 <= i <= |n.s| && OccursAt(n.s, needle, i))
  {
    match n
    case Map(es) => Ok(KeyIndex(es, needle).Some?)
    case Seq(xs) => Ok(Str(needle) in xs)
    case Str(t) => Ok(ContainsSubstring(t, needle))
    case Other(_) => Err(TypeError)
  }

  /** `str(x)` of a value used in a message; a mapping or sequence is not rendered. */
  function Show(n: Node): (r: string)
    ensures n.Str? ==> r == n.s
    ensures n.Other? ==> r == n.text
    ensures n.Map? || n.Seq? ==> r != ""
  {
    match n
    case Str(s) => s
    case Other(t) => t
    case Map(_) => "{...}"
    case Seq(_) => "[...]"
  }
}

=== FILE: helpers.dfy ===
/**
 * `get_error_message`: one line describing a schema-validation error, from
 * the JSON path of the failing value, the name of the failing validator,
 * the messages of the sub-errors and the error's own message.
 */
module Helpers {
  import opened Text

  /** One step of a JSON path: a list index or a mapping key. */
  datatype PathElement = Index(i: int) | Property(name: string)

  /** What `get_error_message` reads from a validation error. */
  datatype ValidationError = ValidationError(path: seq<PathElement>, validator: string, context: seq<string>, message: string)

  /** `[i]` for an index, `.name` for a key. */
  function ElementText(e: PathElement): (r: string)
    ensures |r| >= 1
    ensures e.Index? ==> r == "[" + IntToString(e.i) + "]"
    ensures e.Property? ==> r == "." + e.name
  {
    match e
    case Index(i) => "[" + IntToString(i) + "]"
    case Property(name) => "." + name
  }

  /** The path elements written one after another, in path order. */
  function PathText(path: seq<PathElement>): (r: string)
    ensures |r| >= |path|
    ensures r == "" <==> path == []
    ensures |path| == 1 ==> r == ElementText(path[0])
  {
    if path == [] then "" else ElementText(path[0]) + PathText(path[1..])
  }

  /** The text of a longer path extends the text of a shorter one by the new elements. */
  lemma {:induction false} PathTextAppend(p: seq<PathElement>, q: seq<PathElement>)
    ensures PathText(p + q) == PathText(p) + PathText(q)
    decreases |p|
  {
    if p == [] {
      assert p + q == q;
    } else {
      assert (p + q)[0] == p[0] && (p + q)[1..] == p[1..] + q;
      PathTextAppend(p[1..], q);
      assert ElementText(p[0]) + (PathText(p[1..]) + PathText(q)) == (ElementText(p[0]) + PathText(p[1..])) + PathText(q);
    }
  }

  /** The text is empty exactly when the path is, which is when `at top level` is written instead. */
  lemma PathTextEmpty(path: seq<PathElement>)
    ensures PathText(path) == "" <==> path == []
  {
  }

  /** The messages in first-seen order, each once. */
  function Distinct(xs: seq<string>): (r: seq<string>)
    ensures forall x :: x in r <==> x in xs
    ensures forall i, j :: 0 <= i < j < |r| ==> r[i] != r[j]
  {
    if xs == [] then []
    else
      var prev := Distinct(xs[..|xs| - 1]);
      assert forall x :: x in xs <==> x in xs[..|xs| - 1] || x == xs[|xs| - 1] by {
        assert xs == xs[..|xs| - 1] + [xs[|xs| - 1]];
      }
      if xs[|xs| - 1] in prev then prev else prev + [xs[|xs| - 1]]
  }

  /** What goes between the parentheses: the sub-error messages, or the error's message when they join to nothing. */
  function Details(e: ValidationError): (r: string)
    ensures e.context == [] ==> r == e.message
    ensures forall m :: m in e.context && m != "" ==> ContainsSubstring(r, m)
  {
    var joined := Join(Distinct(e.context), ", ");
    JoinHasParts(Distinct(e.context), ", ");
    if joined == "" then e.message else joined
  }

  /** Every part of a joined text occurs in it. */
  lemma JoinHasParts(parts: seq<string>, sep: string)
    ensures forall i :: 0 <= i < |parts| ==> ContainsSubstring(Join(parts, sep), parts[i])
  {
    forall i | 0 <= i < |parts|
      ensures ContainsSubstring(Join(parts, sep), parts[i])
    {
      var k := JoinPartAt(parts, sep, i);
    }
  }

  lemma {:induction false} JoinPartAt(parts: seq<string>, sep: string, i: nat) returns (k: nat)
    requires i < |parts|
    ensures OccursAt(Join(parts, sep), parts[i], k)
    decreases i
  {
    var joined := Join(parts, sep);
    if |parts| == 1 {
      k := 0;
      assert joined[0..|parts[0]|] == parts[0];
    } else if i == 0 {
      k := 0;
      assert joined == parts[0] + (sep + Join(parts[1..], sep));
      assert joined[0..|parts[0]|] == parts[0];
    } else {
      var rest := Join(parts[1..], sep);
      var k' := JoinPartAt(parts[1..], sep, i - 1);
      var front := parts[0] + sep;
      assert joined == front + rest;
      k := |front| + k';
      assert joined[k..k + |parts[i]|] == rest[k'..k' + |parts[i]|];
    }
  }

  /** The fixed words of the message: where an error at the root is, and what follows the place. */
  const TopLevel := "at top level"
  const Validating := ": validating '"
  const HasFailed := "' has failed ("

  /** The message `get_error_message` builds. */
  function ErrorMessage(e: ValidationError): string
  {
    var path := PathText(e.path);
    (if path == "" then TopLevel else path) + Validating + e.validator + HasFailed + Details(e) + ")"
  }

  /** A text made of a lead, two middle parts, some details and `)` starts with the lead and ends with the details and `)`. */
  lemma Framed(lead: string, v: string, w: string, d: string)
    ensures StartsWith(lead + v + w + d + ")", lead)
    ensures var r := lead + v + w + d + ")"; |r| > |d| && r[|r| - |d| - 1..] == d + ")"
  {
    PrefixOf(lead, v + w + d + ")");
    assert lead + v + w + d + ")" == lead + (v + w + d + ")");
    SuffixOf(lead + v + w, d + ")");
    assert lead + v + w + d + ")" == (lead + v + w) + (d + ")");
  }

  /** The message starts with where the error is and ends with its details in parentheses. */
  lemma ErrorMessageShape(e: ValidationError)
    ensures e.path == [] ==> StartsWith(ErrorMessage(e), TopLevel + Validating)
    ensures e.path != [] ==> StartsWith(ErrorMessage(e), PathText(e.path) + Validating)
    ensures var r := ErrorMessage(e); |r| > |Details(e)| && r[|r| - |Details(e)| - 1..] == Details(e) + ")"
  {
    var path := PathText(e.path);
    Framed((if path == "" then TopLevel else path) + Validating, e.validator, HasFailed, Details(e));
  }


  /** A key followed by an index. */
  lemma PathTextOfKeyAndIndex()
    ensures PathText([Property("spec"), Index(0)]) == ".spec[0]"
  {
    assert [Property("spec"), Index(0)][1..] == [Index(0)];
    assert [Index(0)][1..] == [];
  }

  /** Without sub-errors the error's own message is the detail. */
  lemma DetailsWithoutContext(e: ValidationError)
    requires e.context == []
    ensures Details(e) == e.message
  {
  }

  /** A message repeated any number of times is kept once. */
  lemma {:induction false} DistinctRepeated(m: string, n: nat)
    requires n >= 1
    ensures Distinct(seq(n, _ => m)) == [m]
  {
    var xs := seq(n, _ => m);
    if n == 1 {
      assert xs[..0] == [];
    } else {
      assert xs[..n - 1] == seq(n - 1, _ => m);
      DistinctRepeated(m, n - 1);
    }
  }

  /** A sub-error message repeated any number of times is written once. */
  lemma DetailsRepeated(e: ValidationError, m: string, n: nat)
    requires n >= 1 && m != "" && e.context == seq(n, _ => m)
    ensures Details(e) == m
  {
    DistinctRepeated(m, n);
  }

  /**
   * `get_error_message`, with the loop that gathers the sub-error messages
   * once each.
   */
  method GetErrorMessage(e: ValidationError) returns (r: string)
    ensures r == ErrorMessage(e)
  {
    var contexts: seq<string> := [];
    var i := 0;
    while i < |e.context|
      invariant 0 <= i <= |e.context|
      invariant contexts == Distinct(e.context[..i])
    {
      assert e.context[..i + 1][..i] == e.context[..i];
      if e.context[i] !in contexts {
        contexts := contexts + [e.context[i]];
      }
      i := i + 1;
    }
    assert e.context[..|e.context|] == e.context;
    var path := PathText(e.path);
    var joined := Join(contexts, ", ");
    var details := if joined == "" then e.message else joined;
    r := (if path == "" then TopLevel else path) + Validating + e.validator + HasFailed + details + ")";
  }
}

=== FILE: image_name.dfy ===
/**
 * A container image reference ("pullspec"): `[registry/][namespace/]repo[:tag|@digest]`.
 * Models class ImageName of operator_manifest/operator.py: parsing, rendering,
 * `enclose` and the scan of free text for references. Python's `__eq__`
 * compares all four attributes, which is the structural equality of the
 * datatype below.
 */
module ImageNames {
  import opened Wrappers
  import opened Text

  /**
   * The four attributes. `tag` is never None in the source (the constructor
   * turns a missing tag into `latest`) but may be empty after parsing `repo:`.
   */
  datatype ImageName = ImageName(registry: Option<string>, namespace: Option<string>, repo: Option<string>, tag: string)

  /** What `parse` accepts: a string, or an ImageName that it hands back unchanged. */
  datatype Reference = Raw(text: string) | Parsed(image: ImageName)

  /** Python truthiness of an optional string attribute. */
  predicate Present(f: Option<string>)
  {
    f.Some? && f.value != ""
  }

  /** `s.split('/', 2)`: at most three pieces; only the last may still hold a `/`. */
  function SplitSlash(s: string): (r: seq<string>)
    ensures 1 <= |r| <= 3
    ensures forall i :: 0 <= i < |r| - 1 ==> '/' !in r[i]
    ensures |r| < 3 ==> '/' !in r[|r| - 1]
  {
    var i := FirstIndex(s, '/');
    if i.None? then [s]
    else
      var head, rest := s[..i.value], s[i.value + 1..];
      var j := FirstIndex(rest, '/');
      if j.None? then [head, rest]
      else [head, rest[..j.value], rest[j.value + 1..]]
  }

  /** Joining the pieces of `split('/', 2)` with `/` gives the text back. */
  lemma SplitSlashJoinBack(s: string)
    ensures Join(SplitSlash(s), "/") == s
  {
    var i := FirstIndex(s, '/');
    if i.None? {
      assert SplitSlash(s) == [s];
    } else if FirstIndex(s[i.value + 1..], '/').None? {
      JoinBackTwo(s, i.value);
    } else {
      JoinBackThree(s, i.value, FirstIndex(s[i.value + 1..], '/').value);
    }
  }

  /** One `/`: two pieces. */
  lemma JoinBackTwo(s: string, i: nat)
    requires FirstIndex(s, '/') == Some(i) && FirstIndex(s[i + 1..], '/').None?
    ensures Join(SplitSlash(s), "/") == s
  {
    var head, rest := s[..i], s[i + 1..];
    CutAt(s, i);
    assert SplitSlash(s) == [head, rest];
    JoinTwo(head, rest, "/");
  }

  /** Two `/` or more: three pieces, the last holding the rest. */
  lemma JoinBackThree(s: string, i: nat, j: nat)
    requires FirstIndex(s, '/') == Some(i) && FirstIndex(s[i + 1..], '/') == Some(j)
    ensures Join(SplitSlash(s), "/") == s
  {
    var head, rest := s[..i], s[i + 1..];
    var mid, tail := rest[..j], rest[j + 1..];
    SplitSlashOfThree(s, i, j);
    CutAt(s, i);
    CutAt(rest, j);
    JoinThree(head, mid, tail, "/");
    Reassemble(head, mid, tail);
  }

  lemma SplitSlashOfThree(s: string, i: nat, j: nat)
    requires FirstIndex(s, '/') == Some(i) && FirstIndex(s[i + 1..], '/') == Some(j)
    ensures SplitSlash(s) == [s[..i], s[i + 1..][..j], s[i + 1..][j + 1..]]
  {
  }

  lemma Reassemble(head: string, mid: string, tail: string)
    ensures head + "/" + mid + "/" + tail == head + "/" + (mid + "/" + tail)
  {
  }

  /** A text is the part before a `/`, the `/` and the part after. */
  lemma CutAt(s: string, i: nat)
    requires i < |s| && s[i] == '/'
    ensures s == s[..i] + "/" + s[i + 1..]
  {
  }

  /**
   * The repository/tag cut of `parse`: at the last `@` if there is one,
   * otherwise at the last `:`; with neither the tag stays `latest`.
   */
  function SplitTag(last: string): (r: (string, string))
    ensures '@' in last ==> last == r.0 + "@" + r.1 && '@' !in r.1
    ensures '@' !in last && ':' in last ==> last == r.0 + ":" + r.1 && ':' !in r.1 && '@' !in r.0
    ensures '@' !in last && ':' !in last ==> r == (last, "latest")
  {
    match LastIndex(last, '@')
    case Some(i) =>
      assert last == last[..i] + "@" + last[i + 1..];
      (last[..i], last[i + 1..])
    case None =>
      match LastIndex(last, ':')
      case Some(i) =>
        assert last == last[..i] + ":" + last[i + 1..];
        assert last[..i] <= last;
        (last[..i], last[i + 1..])
      case None => (last, "latest")
  }

  /**
   * `ImageName.parse(s)` for a string: two pieces give a registry when the
   * first holds a `.` or a `:` and a namespace otherwise; three pieces give
   * both; the last piece is cut into repo and tag.
   */
  function Parse(s: string): (r: ImageName)
    ensures r.repo.Some?
  {
    FromPieces(SplitSlash(s))
  }

  /**
   * Where the fields of `parse` sit in the text: registry and namespace, each
   * followed by `/`, lead the text, and the rest is cut into repo and tag; a
   * field never holds a `/`; a lone first piece is a registry exactly when it
   * holds a `.` or a `:`.
   */
  lemma ParseShape(s: string)
    ensures var r := Parse(s);
      && StartsWith(s, Head(r)) && (r.repo.value, r.tag) == SplitTag(s[|Head(r)|..])
      && (r.registry.Some? ==> '/' !in r.registry.value)
      && (r.namespace.Some? ==> '/' !in r.namespace.value)
      && (r.registry.None? && r.namespace.None? ==> '/' !in s)
      && (r.registry.Some? != r.namespace.Some? ==> '/' !in s[|Head(r)|..])
      && (r.registry.Some? && r.namespace.None? ==> '.' in r.registry.value || ':' in r.registry.value)
      && (r.registry.None? && r.namespace.Some? ==> '.' !in r.namespace.value && ':' !in r.namespace.value)
  {
    ParseText(s);
  }

  /** The text in front of the repository: `registry/` and `namespace/`, each when present. */
  function Head(x: ImageName): string
  {
    (if x.registry.Some? then x.registry.value + "/" else "") + (if x.namespace.Some? then x.namespace.value + "/" else "")
  }

  /** Where the fields `parse` reads off the pieces of `split('/', 2)` sit in the text. */
  lemma ParseText(s: string)
    ensures var pieces := SplitSlash(s); var r := FromPieces(pieces);
      && StartsWith(s, Head(r)) && s[|Head(r)|..] == pieces[|pieces| - 1]
  {
    var pieces := SplitSlash(s);
    SplitSlashJoinBack(s);
    if |pieces| == 1 {
      assert Head(FromPieces(pieces)) == "";
    } else if |pieces| == 2 {
      HeadTwo(s, pieces);
    } else {
      HeadThree(s, pieces);
    }
  }

  lemma HeadTwo(s: string, pieces: seq<string>)
    requires |pieces| == 2 && Join(pieces, "/") == s
    ensures var r := FromPieces(pieces); StartsWith(s, Head(r)) && s[|Head(r)|..] == pieces[1]
  {
    var r := FromPieces(pieces);
    JoinTwo(pieces[0], pieces[1], "/");
    assert Head(r) == pieces[0] + "/";
    PrefixOf(Head(r), pieces[1]);
    assert s == Head(r) + pieces[1];
  }

  lemma HeadThree(s: string, pieces: seq<string>)
    requires |pieces| == 3 && Join(pieces, "/") == s
    ensures var r := FromPieces(pieces); StartsWith(s, Head(r)) && s[|Head(r)|..] == pieces[2]
  {
    var r := FromPieces(pieces);
    assert pieces == [pieces[0], pieces[1], pieces[2]];
    JoinThree(pieces[0], pieces[1], pieces[2], "/");
    assert Head(r) == pieces[0] + "/" + pieces[1] + "/";
    PrefixOf(Head(r), pieces[2]);
    assert s == Head(r) + pieces[2];
  }

  /** The fields `parse` reads off the pieces of `split('/', 2)`. */
  function FromPieces(pieces: seq<string>): (r: ImageName)
    requires 1 <= |pieces| <= 3
    ensures r.repo.Some?
    ensures r.registry.Some? <==> |pieces| == 3 || (|pieces| == 2 && ('.' in pieces[0] || ':' in pieces[0]))
    ensures r.namespace.Some? <==> |pieces| == 3 || (|pieces| == 2 && r.registry.None?)
    ensures r.registry.Some? ==> r.registry.value == pieces[0]
    ensures |pieces| == 3 ==> r.namespace == Some(pieces[1])
    ensures |pieces| == 2 && r.registry.None? ==> r.namespace == Some(pieces[0])
    ensures (r.repo.value, r.tag) == SplitTag(pieces[|pieces| - 1])
  {
    var first := pieces[0];
    var isRegistry := |pieces| == 3 || (|pieces| == 2 && ('.' in first || ':' in first));
    var registry := if isRegistry then Some(first) else None;
    var namespace :=
      if |pieces| == 3 then Some(pieces[1])
      else if |pieces| == 2 && !isRegistry then Some(first)
      else None;
    var (repo, tag) := SplitTag(pieces[|pieces| - 1]);
    ImageName(registry, namespace, Some(repo), tag)
  }

  /**
   * `ImageName.parse` as the source writes it: fill the fields one by one,
   * then try the separators `@` and `:` in turn and stop at the first that
   * occurs. An ImageName argument comes back as it is.
   */
  method ParseImageName(input: Reference) returns (r: ImageName)
    ensures input.Parsed? ==> r == input.image
    ensures input.Raw? ==> r == Parse(input.text)
  {
    if input.Parsed? {
      return input.image;
    }
    var s := input.text;
    r := ImageName(None, None, None, "latest");
    var pieces := SplitSlash(s);
    if |pieces| == 2 {
      if '.' in pieces[0] || ':' in pieces[0] {
        r := r.(registry := Some(pieces[0]));
      } else {
        r := r.(namespace := Some(pieces[0]));
      }
    } else if |pieces| == 3 {
      r := r.(registry := Some(pieces[0]), namespace := Some(pieces[1]));
    }
    var repo, tag := CutTag(pieces[|pieces| - 1]);
    r := r.(repo := Some(repo), tag := tag);
    assert r == FromPieces(pieces);
  }

  /** The separator loop of `parse`: try `@`, then `:`, and cut the last piece at the first that occurs. */
  method CutTag(last: string) returns (repo: string, tag: string)
    ensures (repo, tag) == SplitTag(last)
  {
    repo, tag := last, "latest";
    var seps := "@:";
    assert seps[0] == '@' && seps[1] == ':';
    var k := 0;
    while k < |seps|
      invariant 0 <= k <= |seps|
      invariant repo == last && tag == "latest"
      invariant forall j :: 0 <= j < k ==> seps[j] !in last
    {
      var cut := LastIndex(last, seps[k]);
      if cut.None? {
        k := k + 1;
        continue;
      }
      repo, tag := last[..cut.value], last[cut.value + 1..];
      return;
    }
  }


  /** `get_repo(explicit_namespace)`; a missing repo is formatted as Python formats None. */
  function GetRepo(x: ImageName, explicitNamespace: bool): (r: Option<string>)
    ensures r.None? <==> x.repo.None? && !Present(x.namespace) && !explicitNamespace
    ensures Present(x.namespace) && x.repo.Some? ==> r == Some(x.namespace.value + "/" + x.repo.value)
    ensures !Present(x.namespace) && explicitNamespace && x.repo.Some? ==> r == Some("library/" + x.repo.value)
    ensures !Present(x.namespace) && !explicitNamespace ==> r == x.repo
  {
    var repoText := if x.repo.Some? then x.repo.value else "None";
    if Present(x.namespace) then Some(x.namespace.value + "/" + repoText)
    else if explicitNamespace then Some("library/" + repoText)
    else x.repo
  }

  /**
   * `to_str(registry, tag, explicit_tag, explicit_namespace)`: fails without a
   * repo; a tag holding `:` (a digest) is joined with `@`, any other non-empty
   * tag with `:`; the registry is prefixed only when asked for and present.
   */
  function ToStr(x: ImageName, registry: bool, tag: bool, explicitTag: bool, explicitNamespace: bool): (r: Result<string, Error>)
    ensures r.Err? <==> x.repo.None?
    ensures r.Err? ==> r.error == NoImageRepository
  {
    if x.repo.None? then Err(NoImageRepository)
    else
      var withTag := Tagged(x, GetRepo(x, explicitNamespace).value, tag, explicitTag);
      if registry && Present(x.registry) then Ok(x.registry.value + "/" + withTag)
      else Ok(withTag)
  }

  /**
   * The shape of what `to_str` writes: the registry and a `/` in front when
   * asked for and present; the tag behind `@` when it holds a `:`, behind `:`
   * otherwise; `:latest` for an empty tag when `explicit_tag` asks for it;
   * nothing but `get_repo` when neither is asked for. The last clause gives
   * the whole text.
   */
  lemma ToStrShape(x: ImageName, registry: bool, tag: bool, explicitTag: bool, explicitNamespace: bool)
    requires x.repo.Some?
    ensures var r := ToStr(x, registry, tag, explicitTag, explicitNamespace).value;
      && (registry && Present(x.registry) ==> StartsWith(r, x.registry.value + "/"))
      && (tag && x.tag != "" && ':' in x.tag ==> Suffix("@" + x.tag, r))
      && (tag && x.tag != "" && ':' !in x.tag ==> Suffix(":" + x.tag, r))
      && (!(registry && Present(x.registry)) && !tag ==> r == GetRepo(x, explicitNamespace).value)
    ensures var r := ToStr(x, registry, tag, explicitTag, explicitNamespace).value;
      var head := if registry && Present(x.registry) then x.registry.value + "/" else "";
      r == head + GetRepo(x, explicitNamespace).value + TagEnd(x, tag, explicitTag)
  {
    ToStrText(x, registry, tag, explicitTag, explicitNamespace);
    var base := GetRepo(x, explicitNamespace).value;
    var withTag := Tagged(x, base, tag, explicitTag);
    assert ToStr(x, registry, tag, explicitTag, explicitNamespace).value
      == if registry && Present(x.registry) then x.registry.value + "/" + withTag else withTag;
    if registry && Present(x.registry) {
      PrefixOf(x.registry.value + "/", withTag);
    }
    if tag && x.tag != "" {
      var end := [if ':' in x.tag then '@' else ':'] + x.tag;
      TaggedEnd(x, base, tag, explicitTag);
      if registry && Present(x.registry) {
        SuffixAfter(x.registry.value + "/", withTag, end);
      }
    }
  }

  /** What `to_str` writes after `get_repo`: the tag with its separator, `:latest`, or nothing. */
  function TagEnd(x: ImageName, tag: bool, explicitTag: bool): string
  {
    if tag && x.tag != "" && ':' in x.tag then "@" + x.tag
    else if tag && x.tag != "" then ":" + x.tag
    else if tag && explicitTag then ":latest"
    else ""
  }

  /** The part of `to_str` after `get_repo`: the tag with its separator, `:latest`, or nothing. */
  function Tagged(x: ImageName, base: string, tag: bool, explicitTag: bool): string
  {
    if tag && x.tag != "" && ':' in x.tag then base + "@" + x.tag
    else if tag && x.tag != "" then base + ":" + x.tag
    else if tag && explicitTag then base + ":latest"
    else base
  }

  /** `Tagged` is the repo text followed by `TagEnd`. */
  lemma TaggedText(x: ImageName, base: string, tag: bool, explicitTag: bool)
    ensures Tagged(x, base, tag, explicitTag) == base + TagEnd(x, tag, explicitTag)
  {
    if !(tag && (x.tag != "" || explicitTag)) {
      assert base + "" == base;
    }
  }

  /** The whole text `to_str` writes. */
  lemma ToStrText(x: ImageName, registry: bool, tag: bool, explicitTag: bool, explicitNamespace: bool)
    requires x.repo.Some?
    ensures var head := if registry && Present(x.registry) then x.registry.value + "/" else "";
      ToStr(x, registry, tag, explicitTag, explicitNamespace).value
        == head + GetRepo(x, explicitNamespace).value + TagEnd(x, tag, explicitTag)
  {
    var head := if registry && Present(x.registry) then x.registry.value + "/" else "";
    var base := GetRepo(x, explicitNamespace).value;
    var end := TagEnd(x, tag, explicitTag);
    TaggedText(x, base, tag, explicitTag);
    assert ToStr(x, registry, tag, explicitTag, explicitNamespace).value == head + (base + end);
    assert head + (base + end) == head + base + end;
  }

  lemma TaggedEnd(x: ImageName, base: string, tag: bool, explicitTag: bool)
    requires tag && x.tag != ""
    ensures Suffix([if ':' in x.tag then '@' else ':'] + x.tag, Tagged(x, base, tag, explicitTag))
  {
    var end := [if ':' in x.tag then '@' else ':'] + x.tag;
    assert Tagged(x, base, tag, explicitTag) == base + end;
    SuffixOf(base, end);
  }

  lemma SuffixAfter(a: string, b: string, end: string)
    requires Suffix(end, b)
    ensures Suffix(end, a + b)
  {
    assert (a + b)[|a + b| - |end|..] == b[|b| - |end|..];
  }


  /** `str(x)` / `x.to_str()` with the default flags. */
  function Render(x: ImageName): string
    requires x.repo.Some?
  {
    ToStr(x, true, true, false, false).value
  }

  /**
   * The ImageNames that `to_str` writes as text that `parse` reads back
   * unchanged: a non-empty tag without `@`, and registry, namespace and repo
   * shaped so that the cuts on `/`, `@` and `:` fall where the rendering put them.
   */
  predicate Canonical(x: ImageName)
  {
    && x.repo.Some?
    && x.tag != "" && '@' !in x.tag && (':' !in x.tag ==> '@' !in x.repo.value)
    && (x.registry.None? || (x.registry.value != "" && '/' !in x.registry.value))
    && (x.namespace.None? || (x.namespace.value != "" && '/' !in x.namespace.value))
    && (x.registry.Some? && x.namespace.None? ==> '.' in x.registry.value || ':' in x.registry.value)
    && (x.registry.None? && x.namespace.Some? ==> '.' !in x.namespace.value && ':' !in x.namespace.value)
    && (x.registry.None? || x.namespace.None? ==> '/' !in x.repo.value && '/' !in x.tag)
  }

  lemma FirstIndexOf(a: string, b: string, c: char)
    requires c !in a
    ensures FirstIndex(a + [c] + b, c) == Some(|a|)
  {
    var s := a + [c] + b;
    assert s[|a|] == c;
    assert forall k :: 0 <= k < |a| ==> s[k] == a[k];
    assert s[..|a|] == a;
  }

  lemma SplitSlashTwo(a: string, b: string)
    requires '/' !in a && '/' !in b
    ensures SplitSlash(a + "/" + b) == [a, b]
  {
    var s := a + "/" + b;
    FirstIndexOf(a, b, '/');
    assert s[|a| + 1..] == b;
    assert s[..|a|] == a;
  }

  lemma SplitSlashThree(a: string, b: string, c: string)
    requires '/' !in a && '/' !in b
    ensures SplitSlash(a + "/" + b + "/" + c) == [a, b, c]
  {
    var rest := b + "/" + c;
    var s := a + "/" + rest;
    assert a + "/" + b + "/" + c == s;
    FirstIndexOf(a, rest, '/');
    assert s[|a| + 1..] == rest;
    assert s[..|a|] == a;
    FirstIndexOf(b, c, '/');
    assert rest[|b| + 1..] == c;
    assert rest[..|b|] == b;
  }

  lemma {:induction false} LastIndexOf(a: string, b: string, c: char)
    requires c !in b
    ensures LastIndex(a + [c] + b, c) == Some(|a|)
    decreases |b|
  {
    var s := a + [c] + b;
    if b != [] {
      assert s[|s| - 1] == b[|b| - 1];
      assert s[..|s| - 1] == a + [c] + b[..|b| - 1];
      LastIndexOf(a, b[..|b| - 1], c);
    }
  }

  lemma NotInConcat(a: string, b: string, c: string, ch: char)
    requires ch !in a && ch !in b && ch !in c
    ensures ch !in a + b + c
  {
  }

  /** The repository/tag cut recovers what `to_str` joined. */
  lemma SplitTagRender(repo: string, tag: string)
    requires tag != "" && '@' !in tag && (':' !in tag ==> '@' !in repo)
    ensures SplitTag(repo + [if ':' in tag then '@' else ':'] + tag) == (repo, tag)
  {
    var sep := if ':' in tag then '@' else ':';
    var last := repo + [sep] + tag;
    if ':' in tag {
      LastIndexOf(repo, tag, '@');
      assert last[..|repo|] == repo && last[|repo| + 1..] == tag;
    } else {
      assert '@' !in last by {
        assert forall i :: 0 <= i < |last| ==> last[i] == (if i < |repo| then repo[i] else if i == |repo| then sep else tag[i - |repo| - 1]);
      }
      LastIndexOf(repo, tag, ':');
      assert last[..|repo|] == repo && last[|repo| + 1..] == tag;
    }
  }

  /** The text `to_str` writes for a canonical ImageName, piece by piece. */
  lemma RenderCanonical(x: ImageName)
    requires Canonical(x)
    ensures var last := x.repo.value + [if ':' in x.tag then '@' else ':'] + x.tag;
      && (x.registry.Some? && x.namespace.Some? ==> Render(x) == x.registry.value + "/" + x.namespace.value + "/" + last)
      && (x.registry.Some? && x.namespace.None? ==> Render(x) == x.registry.value + "/" + last)
      && (x.registry.None? && x.namespace.Some? ==> Render(x) == x.namespace.value + "/" + last)
      && (x.registry.None? && x.namespace.None? ==> Render(x) == last)
  {
  }

  lemma ParseThree(a: string, b: string, last: string)
    requires '/' !in a && '/' !in b
    ensures Parse(a + "/" + b + "/" + last) == FromPieces([a, b, last])
  {
    SplitSlashThree(a, b, last);
  }

  lemma ParseTwo(a: string, last: string)
    requires '/' !in a && '/' !in last
    ensures Parse(a + "/" + last) == FromPieces([a, last])
  {
    SplitSlashTwo(a, last);
  }

  lemma ParseOne(last: string)
    requires '/' !in last
    ensures Parse(last) == FromPieces([last])
  {
    assert FirstIndex(last, '/').None?;
  }

  lemma ParseRenderFull(x: ImageName)
    requires Canonical(x) && x.registry.Some? && x.namespace.Some?
    ensures Parse(Render(x)) == x
  {
    var last := x.repo.value + [if ':' in x.tag then '@' else ':'] + x.tag;
    SplitTagRender(x.repo.value, x.tag);
    RenderCanonical(x);
    ParseThree(x.registry.value, x.namespace.value, last);
    assert FromPieces([x.registry.value, x.namespace.value, last]) == x;
  }

  lemma ParseRenderPartial(x: ImageName)
    requires Canonical(x) && !(x.registry.Some? && x.namespace.Some?)
    ensures Parse(Render(x)) == x
  {
    var sep := if ':' in x.tag then '@' else ':';
    var last := x.repo.value + [sep] + x.tag;
    SplitTagRender(x.repo.value, x.tag);
    RenderCanonical(x);
    NotInConcat(x.repo.value, [sep], x.tag, '/');
    if x.registry.Some? {
      ParseRenderPrefixed(x, x.registry.value, last);
    } else if x.namespace.Some? {
      ParseRenderPrefixed(x, x.namespace.value, last);
    } else {
      ParseOne(last);
      assert FromPieces([last]) == x;
    }
  }

  /** The rendering of a canonical ImageName with exactly one of registry and namespace: that one, `/`, and the rest. */
  lemma ParseRenderPrefixed(x: ImageName, head: string, last: string)
    requires Canonical(x) && !(x.registry.Some? && x.namespace.Some?)
    requires x.registry == Some(head) || x.namespace == Some(head)
    requires Render(x) == head + "/" + last && '/' !in head && '/' !in last
    requires SplitTag(last) == (x.repo.value, x.tag)
    ensures Parse(Render(x)) == x
  {
    ParseTwo(head, last);
    assert FromPieces([head, last]) == x;
  }

  /** Rendering a canonical ImageName and parsing the text gives the same ImageName. */
  lemma ParseRender(x: ImageName)
    requires Canonical(x)
    ensures Parse(Render(x)) == x
  {
    if x.registry.Some? && x.namespace.Some? {
      ParseRenderFull(x);
    } else {
      ParseRenderPartial(x);
    }
  }

  lemma TextExampleDigest()
    ensures "repository.com/prefix/image-name@sha256:12345" == "repository.com" + "/" + "prefix" + "/" + ("image-name" + "@" + "sha256:12345")
  {
  }

  lemma RenderExampleDigest()
    ensures Canonical(ImageName(Some("repository.com"), Some("prefix"), Some("image-name"), "sha256:12345"))
    ensures Render(ImageName(Some("repository.com"), Some("prefix"), Some("image-name"), "sha256:12345")) == "repository.com/prefix/image-name@sha256:12345"
  {
    assert Canonical(ImageName(Some("repository.com"), Some("prefix"), Some("image-name"), "sha256:12345"));
    RenderCanonical(ImageName(Some("repository.com"), Some("prefix"), Some("image-name"), "sha256:12345"));
    TextExampleDigest();
  }

  /** A row of the parse table of the test suite: a registry, a namespace and a digest. */
  lemma ParseExampleDigest()
    ensures Parse("repository.com/prefix/image-name@sha256:12345") == ImageName(Some("repository.com"), Some("prefix"), Some("image-name"), "sha256:12345")
  {
    RenderExampleDigest();
    ParseRender(ImageName(Some("repository.com"), Some("prefix"), Some("image-name"), "sha256:12345"));
  }

  lemma TextExamplePort()
    ensures "registry:5000/image-name:latest" == "registry:5000" + "/" + ("image-name" + ":" + "latest")
  {
  }

  lemma RenderExamplePort()
    ensures Canonical(ImageName(Some("registry:5000"), None, Some("image-name"), "latest"))
    ensures Render(ImageName(Some("registry:5000"), None, Some("image-name"), "latest")) == "registry:5000/image-name:latest"
  {
    assert Canonical(ImageName(Some("registry:5000"), None, Some("image-name"), "latest"));
    RenderCanonical(ImageName(Some("registry:5000"), None, Some("image-name"), "latest"));
    TextExamplePort();
  }

  /** A row of the parse table of the test suite: a registry with a port and no namespace. */
  lemma ParseExamplePort()
    ensures Parse("registry:5000/image-name:latest") == ImageName(Some("registry:5000"), None, Some("image-name"), "latest")
  {
    RenderExamplePort();
    ParseRender(ImageName(Some("registry:5000"), None, Some("image-name"), "latest"));
  }

  lemma TextExampleNamespace()
    ensures "library/fedora:20" == "library" + "/" + ("fedora" + ":" + "20")
  {
  }

  lemma RenderExampleNamespace()
    ensures Canonical(ImageName(None, Some("library"), Some("fedora"), "20"))
    ensures Render(ImageName(None, Some("library"), Some("fedora"), "20")) == "library/fedora:20"
  {
    assert Canonical(ImageName(None, Some("library"), Some("fedora"), "20"));
    RenderCanonical(ImageName(None, Some("library"), Some("fedora"), "20"));
    TextExampleNamespace();
  }

  /** A row of the parse table of the test suite: a namespace and no registry. */
  lemma ParseExampleNamespace()
    ensures Parse("library/fedora:20") == ImageName(None, Some("library"), Some("fedora"), "20")
  {
    RenderExampleNamespace();
    ParseRender(ImageName(None, Some("library"), Some("fedora"), "20"));
  }

  lemma TextExampleBare()
    ensures "fedora@sha256:12345" == "fedora" + "@" + "sha256:12345"
  {
  }

  lemma RenderExampleBare()
    ensures Canonical(ImageName(None, None, Some("fedora"), "sha256:12345"))
    ensures Render(ImageName(None, None, Some("fedora"), "sha256:12345")) == "fedora@sha256:12345"
  {
    assert Canonical(ImageName(None, None, Some("fedora"), "sha256:12345"));
    RenderCanonical(ImageName(None, None, Some("fedora"), "sha256:12345"));
    TextExampleBare();
  }

  /** A row of the parse table of the test suite: a bare repository with a digest. */
  lemma ParseExampleBare()
    ensures Parse("fedora@sha256:12345") == ImageName(None, None, Some("fedora"), "sha256:12345")
  {
    RenderExampleBare();
    ParseRender(ImageName(None, None, Some("fedora"), "sha256:12345"));
  }

  /**
   * `enclose(organization)`: no change when the namespace already is the
   * organization; otherwise the namespace becomes the organization and the
   * repo absorbs the old namespace as `namespace-repo`. Registry and tag
   * never change. Joining a missing repo raises TypeError.
   */
  function Enclose(x: ImageName, organization: string): (r: Result<ImageName, Error>)
    ensures x.namespace == Some(organization) ==> r == Ok(x)
    ensures x.namespace != Some(organization) ==> (r.Err? <==> x.repo.None?)
    ensures r.Ok? ==> r.value.registry == x.registry && r.value.tag == x.tag && r.value.namespace == Some(organization)
  {
    if x.namespace == Some(organization) then Ok(x)
    else if x.repo.None? then Err(TypeError)
    else
      var repo := if Present(x.namespace) then x.namespace.value + "-" + x.repo.value else x.repo.value;
      Ok(x.(namespace := Some(organization), repo := Some(repo)))
  }

  /**
   * What `get_repo()` reports after `enclose(organization)`, as the enclose
   * test table states: `org/repo` when the namespace was missing or already
   * the organization, `org/namespace-repo` otherwise.
   */
  lemma EncloseRepo(x: ImageName, organization: string)
    requires x.repo.Some? && organization != ""
    ensures Enclose(x, organization).Ok?
    ensures GetRepo(Enclose(x, organization).value, false) == Some(
      if Present(x.namespace) && x.namespace.value != organization
      then organization + "/" + (x.namespace.value + "-" + x.repo.value)
      else organization + "/" + x.repo.value)
  {
  }

  /** Enclosing twice in the same organization is enclosing once. */
  lemma EncloseIdempotent(x: ImageName, organization: string)
    requires Enclose(x, organization).Ok?
    ensures Enclose(Enclose(x, organization).value, organization) == Enclose(x, organization)
  {
  }

  /** `^\W+` then `\W+$` applied to one word. */
  function Strip(word: string): (r: string)
    ensures |r| <= |word|
    ensures TrimmedAt(word, |word| - |TrimStart(word)|, r)
    ensures r == [] || (IsWordChar(r[0]) && IsWordChar(r[|r| - 1]))
  {
    var t := TrimStart(word);
    var r := TrimEnd(t);
    StripCut(word, t, r);
    r
  }

  /** `r` is the slice of `word` from `i` on, with only non-word characters around it. */
  predicate TrimmedAt(word: string, i: int, r: string)
  {
    0 <= i <= |word| - |r| && r == word[i..i + |r|] && NoWordChars(word[..i]) && NoWordChars(word[i + |r|..])
  }

  /** The two trims cut one slice out of the word. */
  lemma StripCut(word: string, t: string, r: string)
    requires |t| <= |word| && t == word[|word| - |t|..] && NoWordChars(word[..|word| - |t|])
    requires t == [] || IsWordChar(t[0])
    requires |r| <= |t| && r == t[..|r|] && NoWordChars(t[|r|..])
    requires r == [] || IsWordChar(r[|r| - 1])
    ensures TrimmedAt(word, |word| - |t|, r)
    ensures r == [] || (IsWordChar(r[0]) && IsWordChar(r[|r| - 1]))
  {
    var i := |word| - |t|;
    assert word[i + |r|..] == t[|r|..];
    assert r == word[i..i + |r|];
    if r != [] {
      assert r[0] == t[0];
    }
  }

  /** Trimming keeps a character out when the word has none. */
  lemma StripNotIn(word: string, c: char)
    requires c !in word
    ensures c !in Strip(word)
  {
    var r := Strip(word);
    var i := |word| - |TrimStart(word)|;
    SliceNotIn(word, i, i + |r|, c);
  }

  lemma SliceNotIn(s: string, i: int, j: int, c: char)
    requires 0 <= i <= j <= |s| && c !in s
    ensures c !in s[i..j]
  {
    forall k | 0 <= k < j - i
      ensures s[i..j][k] != c
    {
      assert s[i..j][k] == s[i + k];
    }
  }

  /** `from_text` keeps a parsed word only when both its registry and its repo are non-empty. */
  predicate Accepted(x: ImageName)
  {
    Present(x.registry) && Present(x.repo)
  }

  /** The accepted references among `xs`, in their order. */
  function Keep(xs: seq<ImageName>): (r: seq<ImageName>)
    ensures |r| <= |xs|
    ensures forall x :: x in r <==> x in xs && Accepted(x)
  {
    if xs == [] then []
    else (if Accepted(xs[0]) then [xs[0]] else []) + Keep(xs[1..])
  }

  /** Each word, trimmed and parsed. */
  function Candidates(words: seq<string>): seq<ImageName>
  {
    seq(|words|, i requires 0 <= i < |words| => Parse(Strip(words[i])))
  }

  /** `ImageName.from_text(text)`: split on single spaces, trim, parse, keep the accepted. */
  function FromText(text: string): (r: seq<ImageName>)
    ensures forall i :: 0 <= i < |r| ==> Accepted(r[i])
  {
    var xs := Candidates(Split(text, ' '));
    KeepAccepted(xs);
    Keep(xs)
  }

  lemma KeepAccepted(xs: seq<ImageName>)
    ensures forall i :: 0 <= i < |Keep(xs)| ==> Accepted(Keep(xs)[i])
  {
    var r := Keep(xs);
    forall i | 0 <= i < |r|
      ensures Accepted(r[i])
    {
      assert r[i] in r;
    }
  }

  lemma {:induction false} KeepAppend(a: seq<ImageName>, b: seq<ImageName>)
    ensures Keep(a + b) == Keep(a) + Keep(b)
  {
    if a == [] {
      assert a + b == b;
    } else {
      assert (a + b)[1..] == a[1..] + b;
      KeepAppend(a[1..], b);
    }
  }

  lemma CandidatesAppend(a: seq<string>, b: seq<string>)
    ensures Candidates(a + b) == Candidates(a) + Candidates(b)
  {
    var l, r := Candidates(a + b), Candidates(a) + Candidates(b);
    assert |l| == |r|;
    forall i | 0 <= i < |l|
      ensures l[i] == r[i]
    {
      if i < |a| {
        assert (a + b)[i] == a[i];
      } else {
        assert (a + b)[i] == b[i - |a|];
      }
    }
  }

  /** The references found in two texts joined by a space are those of each, in order. */
  lemma FromTextAppend(a: string, b: string)
    ensures FromText(a + " " + b) == FromText(a) + FromText(b)
  {
    var wa, wb := Split(a, ' '), Split(b, ' ');
    SplitAppend(a, b, ' ');
    assert a + " " + b == a + [' '] + b;
    CandidatesAppend(wa, wb);
    KeepAppend(Candidates(wa), Candidates(wb));
  }

  lemma KeepOne(x: ImageName)
    ensures Keep([x]) == if Accepted(x) then [x] else []
  {
    assert [x][1..] == [];
  }

  /** One word (no space) yields its parse exactly when that parse is accepted. */
  lemma FromTextWord(w: string)
    requires ' ' !in w
    ensures FromText(w) == if Accepted(Parse(Strip(w))) then [Parse(Strip(w))] else []
  {
    SplitNone(w, ' ');
    CandidatesOne(w);
    KeepOne(Parse(Strip(w)));
  }

  lemma CandidatesOne(w: string)
    ensures Candidates([w]) == [Parse(Strip(w))]
  {
  }

  /** A word that begins and ends with a word character is not trimmed. */
  lemma StripWord(w: string)
    requires w != [] && IsWordChar(w[0]) && IsWordChar(w[|w| - 1])
    ensures Strip(w) == w
  {
  }

  /** `from_text` of the empty text finds nothing. */
  lemma FromTextEmpty()
    ensures FromText("") == []
  {
    FromTextWord("");
    assert Strip("") == "";
    ParseOne("");
  }

  /** A single word without `/` never names a registry, so `from_text` finds nothing in it. */
  lemma FromTextPlainWord(w: string)
    requires ' ' !in w && '/' !in w
    ensures FromText(w) == []
  {
    FromTextWord(w);
    StripNotIn(w, '/');
    ParseOne(Strip(w));
  }

  lemma SpacedAssoc(a: string, b: string, c: string)
    ensures a + " " + b + " " + c == a + " " + (b + " " + c)
  {
  }

  /**
   * A word naming a registry and a repo, starting and ending with a word
   * character, is found in text as its parse, whatever plain words surround it.
   */
  lemma FromTextSurrounded(before: string, word: string, after: string)
    requires ' ' !in word && word != [] && IsWordChar(word[0]) && IsWordChar(word[|word| - 1])
    requires Accepted(Parse(word))
    requires ' ' !in before && '/' !in before && ' ' !in after && '/' !in after
    ensures FromText(before + " " + word + " " + after) == [Parse(word)]
  {
    FromTextPlainWord(before);
    FromTextPlainWord(after);
    StripWord(word);
    FromTextWord(word);
    FromTextAppend(word, after);
    FromTextAppend(before, word + " " + after);
    SpacedAssoc(before, word, after);
  }
}

=== FILE: operator_csv.dfy ===
/**
 * `OperatorCSV`: one ClusterServiceVersion document, held as a mutable
 * object whose methods find and replace the pullspecs it names and rebuild
 * its `spec.relatedImages`.
 */
module OperatorCsv {
  import opened Wrappers
  import opened Document
  import opened ImageNames
  import opened Pullspecs
  import opened Replacement
  import opened RelatedImages

  /**
   * What one turn of the loop of `get_pullspecs` contributes: the image of
   * the view, parsed (its description is formatted for the log first, so a
   * view without one raises too).
   */
  function PullspecOf(p: NamedPullspec): (r: Result<ImageName, Error>)
  {
    var image :- Image(p);
    var found :- ParseNode(Value(image));
    var description :- Description(p);
    Ok(found)
  }

  /** A view gives an image exactly when its image is a string and it has a description; the image has a repository. */
  lemma PullspecOfParsed(p: NamedPullspec)
    ensures PullspecOf(p).Ok? <==> Image(p).Ok? && Value(Image(p).value).Str? && Description(p).Ok?
    ensures PullspecOf(p).Ok? ==> PullspecOf(p).value == Parse(Value(Image(p).value).s) && PullspecOf(p).value.repo.Some?
  {
  }

  /** What each turn of the loop of `get_pullspecs` reads, view by view. */
  function Images(ps: seq<NamedPullspec>): (r: seq<Result<ImageName, Error>>)
    ensures |r| == |ps|
  {
    seq(|ps|, i requires 0 <= i < |ps| => PullspecOf(ps[i]))
  }

  /** The set `get_pullspecs` builds from the views, or the first error. */
  function PullspecSet(ps: seq<NamedPullspec>): Result<set<ImageName>, Error>
  {
    var xs :- Collect(Images(ps));
    Ok(set x | x in xs)
  }

  /** The loop completes exactly when every view gives an image. */
  lemma PullspecSetOk(ps: seq<NamedPullspec>)
    ensures PullspecSet(ps).Ok? <==> forall i :: 0 <= i < |ps| ==> PullspecOf(ps[i]).Ok?
  {
    var rs := Images(ps);
    CollectOk(rs);
    assert PullspecSet(ps).Ok? <==> Collect(rs).Ok?;
    assert forall i :: 0 <= i < |ps| ==> rs[i] == PullspecOf(ps[i]);
  }

  /** When the loop completes, the set holds exactly the images of the views. */
  lemma PullspecSetMembers(ps: seq<NamedPullspec>)
    requires PullspecSet(ps).Ok?
    ensures forall x :: x in PullspecSet(ps).value <==> exists i :: 0 <= i < |ps| && PullspecOf(ps[i]) == Ok(x)
  {
    var rs := Images(ps);
    var xs := Collect(rs).value;
    forall x
      ensures x in PullspecSet(ps).value <==> exists i :: 0 <= i < |ps| && PullspecOf(ps[i]) == Ok(x)
    {
      if x in xs {
        var j :| 0 <= j < |xs| && xs[j] == x;
        CollectAt(rs, j);
      }
      forall i | 0 <= i < |ps| && PullspecOf(ps[i]) == Ok(x)
        ensures x in xs
      {
        CollectAt(rs, i);
      }
    }
  }

  /**
   * The loop of `get_pullspecs`: the image of each view is parsed in turn
   * and added to the set; the first view that raises ends it.
   */
  method CollectPullspecs(ps: seq<NamedPullspec>) returns (r: Result<set<ImageName>, Error>)
    ensures r == PullspecSet(ps)
  {
    ghost var readings := Images(ps);
    ghost var parsed: seq<ImageName> := [];
    var found: set<ImageName> := {};
    var i := 0;
    while i < |ps|
      invariant 0 <= i <= |ps|
      invariant Collect(readings[..i]) == Ok(parsed)
      invariant found == set x | x in parsed
    {
      var image := PullspecOf(ps[i]);
      assert readings[i] == image;
      CollectNext(readings, i);
      if image.Err? {
        CollectPrefixError(readings, i + 1);
        return Err(image.error);
      }
      found := found + {image.value};
      parsed := parsed + [image.value];
      i := i + 1;
    }
    assert readings[..i] == readings;
    return Ok(found);
  }

  /** `get_pullspecs` on a document. */
  function FoundPullspecs(data: Node): (r: Result<set<ImageName>, Error>)
  {
    var ps :- NamedPullspecs(data);
    PullspecSet(ps)
  }

  /**
   * The pullspecs found are exactly the parsed images of the named views,
   * and each of them has a repository, so each can be rendered again.
   */
  lemma PullspecsAreNamedImages(data: Node, x: ImageName)
    requires FoundPullspecs(data).Ok?
    ensures NamedPullspecs(data).Ok?
    ensures x in FoundPullspecs(data).value <==>
      exists i :: 0 <= i < |NamedPullspecs(data).value| && PullspecOf(NamedPullspecs(data).value[i]) == Ok(x)
    ensures x in FoundPullspecs(data).value ==> x.repo.Some?
  {
    PullspecSetMembers(NamedPullspecs(data).value);
    var ps := NamedPullspecs(data).value;
    if x in FoundPullspecs(data).value {
      var i :| 0 <= i < |ps| && PullspecOf(ps[i]) == Ok(x);
      PullspecOfParsed(ps[i]);
    }
  }

  class OperatorCSV {
    /** Where the document was read from and where `dump` writes it. */
    const path: string
    /** The parsed YAML document. */
    var data: Node
    /** The documents written by `dump`, oldest first. */
    var saved: seq<Node>

    /** The document is a mapping whose `kind` was checked when the object was made. */
    predicate Valid()
      reads this
    {
      data.Map?
    }

    constructor Init(path: string, data: Node)
      requires KindCheck(data).Pass?
      ensures Valid() && this.path == path && this.data == data && saved == []
    {
      this.path := path;
      this.data := data;
      saved := [];
    }

    /** `OperatorCSV(path, data)`: anything but a ClusterServiceVersion is refused. */
    static method New(path: string, data: Node) returns (r: Result<OperatorCSV, Error>)
      ensures r.Ok? <==> KindCheck(data).Pass?
      ensures r.Err? ==> r.error == KindCheck(data).error
      ensures r.Ok? ==> fresh(r.value) && r.value.Valid() && r.value.path == path && r.value.data == data && r.value.saved == []
    {
      var check := KindCheck(data);
      if check.Fail? {
        return Err(check.error);
      }
      var csv := new OperatorCSV.Init(path, data);
      return Ok(csv);
    }

    /** `dump`: the document as it now is is written out. */
    method Dump()
      modifies this
      ensures data == old(data) && saved == old(saved) + [data]
    {
      saved := saved + [data];
    }

    /** `get_pullspecs`: the parsed image of every named view, collected in a set. */
    method GetPullspecs() returns (r: Result<set<ImageName>, Error>)
      ensures r == FoundPullspecs(data)
    {
      var named := NamedPullspecs(data);
      if named.Err? {
        return Err(named.error);
      }
      r := CollectPullspecs(named.value);
    }

    /**
     * `replace_pullspecs`: each named view, read again from the document as
     * the loop has left it, is overwritten with the rendering of its
     * replacement when the mapping has a different one; the first error
     * stops the loop and leaves the earlier writes in place.
     */
    method ReplacePullspecs(m: Replacements) returns (err: Option<Error>)
      requires Valid()
      modifies this
      ensures Valid()
      ensures (data, err) == ReplaceNamed(old(data), m)
      ensures saved == old(saved)
    {
      var named := NamedPullspecs(data);
      if named.Err? {
        return Some(named.error);
      }
      var tree;
      ReplaceUpToKeepsMap(data, named.value, m, |named.value|);
      tree, err := ReplaceViews(data, named.value, m);
      data := tree;
    }

    /** `replace_pullspecs_everywhere`: every value under every top-level key is walked. */
    method ReplacePullspecsEverywhere(m: Replacements) returns (err: Option<Error>)
      requires Valid()
      modifies this
      ensures Valid()
      ensures (data, err) == Walk(old(data), Rewriter(m))
      ensures saved == old(saved)
    {
      var entries, e := ReplaceInEntries(data.entries, m);
      data := Map(entries);
      err := e;
    }

    /**
     * `set_related_images`: the views are read in order; the first one of
     * each name is kept and every later one whose image differs is a
     * conflict. Conflicts raise with all messages and leave the document
     * as it was; otherwise `spec.relatedImages` is rebuilt.
     */
    method SetRelatedImages() returns (err: Option<Error>)
      requires Valid()
      modifies this
      ensures Valid()
      ensures RelatedImagesUpdate(path, old(data)).Ok? ==> err.None? && data == RelatedImagesUpdate(path, old(data)).value
      ensures RelatedImagesUpdate(path, old(data)).Err? ==> err == Some(RelatedImagesUpdate(path, old(data)).error) && data == old(data)
      ensures saved == old(saved)
    {
      var named := NamedPullspecs(data);
      if named.Err? {
        return Some(named.error);
      }
      var scanned := ScanViews(named.value);
      if scanned.Err? {
        return Some(scanned.error);
      }
      var (byName, conflicts) := scanned.value;
      if conflicts != [] {
        return Some(RelatedImagesConflict(ConflictReport(path, conflicts)));
      }
      var written := WithRelatedImages(data, Records(byName));
      if written.Err? {
        return Some(written.error);
      }
      WithRelatedImagesEffect(data, Records(byName));
      data := written.value;
      err := None;
    }
  }

  /**
   * The reading loop of `set_related_images`: each view is read in turn;
   * the first of each name goes to `by_name` and every later one whose
   * image differs adds a conflict message.
   */
  method ScanViews(ps: seq<NamedPullspec>) returns (r: Result<(seq<Fact>, seq<string>), Error>)
    ensures r == if Facts(ps).Ok? then Ok(Scan(Facts(ps).value)) else Err(Facts(ps).error)
  {
    var byName: seq<Fact> := [];
    var conflicts: seq<string> := [];
    ghost var readings := Reads(ps);
    ghost var facts: seq<Fact> := [];
    var i := 0;
    while i < |ps|
      invariant 0 <= i <= |ps|
      invariant Collect(readings[..i]) == Ok(facts)
      invariant (byName, conflicts) == Scan(facts)
    {
      var fact := FactOf(ps[i]);
      assert readings[i] == fact;
      CollectNext(readings, i);
      if fact.Err? {
        CollectPrefixError(readings, i + 1);
        return Err(fact.error);
      }
      byName, conflicts := ScanFact(byName, conflicts, facts, fact.value);
      facts := facts + [fact.value];
      i := i + 1;
    }
    assert readings[..i] == readings;
    return Ok((byName, conflicts));
  }

  /**
   * One turn of the reading loop of `set_related_images`, after the view
   * was read: a name not seen yet goes to `by_name`, a seen one with a
   * different image adds a conflict message.
   */
  method ScanFact(byName: seq<Fact>, conflicts: seq<string>, ghost facts: seq<Fact>, latest: Fact)
    returns (byName': seq<Fact>, conflicts': seq<string>)
    requires (byName, conflicts) == Scan(facts)
    ensures (byName', conflicts') == Scan(facts + [latest])
  {
    var seen := IndexOfName(byName, latest.name);
    if seen.None? {
      ScanNewName(facts, latest);
      byName', conflicts' := byName + [latest], conflicts;
    } else {
      ScanSeenName(facts, latest, seen.value);
      byName', conflicts' := byName, conflicts;
      if latest.image != byName[seen.value].image {
        conflicts' := conflicts + [ConflictMessage(byName[seen.value], latest)];
      }
    }
  }

  /** A fact with a name not seen yet is recorded. */
  lemma {:induction false} ScanNewName(facts: seq<Fact>, latest: Fact)
    requires IndexOfName(Scan(facts).0, latest.name).None?
    ensures Scan(facts + [latest]) == (Scan(facts).0 + [latest], Scan(facts).1)
  {
    var next := facts + [latest];
    assert next[..|next| - 1] == facts && next[|next| - 1] == latest;
    ScanLast(next);
  }

  /** A fact with a name seen before adds a conflict when its image differs from the first one's. */
  lemma {:induction false} ScanSeenName(facts: seq<Fact>, latest: Fact, j: nat)
    requires IndexOfName(Scan(facts).0, latest.name) == Some(j)
    ensures j < |Scan(facts).0|
    ensures latest.image == Scan(facts).0[j].image ==> Scan(facts + [latest]) == Scan(facts)
    ensures latest.image != Scan(facts).0[j].image ==>
      Scan(facts + [latest]) == (Scan(facts).0, Scan(facts).1 + [ConflictMessage(Scan(facts).0[j], latest)])
  {
    assert Scan(facts).1 + [] == Scan(facts).1;
    var next := facts + [latest];
    assert next[..|next| - 1] == facts && next[|next| - 1] == latest;
    ScanLast(next);
  }
}

=== FILE: pullspecs.dfy ===
/**
 * The named pullspecs of a ClusterServiceVersion document: the views
 * `RelatedImage`, `Container`, `InitContainer`, `RelatedImageEnv` and
 * `Annotation` over the document, and the collectors that find them
 * (operator_manifest/operator.py). A view is the held value that carries the
 * name and the image; errors are those Python raises, in the order in which
 * it evaluates.
 */
module Pullspecs {
  import opened Wrappers
  import opened Text
  import opened Document
  import opened ImageNames

  const OperatorCsvKind := "ClusterServiceVersion"
  const RelatedImagePrefix := "RELATED_IMAGE_"

  datatype Kind = RelatedImage | Container | InitContainer | RelatedImageEnv | Annotation(key: string)

  datatype NamedPullspec = NamedPullspec(kind: Kind, data: Located)

  /** `OperatorCSV.__init__`: the document must say `kind: ClusterServiceVersion`; `.get` needs a mapping. */
  function KindCheck(data: Node): (r: Outcome<Error>)
    ensures r.Pass? <==> data.Map? && Subscript(data, Key("kind")) == Found(Str(OperatorCsvKind))
    ensures r.Fail? ==> r.error == (if data.Map? then NotOperatorCSV else AttributeError)
  {
    if !data.Map? then Fail(AttributeError)
    else match GetOr(Attached(data, []), "kind")
      case Ok(Some(k)) => if Value(k) == Str(OperatorCsvKind) then Pass else Fail(NotOperatorCSV)
      case _ => Fail(NotOperatorCSV)
  }

  /** The key under which a view keeps its image. */
  function ImageKey(k: Kind): string
  {
    match k
    case RelatedImageEnv => "value"
    case Annotation(key) => key
    case _ => "image"
  }

  /** `p.image`. */
  function Image(p: NamedPullspec): Result<Located, Error>
  {
    Field(p.data, ImageKey(p.kind))
  }

  /** `ImageName.parse(x)` on a document value: only a string has the `split` it calls. */
  function ParseNode(n: Node): (r: Result<ImageName, Error>)
    ensures r.Ok? <==> n.Str?
    ensures r.Ok? ==> r.value == Parse(n.s)
    ensures r.Err? ==> r.error == AttributeError
  {
    if n.Str? then Ok(Parse(n.s)) else Err(AttributeError)
  }

  /** What is left of a string after `s[n:]`. */
  function Drop(s: string, n: nat): string
  {
    if n <= |s| then s[n..] else ""
  }

  /**
   * `p.name`: the `name` entry; for an environment variable its name without
   * the `RELATED_IMAGE_` prefix, lower-cased; for the annotation the repo of
   * its image followed by `-annotation`.
   */
  function Name(p: NamedPullspec): (r: Result<Node, Error>)
    ensures p.kind.RelatedImageEnv? ==>
      (r.Ok? <==> Field(p.data, "name").Ok? && Value(Field(p.data, "name").value).Str?) &&
      (r.Ok? ==> r.value == Str(Lower(Drop(Value(Field(p.data, "name").value).s, |RelatedImagePrefix|))))
    ensures p.kind.Annotation? ==>
      (r.Ok? <==> Image(p).Ok? && Value(Image(p).value).Str?) &&
      (r.Ok? ==> r.value == Str(Parse(Value(Image(p).value).s).repo.value + "-annotation"))
    ensures !p.kind.RelatedImageEnv? && !p.kind.Annotation? ==> r == (match Field(p.data, "name") case Ok(n) => Ok(Value(n)) case Err(e) => Err(e))
  {
    match p.kind
    case RelatedImageEnv =>
      var n :- Field(p.data, "name");
      (match Value(n)
       case Str(s) => Ok(Str(Lower(Drop(s, |RelatedImagePrefix|))))
       case Seq(_) => Err(AttributeError)
       case _ => Err(TypeError))
    case Annotation(_) =>
      var image :- Image(p);
      var parsed :- ParseNode(Value(image));
      Ok(Str(parsed.repo.value + "-annotation"))
    case _ =>
      var n :- Field(p.data, "name");
      Ok(Value(n))
  }

  /**
   * `p.description`, used in log and conflict messages: the kind and the
   * shown name; a variable shows its full name, the annotation its key.
   */
  function Description(p: NamedPullspec): (r: Result<string, Error>)
    ensures p.kind.Annotation? ==> r == Ok(p.kind.key + " annotation")
    ensures !p.kind.Annotation? ==> (r.Ok? <==> Field(p.data, "name").Ok?)
    ensures r.Ok? && p.kind.Container? ==> r.value == "container " + Show(Value(Field(p.data, "name").value))
    ensures r.Ok? && p.kind.InitContainer? ==> r.value == "initContainer " + Show(Value(Field(p.data, "name").value))
    ensures r.Ok? && p.kind.RelatedImage? ==> r.value == "relatedImage " + Show(Value(Field(p.data, "name").value))
    ensures r.Ok? && p.kind.RelatedImageEnv? ==> r.value == Show(Value(Field(p.data, "name").value)) + " var"
  {
    match p.kind
    case Container =>
      var n :- Name(p);
      Ok("container " + Show(n))
    case InitContainer =>
      var n :- Name(p);
      Ok("initContainer " + Show(n))
    case RelatedImage =>
      var n :- Name(p);
      Ok("relatedImage " + Show(n))
    case RelatedImageEnv =>
      var n :- Field(p.data, "name");
      Ok(Show(Value(n)) + " var")
    case Annotation(key) => Ok(key + " annotation")
  }

  /** One view of the given kind per held value, in order. */
  function Views(kind: Kind, xs: seq<Located>): (r: seq<NamedPullspec>)
    ensures |r| == |xs|
    ensures forall i :: 0 <= i < |r| ==> r[i].kind == kind && r[i].data == xs[i]
  {
    seq(|xs|, i requires 0 <= i < |xs| => NamedPullspec(kind, xs[i]))
  }

  /** The lists one after the other: a nested comprehension `[x for xs in xss for x in xs]`. */
  function Flatten<T>(xss: seq<seq<T>>): seq<T>
  {
    if xss == [] then [] else xss[0] + Flatten(xss[1..])
  }

  /** Flattening after appending one more list appends that list. */
  lemma {:induction false} FlattenSnoc<T>(xss: seq<seq<T>>, xs: seq<T>)
    ensures Flatten(xss + [xs]) == Flatten(xss) + xs
  {
    if xss == [] {
      assert [] + [xs] == [xs];
      assert [xs][1..] == [];
    } else {
      assert (xss + [xs])[1..] == xss[1..] + [xs];
      FlattenSnoc(xss[1..], xs);
    }
  }

  /** A flattened list is empty exactly when every list in it is. */
  lemma {:induction false} FlattenEmpty<T>(xss: seq<seq<T>>)
    ensures Flatten(xss) == [] <==> forall k :: 0 <= k < |xss| ==> xss[k] == []
  {
    if xss != [] {
      FlattenEmpty(xss[1..]);
      assert forall k :: 1 <= k < |xss| ==> xss[1..][k - 1] == xss[k];
    }
  }

  /** The filter of a comprehension `[x for x in xs if keep(x)]`. */
  function Filter<T(!new)>(xs: seq<T>, keep: T -> bool): (r: seq<T>)
    ensures |r| <= |xs|
    ensures forall x :: x in r <==> x in xs && keep(x)
  {
    if xs == [] then [] else (if keep(xs[0]) then [xs[0]] else []) + Filter(xs[1..], keep)
  }

  /** Iterating what `chain_get` found, or the empty default. */
  function IterateOrEmpty(o: Option<Located>): (r: Result<seq<Located>, Error>)
    ensures o.None? ==> r == Ok([])
    ensures o.Some? ==> r == Iterate(o.value)
  {
    if o.None? then Ok([]) else Iterate(o.value)
  }

  const RelatedImagesPath: seq<string> := ["spec", "relatedImages"]
  const AnnotationsPath: seq<string> := ["metadata", "annotations"]
  const DeploymentsPath: seq<string> := ["spec", "install", "spec", "deployments"]

  /** The path of the containers (`field` = `containers`) or init containers of a deployment. */
  function ContainersPath(field: string): seq<string>
  {
    ["spec", "template", "spec", field]
  }

  /**
   * `for x in chain_get(l, keys, default=[])`: the elements of the value the
   * path leads to, none when a key on the way is missing; a value on the way
   * that is not a mapping, or an end value that cannot be iterated, raises.
   */
  function ListAt(l: Located, keys: seq<string>): (r: Result<seq<Located>, Error>)
    ensures r.Err? ==> r.error == TypeError
    ensures keys != [] && l.Detached? ==> r.Err?
  {
    var found :- ChainGetAt(l, keys);
    IterateOrEmpty(found)
  }

  /**
   * What `ListAt` yields, stated on the value `l` holds: one element per
   * element of what `chain_get` gives with the default `[]`, in order.
   */
  lemma ListAtValues(l: Located, keys: seq<string>)
    ensures var r := ListAt(l, keys); var v := ChainGet(Value(l), Keys(keys), Seq([]));
      && (r.Ok? <==> v.Ok? && !v.value.Other?)
      && (r.Ok? ==> |r.value| == |Elements(v.value)| && forall i :: 0 <= i < |r.value| ==> Value(r.value[i]) == Elements(v.value)[i])
  {
    ChainGetAtAgrees(l, keys, Seq([]));
  }

  /** The elements `ListAt` yields, or none when it raises. */
  function Items(l: Located, keys: seq<string>): seq<Located>
  {
    match ListAt(l, keys)
    case Ok(xs) => xs
    case Err(_) => []
  }

  /** The elements of the path `keys` below each of `ls`, one list each. */
  function ItemsOf(ls: seq<Located>, keys: seq<string>): (r: seq<seq<Located>>)
    ensures |r| == |ls| && forall k :: 0 <= k < |ls| ==> r[k] == Items(ls[k], keys)
  {
    seq(|ls|, k requires 0 <= k < |ls| => Items(ls[k], keys))
  }

  /** Every view looks at a value held in the document `root`. */
  predicate AllInTree(root: Node, ps: seq<NamedPullspec>)
  {
    forall i :: 0 <= i < |ps| ==> InTree(root, ps[i].data)
  }

  predicate AllOfKind(ps: seq<NamedPullspec>, kind: Kind)
  {
    forall i :: 0 <= i < |ps| ==> ps[i].kind == kind
  }

  /**
   * `x` is an element of the list the path `keys` leads to from `l`: its
   * route is that of `l`, the keys, and one index.
   */
  predicate ItemBelow(root: Node, l: Located, keys: seq<string>, x: Located)
  {
    && l.Attached? && x.Attached?
    && IsPrefix(l.at, x.at) && |x.at| == |l.at| + |keys| + 1
    && |Route(root, x.at)| == |x.at|
    && Route(root, x.at)[..|x.at| - 1] == Route(root, l.at) + KeySteps(keys)
    && Route(root, x.at)[|x.at| - 1].IndexStep?
  }

  /** Held values at pairwise apart positions: none is another, or inside another. */
  predicate Spread(xs: seq<Located>)
  {
    forall i, j :: 0 <= i < |xs| && 0 <= j < |xs| && i != j && xs[i].Attached? && xs[j].Attached? ==> Apart(xs[i].at, xs[j].at)
  }

  lemma PrefixTrans(p: Pos, q: Pos, r: Pos)
    requires IsPrefix(p, q) && IsPrefix(q, r)
    ensures IsPrefix(p, r)
  {
    assert r[..|p|] == r[..|q|][..|p|];
  }

  /** The elements `ListAt` yields from a value of the document are in the document. */
  lemma ListAtInTree(root: Node, l: Located, keys: seq<string>)
    requires InTree(root, l) && ListAt(l, keys).Ok?
    ensures forall i :: 0 <= i < |ListAt(l, keys).value| ==> InTree(root, ListAt(l, keys).value[i])
  {
    var xs := ListAt(l, keys).value;
    var found := ChainGetAt(l, keys).value;
    if found.Some? {
      ChainGetAtInTree(root, l, keys);
      IterateInTree(root, found.value);
      forall i | 0 <= i < |xs| ensures InTree(root, xs[i]) {
        assert xs[i] in Iterate(found.value).value;
      }
    }
  }

  /** The elements `ListAt` yields from a value of the document are in the document, each at the index it has in the list. */
  lemma ListAtRoute(root: Node, l: Located, keys: seq<string>)
    requires InTree(root, l) && l.Attached? && ListAt(l, keys).Ok?
    ensures forall i :: 0 <= i < |ListAt(l, keys).value| ==> InTree(root, ListAt(l, keys).value[i])
    ensures forall i :: 0 <= i < |ListAt(l, keys).value| && ListAt(l, keys).value[i].Attached? ==>
      && ItemBelow(root, l, keys, ListAt(l, keys).value[i])
      && Route(root, ListAt(l, keys).value[i].at) == Route(root, l.at) + KeySteps(keys) + [IndexStep(i)]
  {
    var xs := ListAt(l, keys).value;
    var found := ChainGetAt(l, keys).value;
    if found.Some? {
      var f := found.value;
      ChainGetAtRoute(root, l, keys, f);
      IterateInTree(root, f);
      forall i | 0 <= i < |xs| ensures InTree(root, xs[i]) {
        assert xs[i] in Iterate(f).value;
      }
      if f.node.Seq? {
        IterateRoute(root, f);
        forall i | 0 <= i < |xs| && xs[i].Attached?
          ensures ItemBelow(root, l, keys, xs[i])
          ensures Route(root, xs[i].at) == Route(root, l.at) + KeySteps(keys) + [IndexStep(i)]
        {
          assert xs[i].at == f.at + [i];
          PrefixTrans(l.at, f.at, xs[i].at);
          var rt := Route(root, xs[i].at);
          assert rt[..|xs[i].at| - 1] == Route(root, l.at) + KeySteps(keys);
        }
      }
    }
  }

  /** The elements `ListAt` yields from a value of the document lie apart from one another. */
  lemma ListAtSpread(root: Node, l: Located, keys: seq<string>)
    requires InTree(root, l) && l.Attached? && ListAt(l, keys).Ok?
    ensures Spread(ListAt(l, keys).value)
  {
    var xs := ListAt(l, keys).value;
    ListAtRoute(root, l, keys);
    var base := Route(root, l.at) + KeySteps(keys);
    forall i, j | 0 <= i < |xs| && 0 <= j < |xs| && i != j && xs[i].Attached? && xs[j].Attached?
      ensures Apart(xs[i].at, xs[j].at)
    {
      assert Route(root, xs[i].at)[|base|] == IndexStep(i);
      assert Route(root, xs[j].at)[|base|] == IndexStep(j);
      RouteApart(root, xs[i].at, xs[j].at, |base|);
    }
  }

  lemma ApartSym(p: Pos, q: Pos)
    requires Apart(p, q)
    ensures Apart(q, p)
  {
    var s :| 0 <= s < |p| && s < |q| && p[s] != q[s];
    assert q[s] != p[s];
  }

  /** Two spread lists whose elements lie apart from each other's are spread together. */
  lemma SpreadAppend(xs: seq<Located>, ys: seq<Located>)
    requires Spread(xs) && Spread(ys)
    requires forall i, j :: 0 <= i < |xs| && 0 <= j < |ys| && xs[i].Attached? && ys[j].Attached? ==> Apart(xs[i].at, ys[j].at)
    ensures Spread(xs + ys)
  {
    var zs := xs + ys;
    forall i, j | 0 <= i < |zs| && 0 <= j < |zs| && i != j && zs[i].Attached? && zs[j].Attached?
      ensures Apart(zs[i].at, zs[j].at)
    {
      if i < |xs| && j >= |xs| {
        assert zs[i] == xs[i] && zs[j] == ys[j - |xs|];
      } else if i >= |xs| && j < |xs| {
        assert zs[j] == xs[j] && zs[i] == ys[i - |xs|];
        ApartSym(zs[j].at, zs[i].at);
      } else if i < |xs| {
        assert zs[i] == xs[i] && zs[j] == xs[j];
      } else {
        assert zs[i] == ys[i - |xs|] && zs[j] == ys[j - |xs|];
      }
    }
  }

  /** Filtering a spread list keeps it spread. */
  lemma {:induction false} FilterSpread(xs: seq<Located>, keep: Located -> bool)
    requires Spread(xs)
    ensures Spread(Filter(xs, keep))
  {
    if xs != [] {
      var tail := xs[1..];
      assert Spread(tail) by {
        forall i, j | 0 <= i < |tail| && 0 <= j < |tail| && i != j && tail[i].Attached? && tail[j].Attached?
          ensures Apart(tail[i].at, tail[j].at)
        {
          assert tail[i] == xs[i + 1] && tail[j] == xs[j + 1];
        }
      }
      FilterSpread(tail, keep);
      var head: seq<Located> := if keep(xs[0]) then [xs[0]] else [];
      var rest := Filter(tail, keep);
      forall i, j | 0 <= i < |head| && 0 <= j < |rest| && head[i].Attached? && rest[j].Attached?
        ensures Apart(head[i].at, rest[j].at)
      {
        assert rest[j] in tail;
        var m :| 0 <= m < |tail| && tail[m] == rest[j];
        assert xs[m + 1] == rest[j] && head[i] == xs[0];
      }
      SpreadAppend(head, rest);
    }
  }

  /** `_related_image_pullspecs`: one view per element of `spec.relatedImages`, in order. */
  function RelatedImagePullspecs(root: Node): (r: Result<seq<NamedPullspec>, Error>)
    ensures r.Ok? <==> ListAt(Attached(root, []), RelatedImagesPath).Ok?
    ensures r.Ok? ==> r.value == Views(RelatedImage, ListAt(Attached(root, []), RelatedImagesPath).value)
    ensures r.Err? ==> r.error == TypeError
    ensures r.Ok? ==> AllOfKind(r.value, RelatedImage) && AllInTree(root, r.value)
  {
    var items :- ListAt(Attached(root, []), RelatedImagesPath);
    ListAtRoute(root, Attached(root, []), RelatedImagesPath);
    Ok(Views(RelatedImage, items))
  }

  /**
   * The related-image views on the document: one per element of
   * `chain_get(data, ("spec", "relatedImages"), default=[])`, in order;
   * a value there that cannot be iterated raises.
   */
  lemma RelatedImagePullspecsValues(root: Node)
    ensures var r := RelatedImagePullspecs(root); var v := ChainGet(root, Keys(RelatedImagesPath), Seq([]));
      && (r.Ok? <==> v.Ok? && !v.value.Other?)
      && (r.Ok? ==> |r.value| == |Elements(v.value)| && forall i :: 0 <= i < |r.value| ==> Value(r.value[i].data) == Elements(v.value)[i])
  {
    ListAtValues(Attached(root, []), RelatedImagesPath);
  }

  /** `_annotation_pullspecs`: the view of `metadata.annotations` under its key `containerImage`, when that key is there. */
  function AnnotationPullspecs(root: Node): (r: Result<seq<NamedPullspec>, Error>)
    ensures r.Err? ==> r.error == TypeError
    ensures r.Ok? ==> AllOfKind(r.value, Annotation("containerImage")) && |r.value| <= 1
    ensures r.Ok? ==> AllInTree(root, r.value) && forall i :: 0 <= i < |r.value| ==> r.value[i].data.Attached?
  {
    var found :- ChainGetAt(Attached(root, []), AnnotationsPath);
    ChainGetAtInTree(root, Attached(root, []), AnnotationsPath);
    if found.None? then Ok([])
    else
      var has :- Contains(Value(found.value), "containerImage");
      Ok(if has then [NamedPullspec(Annotation("containerImage"), found.value)] else [])
  }

  /**
   * The annotation view on the document: with `annotations` the value of
   * `chain_get(data, ("metadata", "annotations"), default={})`, there is one
   * view exactly when `"containerImage" in annotations`, and it looks at
   * `annotations`; a value there without `in` raises.
   */
  lemma AnnotationPullspecsValues(root: Node)
    ensures var r := AnnotationPullspecs(root); var v := ChainGet(root, Keys(AnnotationsPath), Map([]));
      && (r.Ok? <==> v.Ok? && !v.value.Other?)
      && (r.Ok? ==> (|r.value| == 1 <==> Contains(v.value, "containerImage") == Ok(true)))
      && (r.Ok? && |r.value| == 1 ==> Value(r.value[0].data) == v.value)
  {
    ChainGetAtAgrees(Attached(root, []), AnnotationsPath, Map([]));
  }

  /** `_deployments`: the elements of `spec.install.spec.deployments`. */
  function Deployments(root: Node): (r: Result<seq<Located>, Error>)
    ensures r.Err? ==> r.error == TypeError
  {
    ListAt(Attached(root, []), DeploymentsPath)
  }

  /** The deployments on the document: the elements of `chain_get(data, ("spec", "install", "spec", "deployments"), default=[])`. */
  lemma DeploymentsValues(root: Node)
    ensures var r := Deployments(root); var v := ChainGet(root, Keys(DeploymentsPath), Seq([]));
      && (r.Ok? <==> v.Ok? && !v.value.Other?)
      && (r.Ok? ==> |r.value| == |Elements(v.value)| && forall i :: 0 <= i < |r.value| ==> Value(r.value[i]) == Elements(v.value)[i])
  {
    ListAtValues(Attached(root, []), DeploymentsPath);
  }

  /**
   * `[c for d in ds for c in chain_get(d, ("spec", "template", "spec", field), default=[])]`:
   * the containers of each deployment in turn; the first deployment whose
   * containers cannot be listed raises.
   */
  function ContainersOf(ds: seq<Located>, field: string): (r: Result<seq<Located>, Error>)
    ensures r.Ok? <==> forall k :: 0 <= k < |ds| ==> ListAt(ds[k], ContainersPath(field)).Ok?
    ensures r.Err? ==> r.error == TypeError
    ensures r.Ok? ==> r.value == Flatten(ItemsOf(ds, ContainersPath(field)))
  {
    if ds == [] then Ok([])
    else
      var items :- ListAt(ds[0], ContainersPath(field));
      var rest :- ContainersOf(ds[1..], field);
      assert ItemsOf(ds, ContainersPath(field))[1..] == ItemsOf(ds[1..], ContainersPath(field));
      Ok(items + rest)
  }

  /** Dropping the first of a spread list leaves it spread. */
  lemma SpreadTail(xs: seq<Located>)
    requires xs != [] && Spread(xs)
    ensures Spread(xs[1..])
  {
    var tail := xs[1..];
    forall i, j | 0 <= i < |tail| && 0 <= j < |tail| && i != j && tail[i].Attached? && tail[j].Attached?
      ensures Apart(tail[i].at, tail[j].at)
    {
      assert tail[i] == xs[i + 1] && tail[j] == xs[j + 1];
    }
  }

  /** Every value of `xs` is held in the document `root`. */
  predicate Held(root: Node, xs: seq<Located>)
  {
    forall i :: 0 <= i < |xs| ==> InTree(root, xs[i])
  }

  lemma HeldAppend(root: Node, xs: seq<Located>, ys: seq<Located>)
    requires Held(root, xs) && Held(root, ys)
    ensures Held(root, xs + ys)
  {
  }

  /** Every held value of `xs` is an element of the list `keys` leads to from `l`. */
  predicate AllBelowOf(root: Node, l: Located, keys: seq<string>, xs: seq<Located>)
  {
    forall i :: 0 <= i < |xs| && xs[i].Attached? ==> ItemBelow(root, l, keys, xs[i])
  }

  /** `x` is an element of the list `keys` leads to from one of `ls`. */
  predicate BelowOne(root: Node, ls: seq<Located>, keys: seq<string>, x: Located)
  {
    exists k :: 0 <= k < |ls| && ItemBelow(root, ls[k], keys, x)
  }

  /** Every held value of `xs` is an element of the list `keys` leads to from one of `ls`. */
  predicate AllBelow(root: Node, ls: seq<Located>, keys: seq<string>, xs: seq<Located>)
  {
    forall i :: 0 <= i < |xs| && xs[i].Attached? ==> BelowOne(root, ls, keys, xs[i])
  }

  /** The elements below the first of `ls`, then those below the rest, are below `ls`. */
  lemma AllBelowCons(root: Node, ls: seq<Located>, keys: seq<string>, xs: seq<Located>, ys: seq<Located>)
    requires ls != [] && AllBelowOf(root, ls[0], keys, xs) && AllBelow(root, ls[1..], keys, ys)
    ensures AllBelow(root, ls, keys, xs + ys)
  {
    var zs := xs + ys;
    forall i | 0 <= i < |zs| && zs[i].Attached? ensures BelowOne(root, ls, keys, zs[i]) {
      if i < |xs| {
        assert zs[i] == xs[i];
        assert ItemBelow(root, ls[0], keys, zs[i]);
      } else {
        var y := ys[i - |xs|];
        assert zs[i] == y;
        var k :| 0 <= k < |ls[1..]| && ItemBelow(root, ls[1..][k], keys, y);
        assert ls[1..][k] == ls[k + 1];
        assert ItemBelow(root, ls[k + 1], keys, zs[i]);
      }
    }
  }

  /** The elements below the first of spread `ls` lie apart from those below the rest. */
  lemma SpreadBelowAppend(root: Node, ls: seq<Located>, keys: seq<string>, xs: seq<Located>, ys: seq<Located>)
    requires ls != [] && Spread(ls) && Spread(xs) && Spread(ys)
    requires AllBelowOf(root, ls[0], keys, xs) && AllBelow(root, ls[1..], keys, ys)
    ensures Spread(xs + ys)
  {
    forall i, j | 0 <= i < |xs| && 0 <= j < |ys| && xs[i].Attached? && ys[j].Attached?
      ensures Apart(xs[i].at, ys[j].at)
    {
      var k :| 0 <= k < |ls[1..]| && ItemBelow(root, ls[1..][k], keys, ys[j]);
      assert ls[1..][k] == ls[k + 1];
      assert ItemBelow(root, ls[0], keys, xs[i]);
      ApartBelow(ls[0].at, ls[k + 1].at, xs[i].at, ys[j].at);
    }
    SpreadAppend(xs, ys);
  }

  /** The held elements `ListAt` yields from a held value are below it. */
  lemma ListAtBelow(root: Node, l: Located, keys: seq<string>)
    requires InTree(root, l) && l.Attached? && ListAt(l, keys).Ok?
    ensures Held(root, ListAt(l, keys).value) && AllBelowOf(root, l, keys, ListAt(l, keys).value)
  {
    ListAtRoute(root, l, keys);
  }

  /** The containers of a non-empty list of deployments are those of the first, then those of the rest. */
  lemma ContainersOfSplit(ds: seq<Located>, field: string)
    requires ds != [] && ContainersOf(ds, field).Ok?
    ensures ds[0].Attached? && ListAt(ds[0], ContainersPath(field)).Ok? && ContainersOf(ds[1..], field).Ok?
    ensures ContainersOf(ds, field).value == ListAt(ds[0], ContainersPath(field)).value + ContainersOf(ds[1..], field).value
  {
  }

  /** The containers of deployments held in the document are in it, each below one of the deployments. */
  lemma {:induction false} ContainersOfBelow(root: Node, ds: seq<Located>, field: string)
    requires Held(root, ds) && ContainersOf(ds, field).Ok?
    ensures Held(root, ContainersOf(ds, field).value)
    ensures AllBelow(root, ds, ContainersPath(field), ContainersOf(ds, field).value)
  {
    if ds != [] {
      var path := ContainersPath(field);
      ContainersOfSplit(ds, field);
      ListAtBelow(root, ds[0], path);
      ContainersOfBelow(root, ds[1..], field);
      HeldAppend(root, ListAt(ds[0], path).value, ContainersOf(ds[1..], field).value);
      AllBelowCons(root, ds, path, ListAt(ds[0], path).value, ContainersOf(ds[1..], field).value);
    }
  }

  /** The containers of a spread list of deployments are spread. */
  lemma {:induction false} ContainersOfRoute(root: Node, ds: seq<Located>, field: string)
    requires Held(root, ds) && Spread(ds) && ContainersOf(ds, field).Ok?
    ensures Spread(ContainersOf(ds, field).value)
  {
    if ds != [] {
      var path := ContainersPath(field);
      ContainersOfSplit(ds, field);
      ListAtBelow(root, ds[0], path);
      ListAtSpread(root, ds[0], path);
      SpreadTail(ds);
      ContainersOfRoute(root, ds[1..], field);
      ContainersOfBelow(root, ds[1..], field);
      SpreadBelowAppend(root, ds, path, ListAt(ds[0], path).value, ContainersOf(ds[1..], field).value);
    }
  }

  /** The containers (`field` = `containers`) or init containers of every deployment, in order. */
  function ContainersIn(root: Node, field: string): (r: Result<seq<Located>, Error>)
    ensures r.Ok? <==> Deployments(root).Ok? && forall k :: 0 <= k < |Deployments(root).value| ==> ListAt(Deployments(root).value[k], ContainersPath(field)).Ok?
    ensures r.Err? ==> r.error == TypeError
    ensures r.Ok? ==> r.value == Flatten(ItemsOf(Deployments(root).value, ContainersPath(field)))
  {
    var ds :- Deployments(root);
    ContainersOf(ds, field)
  }

  /** The route of a container: `spec.install.spec.deployments[d].spec.template.spec.<field>[c]`. */
  predicate ContainerRoute(rt: seq<Step>, field: string)
  {
    && |rt| == 10
    && rt[..4] == KeySteps(DeploymentsPath) && rt[4].IndexStep?
    && rt[5..9] == KeySteps(ContainersPath(field)) && rt[9].IndexStep?
  }

  /** `x` is held in the document, at the route of a container (`field` = `containers`) or init container. */
  predicate ContainerAt(root: Node, x: Located, field: string)
  {
    InTree(root, x) && (x.Attached? ==> ContainerRoute(Route(root, x.at), field))
  }

  /** The deployments are held in the document, spread, each at its index of `spec.install.spec.deployments`. */
  lemma DeploymentsRoute(root: Node)
    requires Deployments(root).Ok?
    ensures var ds := Deployments(root).value;
      && Held(root, ds) && Spread(ds)
      && forall k :: 0 <= k < |ds| && ds[k].Attached? ==> Route(root, ds[k].at) == KeySteps(DeploymentsPath) + [IndexStep(k)]
  {
    var top := Attached(root, []);
    ListAtRoute(root, top, DeploymentsPath);
    ListAtSpread(root, top, DeploymentsPath);
  }

  /** An element below one of the deployments along `ContainersPath(field)` is at the route of a container. */
  lemma ContainerRouteOf(root: Node, ds: seq<Located>, field: string, x: Located)
    requires forall k :: 0 <= k < |ds| && ds[k].Attached? ==> Route(root, ds[k].at) == KeySteps(DeploymentsPath) + [IndexStep(k)]
    requires x.Attached? && BelowOne(root, ds, ContainersPath(field), x)
    ensures ContainerRoute(Route(root, x.at), field)
  {
    var path := ContainersPath(field);
    var k :| 0 <= k < |ds| && ItemBelow(root, ds[k], path, x);
    var rt := Route(root, x.at);
    assert rt[..9] == KeySteps(DeploymentsPath) + [IndexStep(k)] + KeySteps(path);
    ContainerRouteFrom(rt, k, field);
  }

  lemma ContainerRouteFrom(rt: seq<Step>, k: nat, field: string)
    requires |rt| == 10 && rt[9].IndexStep?
    requires rt[..9] == KeySteps(DeploymentsPath) + [IndexStep(k)] + KeySteps(ContainersPath(field))
    ensures ContainerRoute(rt, field)
  {
    assert rt[..4] == rt[..9][..4] && rt[5..9] == rt[..9][5..9];
  }

  /** The containers are spread, each in the document at the route of a container. */
  lemma ContainersInRoute(root: Node, field: string)
    requires ContainersIn(root, field).Ok?
    ensures var xs := ContainersIn(root, field).value;
      Spread(xs) && forall i :: 0 <= i < |xs| ==> ContainerAt(root, xs[i], field)
  {
    var ds := Deployments(root).value;
    DeploymentsRoute(root);
    ContainersOfRoute(root, ds, field);
    ContainersOfBelow(root, ds, field);
    var xs := ContainersIn(root, field).value;
    forall i | 0 <= i < |xs| ensures ContainerAt(root, xs[i], field) {
      if xs[i].Attached? {
        ContainerRouteOf(root, ds, field, xs[i]);
      }
    }
  }

  /** `x.startswith(prefix)`; only strings have it. */
  function NodeStartsWith(n: Node, prefix: string): (r: Result<bool, Error>)
    ensures r.Ok? <==> n.Str?
    ensures r.Err? ==> r.error == AttributeError
    ensures r.Ok? ==> (r.value <==> StartsWith(n.s, prefix))
  {
    if n.Str? then Ok(StartsWith(n.s, prefix)) else Err(AttributeError)
  }

  /** A variable whose `name` is a string, on which the filter can call `startswith`. */
  predicate Named(e: Located)
  {
    Field(e, "name").Ok? && Value(Field(e, "name").value).Str?
  }

  /** An environment variable kept as a related-image variable. */
  predicate IsRelatedImageEnv(e: Located)
  {
    Named(e) && StartsWith(Value(Field(e, "name").value).s, RelatedImagePrefix)
  }

  /**
   * The filter `e["name"].startswith("RELATED_IMAGE_")` over the variables of
   * one container: it raises unless every variable has a string name, and
   * keeps exactly the related-image variables, in order.
   */
  function RelatedEnvs(es: seq<Located>): (r: Result<seq<Located>, Error>)
    ensures r.Ok? <==> forall i :: 0 <= i < |es| ==> Named(es[i])
    ensures r.Ok? ==> r.value == Filter(es, IsRelatedImageEnv)
  {
    if es == [] then Ok([])
    else
      var name :- Field(es[0], "name");
      var starts :- NodeStartsWith(Value(name), RelatedImagePrefix);
      var rest :- RelatedEnvs(es[1..]);
      assert forall i :: 1 <= i < |es| ==> es[1..][i - 1] == es[i];
      Ok((if starts then [es[0]] else []) + rest)
  }

  /** `c.get("env", [])`, iterated: the variables of one container. */
  function EnvList(c: Located): (r: Result<seq<Located>, Error>)
    ensures r.Ok? <==> c.Attached? && c.node.Map? && ListAt(c, ["env"]).Ok?
    ensures r.Ok? ==> r == ListAt(c, ["env"])
    ensures r.Err? ==> r.error == (if c.Attached? && c.node.Map? then TypeError else AttributeError)
  {
    assert ["env"][1..] == [];
    var env :- GetOr(c, "env");
    IterateOrEmpty(env)
  }

  /** The related-image variables of one container: none when its variables cannot be listed. */
  function EnvItems(c: Located): seq<Located>
  {
    match EnvList(c)
    case Ok(es) => es
    case Err(_) => []
  }

  /** The related-image variables of each container, one list each. */
  function EnvGroups(cs: seq<Located>): (r: seq<seq<Located>>)
    ensures |r| == |cs| && forall k :: 0 <= k < |cs| ==> r[k] == Filter(EnvItems(cs[k]), IsRelatedImageEnv)
  {
    seq(|cs|, k requires 0 <= k < |cs| => Filter(EnvItems(cs[k]), IsRelatedImageEnv))
  }

  /** The variables of a container can be listed and filtered without raising. */
  predicate EnvsReadable(c: Located)
  {
    EnvList(c).Ok? && forall i :: 0 <= i < |EnvList(c).value| ==> Named(EnvList(c).value[i])
  }

  /**
   * `[e for c in containers for e in c.data.get("env", []) if ...]`: the
   * related-image variables of each container in turn.
   */
  function EnvCandidates(cs: seq<Located>): (r: Result<seq<Located>, Error>)
    ensures r.Ok? <==> forall k :: 0 <= k < |cs| ==> EnvsReadable(cs[k])
    ensures r.Ok? ==> r.value == Flatten(EnvGroups(cs))
    ensures r.Ok? ==> forall j :: 0 <= j < |r.value| ==> IsRelatedImageEnv(r.value[j])
  {
    if cs == [] then Ok([])
    else
      var items :- EnvList(cs[0]);
      var kept :- RelatedEnvs(items);
      var rest :- EnvCandidates(cs[1..]);
      EnvGroupsTail(cs);
      RelatedAppend(kept, rest);
      Ok(kept + rest)
  }

  /** The groups and readability of the containers after the first. */
  lemma EnvGroupsTail(cs: seq<Located>)
    requires cs != []
    ensures EnvGroups(cs)[1..] == EnvGroups(cs[1..])
    ensures (forall k :: 0 <= k < |cs| ==> EnvsReadable(cs[k])) <==>
      EnvsReadable(cs[0]) && forall k :: 0 <= k < |cs[1..]| ==> EnvsReadable(cs[1..][k])
  {
    assert forall k :: 1 <= k < |cs| ==> cs[1..][k - 1] == cs[k];
  }

  lemma RelatedAppend(xs: seq<Located>, ys: seq<Located>)
    requires forall j :: 0 <= j < |xs| ==> IsRelatedImageEnv(xs[j])
    requires forall j :: 0 <= j < |ys| ==> IsRelatedImageEnv(ys[j])
    ensures forall j :: 0 <= j < |xs + ys| ==> IsRelatedImageEnv((xs + ys)[j])
  {
  }

  /** The variables of a non-empty list of containers are the kept ones of the first, then those of the rest. */
  lemma EnvCandidatesSplit(cs: seq<Located>)
    requires cs != [] && EnvCandidates(cs).Ok?
    ensures cs[0].Attached? && ListAt(cs[0], ["env"]).Ok? && EnvCandidates(cs[1..]).Ok?
    ensures EnvCandidates(cs).value == Filter(ListAt(cs[0], ["env"]).value, IsRelatedImageEnv) + EnvCandidates(cs[1..]).value
  {
  }

  /** Filtering keeps the elements below `l` below it. */
  lemma FilterBelow(root: Node, l: Located, keys: seq<string>, xs: seq<Located>, keep: Located -> bool)
    requires Held(root, xs) && AllBelowOf(root, l, keys, xs)
    ensures Held(root, Filter(xs, keep)) && AllBelowOf(root, l, keys, Filter(xs, keep))
  {
    var ys := Filter(xs, keep);
    forall j | 0 <= j < |ys| ensures InTree(root, ys[j]) && (ys[j].Attached? ==> ItemBelow(root, l, keys, ys[j])) {
      assert ys[j] in xs;
      var m :| 0 <= m < |xs| && xs[m] == ys[j];
    }
  }

  /** The variables of containers held in the document are in it, each an element of the `env` list of one of them. */
  lemma {:induction false} EnvCandidatesBelow(root: Node, cs: seq<Located>)
    requires Held(root, cs) && EnvCandidates(cs).Ok?
    ensures Held(root, EnvCandidates(cs).value) && AllBelow(root, cs, ["env"], EnvCandidates(cs).value)
  {
    if cs != [] {
      EnvCandidatesSplit(cs);
      var items := ListAt(cs[0], ["env"]).value;
      ListAtBelow(root, cs[0], ["env"]);
      FilterBelow(root, cs[0], ["env"], items, IsRelatedImageEnv);
      EnvCandidatesBelow(root, cs[1..]);
      HeldAppend(root, Filter(items, IsRelatedImageEnv), EnvCandidates(cs[1..]).value);
      AllBelowCons(root, cs, ["env"], Filter(items, IsRelatedImageEnv), EnvCandidates(cs[1..]).value);
    }
  }

  /** The variables of a spread list of containers are spread. */
  lemma {:induction false} EnvCandidatesRoute(root: Node, cs: seq<Located>)
    requires Held(root, cs) && Spread(cs) && EnvCandidates(cs).Ok?
    ensures Spread(EnvCandidates(cs).value)
  {
    if cs != [] {
      EnvCandidatesSplit(cs);
      var items := ListAt(cs[0], ["env"]).value;
      ListAtBelow(root, cs[0], ["env"]);
      ListAtSpread(root, cs[0], ["env"]);
      FilterSpread(items, IsRelatedImageEnv);
      FilterBelow(root, cs[0], ["env"], items, IsRelatedImageEnv);
      SpreadTail(cs);
      EnvCandidatesRoute(root, cs[1..]);
      EnvCandidatesBelow(root, cs[1..]);
      SpreadBelowAppend(root, cs, ["env"], Filter(items, IsRelatedImageEnv), EnvCandidates(cs[1..]).value);
    }
  }

  /** The check that no related-image variable uses `valueFrom`; the first one that does raises. */
  function CheckValueFrom(envs: seq<Located>): (r: Outcome<Error>)
    ensures r.Pass? <==> forall i :: 0 <= i < |envs| ==> Contains(Value(envs[i]), "valueFrom") == Ok(false)
  {
    if envs == [] then Pass
    else match Contains(Value(envs[0]), "valueFrom")
      case Err(e) => Fail(e)
      case Ok(true) =>
        var name := match Field(envs[0], "name") case Ok(n) => Show(Value(n)) case Err(_) => "";
        Fail(ValueFromNotSupported(name + ": \"valueFrom\" references are not supported"))
      case Ok(false) => CheckValueFrom(envs[1..])
  }

  /** The containers, then the init containers, of every deployment. */
  function AllContainers(root: Node): Result<seq<Located>, Error>
  {
    var cs :- ContainersIn(root, "containers");
    var ics :- ContainersIn(root, "initContainers");
    Ok(cs + ics)
  }

  /**
   * `_related_image_env_pullspecs`: the `RELATED_IMAGE_*` variables of the
   * containers, then of the init containers, in order; one of them with
   * `valueFrom` raises.
   */
  function EnvPullspecs(root: Node): (r: Result<seq<NamedPullspec>, Error>)
    ensures r.Ok? ==> AllContainers(root).Ok? && r.value == Views(RelatedImageEnv, Flatten(EnvGroups(AllContainers(root).value)))
    ensures r.Ok? ==> AllOfKind(r.value, RelatedImageEnv) && AllInTree(root, r.value)
    ensures r.Ok? ==> forall i :: 0 <= i < |r.value| ==> IsRelatedImageEnv(r.value[i].data) && Contains(Value(r.value[i].data), "valueFrom") == Ok(false)
    ensures r.Ok? <==>
      && AllContainers(root).Ok? && EnvCandidates(AllContainers(root).value).Ok?
      && CheckValueFrom(EnvCandidates(AllContainers(root).value).value).Pass?
    ensures AllContainers(root).Err? ==> r == Err(AllContainers(root).error)
    ensures AllContainers(root).Ok? && EnvCandidates(AllContainers(root).value).Err? ==>
      r == Err(EnvCandidates(AllContainers(root).value).error)
    ensures (AllContainers(root).Ok? && EnvCandidates(AllContainers(root).value).Ok?
             && CheckValueFrom(EnvCandidates(AllContainers(root).value).value).Fail?) ==>
      r == Err(CheckValueFrom(EnvCandidates(AllContainers(root).value).value).error)
  {
    var cs :- AllContainers(root);
    var envs :- EnvCandidates(cs);
    EnvPullspecsPlaced(root);
    match CheckValueFrom(envs)
    case Fail(e) => Err(e)
    case Pass => Ok(Views(RelatedImageEnv, envs))
  }

  /** `_container_pullspecs` (field `containers`) and `_init_container_pullspecs` (field `initContainers`): one view per container, deployment by deployment. */
  function ContainerPullspecs(root: Node, field: string, kind: Kind): (r: Result<seq<NamedPullspec>, Error>)
    ensures r.Ok? <==> ContainersIn(root, field).Ok?
    ensures r.Err? ==> r.error == TypeError
    ensures r.Ok? ==> r.value == Views(kind, Flatten(ItemsOf(Deployments(root).value, ContainersPath(field))))
    ensures r.Ok? ==> AllOfKind(r.value, kind) && AllInTree(root, r.value)
  {
    var xs :- ContainersIn(root, field);
    ContainersInRoute(root, field);
    Ok(Views(kind, xs))
  }

  lemma ContainerRouteSteps(rt: seq<Step>, field: string)
    requires ContainerRoute(rt, field)
    ensures rt[0] == KeyStep("spec") && rt[1] == KeyStep("install") && rt[8] == KeyStep(field)
  {
    assert rt[0] == rt[..4][0] && rt[1] == rt[..4][1];
    assert rt[8] == rt[5..9][3];
  }

  /** A container and an init container lie apart: their routes part at `containers` / `initContainers`. */
  lemma ContainerKindsApart(root: Node, x: Located, y: Located)
    requires InTree(root, x) && InTree(root, y) && x.Attached? && y.Attached?
    requires ContainerRoute(Route(root, x.at), "containers") && ContainerRoute(Route(root, y.at), "initContainers")
    ensures Apart(x.at, y.at) && Apart(y.at, x.at)
  {
    ContainerRouteSteps(Route(root, x.at), "containers");
    ContainerRouteSteps(Route(root, y.at), "initContainers");
    RouteApart(root, x.at, y.at, 8);
    RouteApart(root, y.at, x.at, 8);
  }

  /** `x` is held in the document at the route of a container or of an init container. */
  predicate AnyContainerAt(root: Node, x: Located)
  {
    ContainerAt(root, x, "containers") || ContainerAt(root, x, "initContainers")
  }

  /** Every container lies apart from every init container. */
  lemma ContainersApart(root: Node, cs: seq<Located>, ics: seq<Located>)
    requires forall i :: 0 <= i < |cs| ==> ContainerAt(root, cs[i], "containers")
    requires forall j :: 0 <= j < |ics| ==> ContainerAt(root, ics[j], "initContainers")
    ensures forall i, j :: 0 <= i < |cs| && 0 <= j < |ics| && cs[i].Attached? && ics[j].Attached? ==> Apart(cs[i].at, ics[j].at)
  {
    forall i, j | 0 <= i < |cs| && 0 <= j < |ics| && cs[i].Attached? && ics[j].Attached?
      ensures Apart(cs[i].at, ics[j].at)
    {
      ContainerKindsApart(root, cs[i], ics[j]);
    }
  }

  lemma AnyContainerAppend(root: Node, cs: seq<Located>, ics: seq<Located>)
    requires forall i :: 0 <= i < |cs| ==> ContainerAt(root, cs[i], "containers")
    requires forall j :: 0 <= j < |ics| ==> ContainerAt(root, ics[j], "initContainers")
    ensures Held(root, cs + ics) && forall i :: 0 <= i < |cs + ics| ==> AnyContainerAt(root, (cs + ics)[i])
  {
    var xs := cs + ics;
    forall i | 0 <= i < |xs| ensures InTree(root, xs[i]) && AnyContainerAt(root, xs[i]) {
      if i < |cs| {
        assert xs[i] == cs[i];
      } else {
        assert xs[i] == ics[i - |cs|];
      }
    }
  }

  /** The containers and init containers together are spread, each at the route of one or the other. */
  lemma AllContainersRoute(root: Node)
    requires AllContainers(root).Ok?
    ensures var xs := AllContainers(root).value;
      Held(root, xs) && Spread(xs) && forall i :: 0 <= i < |xs| ==> AnyContainerAt(root, xs[i])
  {
    var cs := ContainersIn(root, "containers").value;
    var ics := ContainersIn(root, "initContainers").value;
    ContainersInRoute(root, "containers");
    ContainersInRoute(root, "initContainers");
    ContainersApart(root, cs, ics);
    SpreadAppend(cs, ics);
    AnyContainerAppend(root, cs, ics);
  }

  /** The related-image variables are spread, each an element of the `env` list of a container or init container. */
  lemma EnvPullspecsPlaced(root: Node)
    requires AllContainers(root).Ok? && EnvCandidates(AllContainers(root).value).Ok?
    ensures var cs := AllContainers(root).value; var es := EnvCandidates(cs).value;
      Spread(es) && Held(root, es) && AllBelow(root, cs, ["env"], es)
  {
    AllContainersRoute(root);
    EnvCandidatesRoute(root, AllContainers(root).value);
    EnvCandidatesBelow(root, AllContainers(root).value);
  }

  /** Position of a kind in the order `_named_pullspecs` lists them. */
  function Rank(k: Kind): nat
  {
    match k
    case RelatedImage => 0
    case Annotation(_) => 1
    case Container => 2
    case InitContainer => 3
    case RelatedImageEnv => 4
  }

  /** Concatenating lists of views, each of one kind, in increasing rank keeps them ordered by rank. */
  predicate RankOrdered(ps: seq<NamedPullspec>)
  {
    forall i, j :: 0 <= i < j < |ps| ==> Rank(ps[i].kind) <= Rank(ps[j].kind)
  }

  lemma AppendOfKind(ps: seq<NamedPullspec>, qs: seq<NamedPullspec>, kind: Kind)
    requires RankOrdered(ps)
    requires forall i :: 0 <= i < |ps| ==> Rank(ps[i].kind) <= Rank(kind)
    requires AllOfKind(qs, kind)
    ensures RankOrdered(ps + qs)
    ensures forall i :: 0 <= i < |ps + qs| ==> Rank((ps + qs)[i].kind) <= Rank(kind)
  {
  }

  lemma AppendInTree(root: Node, ps: seq<NamedPullspec>, qs: seq<NamedPullspec>)
    requires AllInTree(root, ps) && AllInTree(root, qs)
    ensures AllInTree(root, ps + qs)
  {
  }

  /** The views that do not come from deployments: related images, then the annotation. */
  function TopLevelPullspecs(root: Node): (r: Result<seq<NamedPullspec>, Error>)
    ensures r.Ok? ==> AllInTree(root, r.value) && RankOrdered(r.value)
    ensures r.Ok? ==> forall i :: 0 <= i < |r.value| ==> Rank(r.value[i].kind) <= 1
  {
    var a :- RelatedImagePullspecs(root);
    var b :- AnnotationPullspecs(root);
    TopLevelOrder(root, a, b);
    Ok(a + b)
  }

  /** Related images, then annotations, are ordered by rank, all of rank 1 or less. */
  lemma TopLevelOrder(root: Node, a: seq<NamedPullspec>, b: seq<NamedPullspec>)
    requires AllOfKind(a, RelatedImage) && AllInTree(root, a)
    requires AllOfKind(b, Annotation("containerImage")) && AllInTree(root, b)
    ensures AllInTree(root, a + b) && RankOrdered(a + b)
    ensures forall i :: 0 <= i < |a + b| ==> Rank((a + b)[i].kind) <= 1
  {
    AppendOfKind([], a, RelatedImage);
    assert [] + a == a;
    AppendOfKind(a, b, Annotation("containerImage"));
    AppendInTree(root, a, b);
  }

  /** The views that come from deployments: containers, init containers, related-image variables. */
  function DeploymentPullspecs(root: Node): (r: Result<seq<NamedPullspec>, Error>)
    ensures r.Ok? ==> AllInTree(root, r.value) && RankOrdered(r.value)
    ensures r.Ok? ==> forall i :: 0 <= i < |r.value| ==> 2 <= Rank(r.value[i].kind)
  {
    var c :- ContainerPullspecs(root, "containers", Container);
    var d :- ContainerPullspecs(root, "initContainers", InitContainer);
    var e :- EnvPullspecs(root);
    DeploymentOrder(root, c, d, e);
    Ok(c + d + e)
  }

  /** Containers, then init containers, then related-image variables are ordered by rank, all of rank 2 or more. */
  lemma DeploymentOrder(root: Node, c: seq<NamedPullspec>, d: seq<NamedPullspec>, e: seq<NamedPullspec>)
    requires AllOfKind(c, Container) && AllInTree(root, c)
    requires AllOfKind(d, InitContainer) && AllInTree(root, d)
    requires AllOfKind(e, RelatedImageEnv) && AllInTree(root, e)
    ensures AllInTree(root, c + d + e) && RankOrdered(c + d + e)
    ensures forall i :: 0 <= i < |c + d + e| ==> 2 <= Rank((c + d + e)[i].kind)
  {
    AppendOfKind([], c, Container);
    assert [] + c == c;
    AppendOfKind(c, d, InitContainer);
    AppendOfKind(c + d, e, RelatedImageEnv);
    AppendInTree(root, c, d);
    AppendInTree(root, c + d, e);
  }

  /**
   * `_named_pullspecs`: related images first, then the annotation, the
   * containers, the init containers and the related-image variables; the
   * first collector that raises stops it.
   */
  function NamedPullspecs(root: Node): (r: Result<seq<NamedPullspec>, Error>)
    ensures r.Ok? <==>
      && RelatedImagePullspecs(root).Ok? && AnnotationPullspecs(root).Ok?
      && ContainerPullspecs(root, "containers", Container).Ok? && ContainerPullspecs(root, "initContainers", InitContainer).Ok?
      && EnvPullspecs(root).Ok?
    ensures r.Ok? ==> (r.value ==
      RelatedImagePullspecs(root).value + AnnotationPullspecs(root).value
      + (ContainerPullspecs(root, "containers", Container).value + ContainerPullspecs(root, "initContainers", InitContainer).value
      + EnvPullspecs(root).value))
    ensures r.Ok? ==> AllInTree(root, r.value)
    ensures r.Ok? ==> RankOrdered(r.value)
  {
    var top :- TopLevelPullspecs(root);
    var deployed :- DeploymentPullspecs(root);
    AppendInTree(root, top, deployed);
    Ok(top + deployed)
  }

  /** The route from the root to the value a view of kind `k` looks at. */
  predicate RouteOfKind(rt: seq<Step>, k: Kind)
  {
    match k
    case RelatedImage => |rt| == 3 && rt[..2] == KeySteps(RelatedImagesPath) && rt[2].IndexStep?
    case Annotation(_) => rt == KeySteps(AnnotationsPath)
    case Container => ContainerRoute(rt, "containers")
    case InitContainer => ContainerRoute(rt, "initContainers")
    case RelatedImageEnv =>
      && |rt| == 12 && (ContainerRoute(rt[..10], "containers") || ContainerRoute(rt[..10], "initContainers"))
      && rt[10] == KeyStep("env") && rt[11].IndexStep?
  }

  /** A view looks at a value of the document, at the route its kind prescribes. */
  predicate Placed(root: Node, p: NamedPullspec)
  {
    InTree(root, p.data) && (p.data.Attached? ==> RouteOfKind(Route(root, p.data.at), p.kind))
  }

  /** Every view of `ps` is placed. */
  predicate AllPlaced(root: Node, ps: seq<NamedPullspec>)
  {
    forall i :: 0 <= i < |ps| ==> Placed(root, ps[i])
  }

  /** Views of the given kind over a list of values, all at the route of that kind. */
  lemma ViewsPlaced(root: Node, kind: Kind, xs: seq<Located>)
    requires forall i :: 0 <= i < |xs| ==> InTree(root, xs[i]) && (xs[i].Attached? ==> RouteOfKind(Route(root, xs[i].at), kind))
    ensures AllPlaced(root, Views(kind, xs))
  {
  }

  lemma PlacedAppend(root: Node, ps: seq<NamedPullspec>, qs: seq<NamedPullspec>)
    requires AllPlaced(root, ps) && AllPlaced(root, qs)
    ensures AllPlaced(root, ps + qs)
  {
  }

  /** The related-image views sit at `spec.relatedImages[i]`. */
  lemma RelatedImagesPlaced(root: Node)
    requires RelatedImagePullspecs(root).Ok?
    ensures AllPlaced(root, RelatedImagePullspecs(root).value)
  {
    var xs := ListAt(Attached(root, []), RelatedImagesPath).value;
    ListAtRoute(root, Attached(root, []), RelatedImagesPath);
    forall i | 0 <= i < |xs| ensures InTree(root, xs[i]) && (xs[i].Attached? ==> RouteOfKind(Route(root, xs[i].at), RelatedImage)) {
      if xs[i].Attached? {
        var rt := Route(root, xs[i].at);
        assert rt == KeySteps(RelatedImagesPath) + [IndexStep(i)];
        assert rt[..2] == KeySteps(RelatedImagesPath);
      }
    }
    ViewsPlaced(root, RelatedImage, xs);
  }

  /** The annotation view sits at `metadata.annotations`. */
  lemma AnnotationPlaced(root: Node)
    requires AnnotationPullspecs(root).Ok?
    ensures AllPlaced(root, AnnotationPullspecs(root).value)
  {
    var b := AnnotationPullspecs(root).value;
    var top := Attached(root, []);
    forall i | 0 <= i < |b| ensures Placed(root, b[i]) {
      var found := ChainGetAt(top, AnnotationsPath).value.value;
      ChainGetAtRoute(root, top, AnnotationsPath, found);
    }
  }

  /** The container (or init container) views sit at the routes of containers (or init containers). */
  lemma ContainersPlaced(root: Node, field: string, kind: Kind)
    requires (field == "containers" && kind == Container) || (field == "initContainers" && kind == InitContainer)
    requires ContainerPullspecs(root, field, kind).Ok?
    ensures AllPlaced(root, ContainerPullspecs(root, field, kind).value)
  {
    ContainersInRoute(root, field);
    ViewsPlaced(root, kind, ContainersIn(root, field).value);
  }

  /** An element of the `env` list of a container or init container is at the route of a related-image variable. */
  lemma EnvRouteOf(root: Node, cs: seq<Located>, x: Located)
    requires forall k :: 0 <= k < |cs| ==> AnyContainerAt(root, cs[k])
    requires x.Attached? && BelowOne(root, cs, ["env"], x)
    ensures RouteOfKind(Route(root, x.at), RelatedImageEnv)
  {
    var k :| 0 <= k < |cs| && ItemBelow(root, cs[k], ["env"], x);
    var rt := Route(root, x.at);
    assert rt[..11] == Route(root, cs[k].at) + [KeyStep("env")];
    EnvRouteFrom(rt, Route(root, cs[k].at));
  }

  lemma EnvRouteFrom(rt: seq<Step>, rc: seq<Step>)
    requires ContainerRoute(rc, "containers") || ContainerRoute(rc, "initContainers")
    requires |rt| == 12 && rt[..11] == rc + [KeyStep("env")] && rt[11].IndexStep?
    ensures RouteOfKind(rt, RelatedImageEnv)
  {
    assert rt[..10] == rt[..11][..10] && rt[10] == rt[..11][10];
  }

  /** The related-image variable views sit in the `env` lists of containers and init containers. */
  lemma EnvsPlaced(root: Node)
    requires EnvPullspecs(root).Ok?
    ensures AllPlaced(root, EnvPullspecs(root).value)
  {
    var cs := AllContainers(root).value;
    var es := EnvCandidates(cs).value;
    AllContainersRoute(root);
    EnvPullspecsPlaced(root);
    forall j | 0 <= j < |es| ensures InTree(root, es[j]) && (es[j].Attached? ==> RouteOfKind(Route(root, es[j].at), RelatedImageEnv)) {
      if es[j].Attached? {
        EnvRouteOf(root, cs, es[j]);
      }
    }
    ViewsPlaced(root, RelatedImageEnv, es);
  }

  /**
   * Where the named pullspecs sit: `spec.relatedImages[i]`,
   * `metadata.annotations`, the containers and init containers of
   * `spec.install.spec.deployments[d]`, and the `env` items of those.
   */
  lemma NamedPullspecsPlaced(root: Node)
    requires NamedPullspecs(root).Ok?
    ensures forall i :: 0 <= i < |NamedPullspecs(root).value| ==> Placed(root, NamedPullspecs(root).value[i])
  {
    var a := RelatedImagePullspecs(root).value;
    var b := AnnotationPullspecs(root).value;
    var c := ContainerPullspecs(root, "containers", Container).value;
    var d := ContainerPullspecs(root, "initContainers", InitContainer).value;
    var e := EnvPullspecs(root).value;
    RelatedImagesPlaced(root);
    AnnotationPlaced(root);
    ContainersPlaced(root, "containers", Container);
    ContainersPlaced(root, "initContainers", InitContainer);
    EnvsPlaced(root);
    PlacedAppend(root, a, b);
    PlacedAppend(root, c, d);
    PlacedAppend(root, c + d, e);
    PlacedAppend(root, a + b, c + d + e);
  }

  /** `e` is an element of the `env` list of the container (or init container) `c` looks at. */
  predicate EnvOf(root: Node, c: NamedPullspec, e: NamedPullspec)
  {
    (c.kind == Container || c.kind == InitContainer) && e.kind == RelatedImageEnv && ItemBelow(root, c.data, ["env"], e.data)
  }

  /** Two views look at values apart from each other, or one is a variable of the container the other looks at. */
  predicate Disjoint(root: Node, p: NamedPullspec, q: NamedPullspec)
  {
    p.data.Attached? && q.data.Attached? ==> Apart(p.data.at, q.data.at) || EnvOf(root, p, q) || EnvOf(root, q, p)
  }

  /** Any two of the views are disjoint. */
  predicate Separate(root: Node, ps: seq<NamedPullspec>)
  {
    forall i, j :: 0 <= i < |ps| && 0 <= j < |ps| && i != j ==> Disjoint(root, ps[i], ps[j])
  }

  lemma ViewsSeparate(root: Node, kind: Kind, xs: seq<Located>)
    requires Spread(xs)
    ensures Separate(root, Views(kind, xs))
  {
  }

  lemma SeparateAppend(root: Node, xs: seq<NamedPullspec>, ys: seq<NamedPullspec>)
    requires Separate(root, xs) && Separate(root, ys)
    requires forall i, j :: 0 <= i < |xs| && 0 <= j < |ys| ==> Disjoint(root, xs[i], ys[j]) && Disjoint(root, ys[j], xs[i])
    ensures Separate(root, xs + ys)
  {
    var zs := xs + ys;
    forall i, j | 0 <= i < |zs| && 0 <= j < |zs| && i != j
      ensures Disjoint(root, zs[i], zs[j])
    {
      if i < |xs| && j < |xs| {
        assert zs[i] == xs[i] && zs[j] == xs[j];
      } else if i < |xs| {
        assert zs[i] == xs[i] && zs[j] == ys[j - |xs|];
      } else if j < |xs| {
        assert zs[j] == xs[j] && zs[i] == ys[i - |xs|];
      } else {
        assert zs[i] == ys[i - |xs|] && zs[j] == ys[j - |xs|];
      }
    }
  }

  /** Kinds whose routes part at a fixed key: top-level against deployment views, and containers against init containers. */
  predicate Distant(k1: Kind, k2: Kind)
  {
    Rank(k1) < Rank(k2) && (Rank(k1) <= 1 || (k1 == Container && k2 == InitContainer))
  }

  lemma DistantKinds()
    ensures Distant(RelatedImage, Annotation("containerImage")) && Distant(Container, InitContainer)
  {
  }

  /** The first two steps of the route of a view from a deployment. */
  lemma DeploymentSteps(rt: seq<Step>, k: Kind)
    requires RouteOfKind(rt, k) && Rank(k) >= 2
    ensures |rt| >= 10 && rt[0] == KeyStep("spec") && rt[1] == KeyStep("install")
  {
    match k
    case Container => ContainerRouteSteps(rt, "containers");
    case InitContainer => ContainerRouteSteps(rt, "initContainers");
    case RelatedImageEnv =>
      if ContainerRoute(rt[..10], "containers") {
        ContainerRouteSteps(rt[..10], "containers");
      } else {
        ContainerRouteSteps(rt[..10], "initContainers");
      }
      assert rt[0] == rt[..10][0] && rt[1] == rt[..10][1];
  }

  /** Views of distant kinds look at values apart from each other. */
  lemma PlacedApart(root: Node, p: NamedPullspec, q: NamedPullspec)
    requires Placed(root, p) && Placed(root, q) && p.data.Attached? && q.data.Attached?
    requires Distant(p.kind, q.kind)
    ensures Apart(p.data.at, q.data.at) && Apart(q.data.at, p.data.at)
  {
    var rp := Route(root, p.data.at);
    var rq := Route(root, q.data.at);
    var t: nat;
    if p.kind.RelatedImage? {
      assert rp[0] == rp[..2][0] && rp[1] == rp[..2][1];
      if q.kind.Annotation? {
        t := 0;
      } else {
        DeploymentSteps(rq, q.kind);
        t := 1;
      }
    } else if p.kind.Annotation? {
      DeploymentSteps(rq, q.kind);
      t := 0;
    } else {
      ContainerRouteSteps(rp, "containers");
      ContainerRouteSteps(rq, "initContainers");
      t := 8;
    }
    RouteApart(root, p.data.at, q.data.at, t);
    RouteApart(root, q.data.at, p.data.at, t);
  }

  lemma CrossDistant(root: Node, xs: seq<NamedPullspec>, ys: seq<NamedPullspec>)
    requires AllPlaced(root, xs) && AllPlaced(root, ys)
    requires forall i, j :: 0 <= i < |xs| && 0 <= j < |ys| ==> Distant(xs[i].kind, ys[j].kind)
    ensures forall i, j :: 0 <= i < |xs| && 0 <= j < |ys| ==> Disjoint(root, xs[i], ys[j]) && Disjoint(root, ys[j], xs[i])
  {
    forall i, j | 0 <= i < |xs| && 0 <= j < |ys|
      ensures Disjoint(root, xs[i], ys[j]) && Disjoint(root, ys[j], xs[i])
    {
      if xs[i].data.Attached? && ys[j].data.Attached? {
        PlacedApart(root, xs[i], ys[j]);
      }
    }
  }

  /** A container view and a variable view are disjoint: the variable is the container's own, or lies apart from it. */
  lemma EnvCross(root: Node, xs: seq<NamedPullspec>, cs: seq<Located>, ys: seq<NamedPullspec>)
    requires |xs| == |cs| && Spread(cs)
    requires forall i :: 0 <= i < |xs| ==> xs[i].data == cs[i] && (xs[i].kind == Container || xs[i].kind == InitContainer)
    requires forall j :: 0 <= j < |ys| ==> ys[j].kind == RelatedImageEnv
    requires forall j :: 0 <= j < |ys| && ys[j].data.Attached? ==> BelowOne(root, cs, ["env"], ys[j].data)
    ensures forall i, j :: 0 <= i < |xs| && 0 <= j < |ys| ==> Disjoint(root, xs[i], ys[j]) && Disjoint(root, ys[j], xs[i])
  {
    forall i, j | 0 <= i < |xs| && 0 <= j < |ys|
      ensures Disjoint(root, xs[i], ys[j]) && Disjoint(root, ys[j], xs[i])
    {
      if xs[i].data.Attached? && ys[j].data.Attached? {
        var k :| 0 <= k < |cs| && ItemBelow(root, cs[k], ["env"], ys[j].data);
        if k == i {
          assert EnvOf(root, xs[i], ys[j]);
        } else {
          ApartBelow(cs[i].at, cs[k].at, cs[i].at, ys[j].data.at);
          ApartSym(cs[i].at, ys[j].data.at);
        }
      }
    }
  }

  /** Views whose kinds rank at most 1 are disjoint from views whose kinds rank 2 or more. */
  lemma TopDeploymentCross(root: Node, xs: seq<NamedPullspec>, ys: seq<NamedPullspec>)
    requires AllPlaced(root, xs) && AllPlaced(root, ys)
    requires forall i :: 0 <= i < |xs| ==> Rank(xs[i].kind) <= 1
    requires forall j :: 0 <= j < |ys| ==> 2 <= Rank(ys[j].kind)
    ensures forall i, j :: 0 <= i < |xs| && 0 <= j < |ys| ==> Disjoint(root, xs[i], ys[j]) && Disjoint(root, ys[j], xs[i])
  {
    CrossDistant(root, xs, ys);
  }

  lemma SeparateSingle(root: Node, ps: seq<NamedPullspec>)
    requires |ps| <= 1
    ensures Separate(root, ps)
  {
  }

  lemma KindsDistant(xs: seq<NamedPullspec>, k1: Kind, ys: seq<NamedPullspec>, k2: Kind)
    requires AllOfKind(xs, k1) && AllOfKind(ys, k2) && Distant(k1, k2)
    ensures forall i, j :: 0 <= i < |xs| && 0 <= j < |ys| ==> Distant(xs[i].kind, ys[j].kind)
  {
  }

  /** The related-image views are pairwise disjoint. */
  lemma RelatedImagesSeparate(root: Node)
    requires RelatedImagePullspecs(root).Ok?
    ensures Separate(root, RelatedImagePullspecs(root).value)
  {
    var top := Attached(root, []);
    ListAtSpread(root, top, RelatedImagesPath);
    ViewsSeparate(root, RelatedImage, ListAt(top, RelatedImagesPath).value);
  }

  /** Disjoint views, placed, of two distant kinds, stay disjoint together. */
  lemma DistantSeparate(root: Node, xs: seq<NamedPullspec>, k1: Kind, ys: seq<NamedPullspec>, k2: Kind)
    requires Separate(root, xs) && Separate(root, ys)
    requires AllPlaced(root, xs) && AllPlaced(root, ys)
    requires AllOfKind(xs, k1) && AllOfKind(ys, k2) && Distant(k1, k2)
    ensures Separate(root, xs + ys)
  {
    KindsDistant(xs, k1, ys, k2);
    CrossDistant(root, xs, ys);
    SeparateAppend(root, xs, ys);
  }

  /** The related-image views and the annotation view are pairwise disjoint. */
  lemma TopSeparate(root: Node)
    requires RelatedImagePullspecs(root).Ok? && AnnotationPullspecs(root).Ok?
    ensures Separate(root, RelatedImagePullspecs(root).value + AnnotationPullspecs(root).value)
  {
    var a := RelatedImagePullspecs(root).value;
    var b := AnnotationPullspecs(root).value;
    RelatedImagesSeparate(root);
    SeparateSingle(root, b);
    RelatedImagesPlaced(root);
    AnnotationPlaced(root);
    DistantKinds();
    DistantSeparate(root, a, RelatedImage, b, Annotation("containerImage"));
  }

  /** The container views and the init container views are pairwise disjoint. */
  lemma ContainersSeparate(root: Node)
    requires ContainerPullspecs(root, "containers", Container).Ok? && ContainerPullspecs(root, "initContainers", InitContainer).Ok?
    ensures Separate(root, ContainerPullspecs(root, "containers", Container).value + ContainerPullspecs(root, "initContainers", InitContainer).value)
  {
    var c := ContainerPullspecs(root, "containers", Container).value;
    var d := ContainerPullspecs(root, "initContainers", InitContainer).value;
    ContainersInRoute(root, "containers");
    ContainersInRoute(root, "initContainers");
    ViewsSeparate(root, Container, ContainersIn(root, "containers").value);
    ViewsSeparate(root, InitContainer, ContainersIn(root, "initContainers").value);
    ContainersPlaced(root, "containers", Container);
    ContainersPlaced(root, "initContainers", InitContainer);
    DistantKinds();
    DistantSeparate(root, c, Container, d, InitContainer);
  }

  /** The container and init container views look at the containers and init containers, in order. */
  lemma ContainerViewsData(root: Node)
    requires ContainerPullspecs(root, "containers", Container).Ok? && ContainerPullspecs(root, "initContainers", InitContainer).Ok?
    ensures AllContainers(root).Ok?
    ensures var cd := ContainerPullspecs(root, "containers", Container).value + ContainerPullspecs(root, "initContainers", InitContainer).value;
      && |cd| == |AllContainers(root).value|
      && forall i :: 0 <= i < |cd| ==> cd[i].data == AllContainers(root).value[i] && (cd[i].kind == Container || cd[i].kind == InitContainer)
  {
    var cs := ContainersIn(root, "containers").value;
    var ics := ContainersIn(root, "initContainers").value;
    var c := Views(Container, cs);
    var d := Views(InitContainer, ics);
    var cd: seq<NamedPullspec> := c + d;
    var xs: seq<Located> := cs + ics;
    forall i | 0 <= i < |cd| ensures cd[i].data == xs[i] && (cd[i].kind == Container || cd[i].kind == InitContainer) {
      if i < |c| {
        assert cd[i] == c[i] && xs[i] == cs[i];
      } else {
        assert cd[i] == d[i - |c|] && xs[i] == ics[i - |c|];
      }
    }
  }

  /** The views that come from deployments are pairwise disjoint. */
  lemma DeploymentSeparate(root: Node)
    requires ContainerPullspecs(root, "containers", Container).Ok? && ContainerPullspecs(root, "initContainers", InitContainer).Ok?
    requires EnvPullspecs(root).Ok?
    ensures Separate(root, ContainerPullspecs(root, "containers", Container).value
      + ContainerPullspecs(root, "initContainers", InitContainer).value + EnvPullspecs(root).value)
  {
    var c := ContainerPullspecs(root, "containers", Container).value;
    var d := ContainerPullspecs(root, "initContainers", InitContainer).value;
    var e := EnvPullspecs(root).value;
    ContainersSeparate(root);
    ContainerViewsData(root);
    var cs := AllContainers(root).value;
    AllContainersRoute(root);
    EnvPullspecsPlaced(root);
    ViewsSeparate(root, RelatedImageEnv, EnvCandidates(cs).value);
    EnvCross(root, c + d, cs, e);
    SeparateAppend(root, c + d, e);
  }

  /**
   * No two named pullspecs look at the same value, or one inside the other,
   * except a container and one of its own related-image variables.
   */
  lemma NamedPullspecsSeparate(root: Node)
    requires NamedPullspecs(root).Ok?
    ensures Separate(root, NamedPullspecs(root).value)
  {
    var a := RelatedImagePullspecs(root).value;
    var b := AnnotationPullspecs(root).value;
    var c := ContainerPullspecs(root, "containers", Container).value;
    var d := ContainerPullspecs(root, "initContainers", InitContainer).value;
    var e := EnvPullspecs(root).value;
    TopSeparate(root);
    DeploymentSeparate(root);
    RelatedImagesPlaced(root);
    AnnotationPlaced(root);
    ContainersPlaced(root, "containers", Container);
    ContainersPlaced(root, "initContainers", InitContainer);
    EnvsPlaced(root);
    PlacedAppend(root, a, b);
    PlacedAppend(root, c, d);
    PlacedAppend(root, c + d, e);
    TopLevelOrder(root, a, b);
    DeploymentOrder(root, c, d, e);
    TopDeploymentCross(root, a + b, c + d + e);
    SeparateAppend(root, a + b, c + d + e);
  }

  /** Python's truth of an iterable value: it has at least one element. */
  function NonEmpty(n: Node): (r: bool)
    requires !n.Other?
    ensures r <==> (n.Map? && n.entries != []) || (n.Seq? && n.items != []) || (n.Str? && n.s != [])
  {
    match n
    case Map(es) => |es| > 0
    case Seq(xs) => |xs| > 0
    case Str(t) => |t| > 0
  }

  /**
   * `has_related_images`: the truth of `chain_get(data, ("spec",
   * "relatedImages"), default=[])`; a value that cannot be iterated raises.
   */
  function HasRelatedImages(root: Node): (r: Result<bool, Error>)
    ensures var v := ChainGet(root, Keys(RelatedImagesPath), Seq([]));
      && (r.Ok? <==> v.Ok? && !v.value.Other?)
      && (r.Ok? ==> r.value == NonEmpty(v.value))
    ensures r.Err? ==> r.error == TypeError
  {
    RelatedImagePullspecsValues(root);
    var ps :- RelatedImagePullspecs(root);
    Ok(|ps| > 0)
  }

  /** Some container has a related-image variable exactly when the flattened groups are not empty. */
  lemma EnvGroupsNonEmpty(cs: seq<Located>)
    ensures |Flatten(EnvGroups(cs))| > 0 <==>
      exists k, i :: 0 <= k < |cs| && 0 <= i < |EnvItems(cs[k])| && IsRelatedImageEnv(EnvItems(cs[k])[i])
  {
    var gs := EnvGroups(cs);
    FlattenEmpty(gs);
    forall k | 0 <= k < |cs|
      ensures gs[k] != [] <==> exists i :: 0 <= i < |EnvItems(cs[k])| && IsRelatedImageEnv(EnvItems(cs[k])[i])
    {
      var items := EnvItems(cs[k]);
      if gs[k] != [] {
        assert gs[k][0] in gs[k];
        var i :| 0 <= i < |items| && items[i] == gs[k][0];
      } else {
        forall i | 0 <= i < |items| ensures !IsRelatedImageEnv(items[i]) {
          assert items[i] in items && items[i] !in gs[k];
        }
      }
    }
  }

  /**
   * `has_related_image_envs`: some container or init container has a variable
   * whose name starts with `RELATED_IMAGE_` (when collecting them raises
   * nothing).
   */
  function HasRelatedImageEnvs(root: Node): (r: Result<bool, Error>)
    ensures r.Ok? <==> EnvPullspecs(root).Ok?
    ensures r.Err? ==> r.error == EnvPullspecs(root).error
    ensures r.Ok? ==> AllContainers(root).Ok? && (r.value <==>
      exists k, i :: 0 <= k < |AllContainers(root).value| && 0 <= i < |EnvItems(AllContainers(root).value[k])|
        && IsRelatedImageEnv(EnvItems(AllContainers(root).value[k])[i]))
  {
    var ps :- EnvPullspecs(root);
    EnvGroupsNonEmpty(AllContainers(root).value);
    Ok(|ps| > 0)
  }

  /** A CSV that has `RELATED_IMAGE_*` variables has one in its document, named so and without `valueFrom`. */
  lemma HasRelatedImageEnvsWitness(root: Node)
    requires HasRelatedImageEnvs(root) == Ok(true)
    ensures exists e :: InTree(root, e) && IsRelatedImageEnv(e) && Contains(Value(e), "valueFrom") == Ok(false)
  {
    var p := EnvPullspecs(root).value[0];
    assert InTree(root, p.data) && IsRelatedImageEnv(p.data) && Contains(Value(p.data), "valueFrom") == Ok(false);
  }
}

=== FILE: related_images.dfy ===
/**
 * `set_related_images` (operator_manifest/operator.py): every named pullspec
 * is recorded under its name, the first one seen for a name wins, a later
 * one with the same name and another image is a conflict; without
 * conflicts `spec.relatedImages` is replaced by one `{name, image}` record
 * per name, in the order the names were first seen.
 */
module RelatedImages {
  import opened Wrappers
  import opened Text
  import opened Document
  import opened Pullspecs

  /** What the loop of `set_related_images` reads from one view: its name, image and description. */
  datatype Fact = Fact(name: Node, image: Node, description: string)

  /** The description of a view can be formatted whenever its name can. */
  lemma DescriptionOfNamed(p: NamedPullspec)
    requires Name(p).Ok?
    ensures Description(p).Ok?
  {
  }

  /**
   * One view as the loop reads it: `new.name`, which must be hashable to be
   * a key (a mapping or a list is not), then `new.image`. The description
   * is only formatted for a conflict and cannot fail once the name did not.
   * A view reads as a fact exactly when its name is readable and hashable
   * and its image readable; the fact holds both.
   */
  function FactOf(p: NamedPullspec): (r: Result<Fact, Error>)
    ensures r.Ok? <==> Name(p).Ok? && !Name(p).value.Map? && !Name(p).value.Seq? && Image(p).Ok?
    ensures r.Ok? ==> r.value.name == Name(p).value && r.value.image == Value(Image(p).value)
    ensures Name(p).Ok? && (Name(p).value.Map? || Name(p).value.Seq?) ==> r == Err(TypeError)
  {
    var name :- Name(p);
    if name.Map? || name.Seq? then Err(TypeError)
    else
      var image :- Image(p);
      DescriptionOfNamed(p);
      Ok(Fact(name, Value(image), Description(p).value))
  }

  /** What each view reads as, in order. */
  function Reads(ps: seq<NamedPullspec>): (r: seq<Result<Fact, Error>>)
    ensures |r| == |ps|
  {
    seq(|ps|, i requires 0 <= i < |ps| => FactOf(ps[i]))
  }

  /** The facts of the views in order; the first view that cannot be read stops the loop. */
  function Facts(ps: seq<NamedPullspec>): (r: Result<seq<Fact>, Error>)
  {
    Collect(Reads(ps))
  }

  /** Fact `i` is what view `i` reads as. */
  lemma FactsAt(ps: seq<NamedPullspec>, i: nat)
    requires Facts(ps).Ok? && i < |ps|
    ensures FactOf(ps[i]) == Ok(Facts(ps).value[i])
  {
    CollectAt(Reads(ps), i);
  }

  /** Index in `byName` of the entry with the given name. */
  function IndexOfName(byName: seq<Fact>, name: Node): (r: Option<nat>)
    ensures r.None? <==> forall j :: 0 <= j < |byName| ==> byName[j].name != name
    ensures r.Some? ==> r.value < |byName| && byName[r.value].name == name
  {
    if byName == [] then None
    else if byName[|byName| - 1].name == name then Some(|byName| - 1)
    else IndexOfName(byName[..|byName| - 1], name)
  }

  /** `{old.description}: {old.image} X {new.description}: {new.image}` */
  function ConflictMessage(first: Fact, later: Fact): string
  {
    first.description + ": " + Show(first.image) + " X " + later.description + ": " + Show(later.image)
  }

  /** A conflict message starts with the first view's description and ends with the later view's description and image. */
  lemma ConflictMessageShape(first: Fact, later: Fact)
    ensures StartsWith(ConflictMessage(first, later), first.description + ": ")
    ensures Suffix(later.description + ": " + Show(later.image), ConflictMessage(first, later))
  {
    var a, b, c := first.description + ": ", Show(first.image), " X ";
    var tail := later.description + ": " + Show(later.image);
    Regroup(a, b, c, later.description + ": ", Show(later.image));
    PrefixOf(a, b + c + tail);
    SuffixOf(a + b + c, tail);
  }

  /** The two groupings of a five-part concatenation that `ConflictMessageShape` needs. */
  lemma Regroup(a: string, b: string, c: string, d: string, e: string)
    ensures a + b + c + d + e == a + (b + c + (d + e))
    ensures a + b + c + d + e == (a + b + c) + (d + e)
  {
  }

  /**
   * The state of the loop after the given facts: the first fact for each
   * name (`by_name`) and the conflict messages, each naming the first fact
   * for the name and the later one that disagrees with it.
   */
  function Scan(facts: seq<Fact>): (r: (seq<Fact>, seq<string>))
    decreases |facts|
  {
    if facts == [] then ([], [])
    else
      var (byName, conflicts) := Scan(facts[..|facts| - 1]);
      var latest := facts[|facts| - 1];
      match IndexOfName(byName, latest.name)
      case None => (byName + [latest], conflicts)
      case Some(j) =>
        (byName, conflicts + (if latest.image != byName[j].image then [ConflictMessage(byName[j], latest)] else []))
  }

  /** Each fact adds at most one entry or one conflict; `by_name` is empty only when there are no facts. */
  lemma {:induction false} ScanSizes(facts: seq<Fact>)
    ensures |Scan(facts).0| + |Scan(facts).1| <= |facts|
    ensures Scan(facts).0 == [] <==> facts == []
    decreases |facts|
  {
    if facts != [] {
      ScanSizes(facts[..|facts| - 1]);
      ScanLast(facts);
    }
  }

  /** The last turn of the loop: a name not seen yet is recorded, a seen one may add a conflict. */
  lemma ScanLast(facts: seq<Fact>)
    requires facts != []
    ensures var (byName, conflicts) := Scan(facts[..|facts| - 1]);
      var latest := facts[|facts| - 1];
      && (IndexOfName(byName, latest.name).None? ==> Scan(facts) == (byName + [latest], conflicts))
      && (IndexOfName(byName, latest.name).Some? ==>
            var first := byName[IndexOfName(byName, latest.name).value];
            Scan(facts) == (byName, conflicts + if latest.image != first.image then [ConflictMessage(first, latest)] else []))
  {
  }

  /** The first fact for `name`, at index `i`. */
  predicate FirstOfName(facts: seq<Fact>, i: nat)
    requires i < |facts|
  {
    forall i' :: 0 <= i' < i ==> facts[i'].name != facts[i].name
  }

  /** Every name seen has an entry in `by_name`. */
  lemma {:induction false} ScanCovers(facts: seq<Fact>)
    ensures forall i :: 0 <= i < |facts| ==> IndexOfName(Scan(facts).0, facts[i].name).Some?
  {
    forall i | 0 <= i < |facts|
      ensures IndexOfName(Scan(facts).0, facts[i].name).Some?
    {
      ScanCoversOne(facts, i);
    }
  }

  /** Looking a name up after a fact was appended to `by_name`. */
  lemma IndexOfNameAppend(byName: seq<Fact>, f: Fact, name: Node)
    ensures IndexOfName(byName + [f], name) == if f.name == name then Some(|byName|) else IndexOfName(byName, name)
  {
    assert (byName + [f])[..|byName|] == byName;
  }

  /** The name of fact `i` has an entry in `by_name`. */
  lemma {:induction false} ScanCoversOne(facts: seq<Fact>, i: nat)
    requires i < |facts|
    ensures IndexOfName(Scan(facts).0, facts[i].name).Some?
    decreases |facts|
  {
    var prev := facts[..|facts| - 1];
    var latest := facts[|facts| - 1];
    ScanLast(facts);
    var byName := Scan(prev).0;
    var name := facts[i].name;
    if i < |prev| {
      assert prev[i] == facts[i];
      ScanCoversOne(prev, i);
    }
    if IndexOfName(byName, latest.name).None? {
      IndexOfNameAppend(byName, latest, name);
    }
  }

  /** No two entries of `by_name` have the same name. */
  lemma {:induction false} ScanDistinct(facts: seq<Fact>)
    ensures var byName := Scan(facts).0;
      forall j, j' :: 0 <= j < j' < |byName| ==> byName[j].name != byName[j'].name
    decreases |facts|
  {
    if facts != [] {
      ScanDistinct(facts[..|facts| - 1]);
      ScanLast(facts);
    }
  }

  /** Being first for its name is kept when a fact is appended. */
  lemma FirstOfNameExtend(facts: seq<Fact>, i: nat)
    requires facts != [] && i < |facts| - 1 && FirstOfName(facts[..|facts| - 1], i)
    ensures FirstOfName(facts, i)
  {
    var prev := facts[..|facts| - 1];
    forall i' | 0 <= i' < i ensures facts[i'].name != facts[i].name {
      assert facts[i'] == prev[i'] && facts[i] == prev[i];
    }
  }

  /** A fact whose name has no entry yet is the first with its name. */
  lemma FirstOfNameLast(facts: seq<Fact>)
    requires facts != []
    requires IndexOfName(Scan(facts[..|facts| - 1]).0, facts[|facts| - 1].name).None?
    ensures FirstOfName(facts, |facts| - 1)
  {
    var prev := facts[..|facts| - 1];
    ScanCovers(prev);
    forall i' | 0 <= i' < |facts| - 1
      ensures facts[i'].name != facts[|facts| - 1].name
    {
      assert facts[i'] == prev[i'];
      assert IndexOfName(Scan(prev).0, prev[i'].name).Some?;
    }
  }

  /** Each entry of `by_name` is the first fact with its name. */
  lemma {:induction false} ScanFirst(facts: seq<Fact>)
    ensures var byName := Scan(facts).0;
      forall j :: 0 <= j < |byName| ==> exists i :: 0 <= i < |facts| && facts[i] == byName[j] && FirstOfName(facts, i)
    decreases |facts|
  {
    if facts != [] {
      var prev := facts[..|facts| - 1];
      ScanFirst(prev);
      ScanLast(facts);
      var byName := Scan(prev).0;
      var b := Scan(facts).0;
      forall j | 0 <= j < |b|
        ensures exists i :: 0 <= i < |facts| && facts[i] == b[j] && FirstOfName(facts, i)
      {
        if j < |byName| {
          var i :| 0 <= i < |prev| && prev[i] == byName[j] && FirstOfName(prev, i);
          FirstOfNameExtend(facts, i);
          assert facts[i] == b[j];
        } else {
          FirstOfNameLast(facts);
          assert facts[|facts| - 1] == b[j];
        }
      }
    }
  }

  /** The index of the first fact with the given name. */
  function FirstIndexOfName(facts: seq<Fact>, name: Node): (r: Option<nat>)
    ensures r.None? <==> forall i :: 0 <= i < |facts| ==> facts[i].name != name
    ensures r.Some? ==> r.value < |facts| && facts[r.value].name == name && FirstOfName(facts, r.value)
    decreases |facts|
  {
    if facts == [] then None
    else
      var prev := facts[..|facts| - 1];
      match FirstIndexOfName(prev, name)
      case Some(i) =>
        assert forall i' :: 0 <= i' < |prev| ==> facts[i'] == prev[i'];
        Some(i)
      case None =>
        assert forall i' :: 0 <= i' < |prev| ==> facts[i'] == prev[i'];
        if facts[|facts| - 1].name == name then Some(|facts| - 1) else None
  }

  /** Looking up the first fact of a name already seen is not changed by a later fact. */
  lemma FirstIndexOfNameExtend(facts: seq<Fact>, name: Node)
    requires facts != [] && FirstIndexOfName(facts[..|facts| - 1], name).Some?
    ensures FirstIndexOfName(facts, name) == FirstIndexOfName(facts[..|facts| - 1], name)
  {
  }

  /**
   * `by_name` holds an entry for a name exactly when some fact has that name,
   * and the entry is the first fact with the name.
   */
  lemma {:induction false} ScanLookup(facts: seq<Fact>, name: Node)
    ensures IndexOfName(Scan(facts).0, name).Some? <==> FirstIndexOfName(facts, name).Some?
    ensures IndexOfName(Scan(facts).0, name).Some? ==>
      Scan(facts).0[IndexOfName(Scan(facts).0, name).value] == facts[FirstIndexOfName(facts, name).value]
    decreases |facts|
  {
    if facts != [] {
      var prev := facts[..|facts| - 1];
      var latest := facts[|facts| - 1];
      ScanLookup(prev, name);
      ScanLookup(prev, latest.name);
      ScanLast(facts);
      var byName := Scan(prev).0;
      if FirstIndexOfName(prev, name).Some? {
        assert facts[FirstIndexOfName(prev, name).value] == prev[FirstIndexOfName(prev, name).value];
      }
      if IndexOfName(byName, latest.name).None? {
        IndexOfNameAppend(byName, latest, name);
        if latest.name != name {
          assert (byName + [latest])[..|byName|] == byName;
        }
      }
    }
  }

  /**
   * Entry `j` of `by_name` is the first fact with its name, and the entries
   * come in the order in which their names were first seen.
   */
  lemma ScanOrder(facts: seq<Fact>)
    ensures var byName := Scan(facts).0;
      && (forall j :: 0 <= j < |byName| ==>
            FirstIndexOfName(facts, byName[j].name).Some? && byName[j] == facts[FirstIndexOfName(facts, byName[j].name).value])
      && (forall j, j' :: 0 <= j < j' < |byName| ==>
            FirstIndexOfName(facts, byName[j].name).value < FirstIndexOfName(facts, byName[j'].name).value)
  {
    var byName := Scan(facts).0;
    ScanDistinct(facts);
    forall j | 0 <= j < |byName|
      ensures FirstIndexOfName(facts, byName[j].name).Some? && byName[j] == facts[FirstIndexOfName(facts, byName[j].name).value]
    {
      ScanLookup(facts, byName[j].name);
    }
    ScanIncreasing(facts);
  }

  /** The first-seen indices of the entries of `by_name` increase. */
  lemma {:induction false} ScanIncreasing(facts: seq<Fact>)
    ensures var byName := Scan(facts).0;
      && (forall j :: 0 <= j < |byName| ==> FirstIndexOfName(facts, byName[j].name).Some?)
      && (forall j, j' :: 0 <= j < j' < |byName| ==>
            FirstIndexOfName(facts, byName[j].name).value < FirstIndexOfName(facts, byName[j'].name).value)
    decreases |facts|
  {
    if facts != [] {
      var prev := facts[..|facts| - 1];
      var latest := facts[|facts| - 1];
      ScanIncreasing(prev);
      ScanLast(facts);
      var byName := Scan(prev).0;
      var b := Scan(facts).0;
      forall j | 0 <= j < |byName|
        ensures FirstIndexOfName(facts, byName[j].name) == FirstIndexOfName(prev, byName[j].name)
        ensures FirstIndexOfName(facts, byName[j].name).value < |prev|
      {
        FirstIndexOfNameExtend(facts, byName[j].name);
      }
      if IndexOfName(byName, latest.name).None? {
        ScanLookup(prev, latest.name);
        assert b == byName + [latest];
        IncreasingAppend(facts, byName, latest);
      } else {
        assert b == byName;
      }
    }
  }

  /** Appending the last fact, first seen at the last index, keeps every name found. */
  lemma FoundAppend(facts: seq<Fact>, byName: seq<Fact>, latest: Fact)
    requires FirstIndexOfName(facts, latest.name).Some?
    requires forall j :: 0 <= j < |byName| ==> FirstIndexOfName(facts, byName[j].name).Some?
    ensures forall j :: 0 <= j < |byName + [latest]| ==> FirstIndexOfName(facts, (byName + [latest])[j].name).Some?
  {
    var b := byName + [latest];
    forall j | 0 <= j < |b|
      ensures FirstIndexOfName(facts, b[j].name).Some?
    {
      if j < |byName| {
        assert b[j] == byName[j];
      }
    }
  }

  /** Appending the last fact, first seen at the last index, keeps the first-seen indices increasing. */
  lemma IncreasingAppend(facts: seq<Fact>, byName: seq<Fact>, latest: Fact)
    requires facts != [] && latest == facts[|facts| - 1]
    requires FirstIndexOfName(facts, latest.name) == Some(|facts| - 1)
    requires forall j :: 0 <= j < |byName| ==>
      FirstIndexOfName(facts, byName[j].name).Some? && FirstIndexOfName(facts, byName[j].name).value < |facts| - 1
    requires forall j, j' :: 0 <= j < j' < |byName| ==>
      FirstIndexOfName(facts, byName[j].name).value < FirstIndexOfName(facts, byName[j'].name).value
    ensures var b := byName + [latest];
      && (forall j :: 0 <= j < |b| ==> FirstIndexOfName(facts, b[j].name).Some?)
      && (forall j, j' :: 0 <= j < j' < |b| ==>
            FirstIndexOfName(facts, b[j].name).value < FirstIndexOfName(facts, b[j'].name).value)
  {
    FoundAppend(facts, byName, latest);
    var b := byName + [latest];
    forall j, j' | 0 <= j < j' < |b|
      ensures FirstIndexOfName(facts, b[j].name).value < FirstIndexOfName(facts, b[j'].name).value
    {
      assert b[j] == byName[j];
      if j' < |byName| {
        assert b[j'] == byName[j'];
      } else {
        assert b[j'] == latest;
      }
    }
  }

  /**
   * The conflict raised by fact `i`: a message naming the first fact with
   * its name and fact `i`, when their images differ.
   */
  function ConflictAt(facts: seq<Fact>, i: nat): (r: seq<string>)
    requires i < |facts|
    ensures |r| <= 1
    ensures r != [] <==> facts[FirstIndexOfName(facts, facts[i].name).value].image != facts[i].image
    ensures r != [] ==>
      && StartsWith(r[0], facts[FirstIndexOfName(facts, facts[i].name).value].description + ": ")
      && Suffix(facts[i].description + ": " + Show(facts[i].image), r[0])
  {
    var first := facts[FirstIndexOfName(facts, facts[i].name).value];
    ConflictMessageShape(first, facts[i]);
    if first.image != facts[i].image then [ConflictMessage(first, facts[i])] else []
  }

  /** The conflict raised by each fact, in order. */
  function ConflictsOf(facts: seq<Fact>): (r: seq<seq<string>>)
    ensures |r| == |facts|
  {
    seq(|facts|, i requires 0 <= i < |facts| => ConflictAt(facts, i))
  }

  /** What an earlier fact raises does not depend on later facts. */
  lemma ConflictsOfExtend(facts: seq<Fact>)
    requires facts != []
    ensures ConflictsOf(facts) == ConflictsOf(facts[..|facts| - 1]) + [ConflictAt(facts, |facts| - 1)]
  {
    var prev := facts[..|facts| - 1];
    forall i | 0 <= i < |prev|
      ensures ConflictAt(facts, i) == ConflictAt(prev, i)
    {
      assert facts[i] == prev[i];
      FirstIndexOfNameExtend(facts, prev[i].name);
      assert facts[FirstIndexOfName(prev, prev[i].name).value] == prev[FirstIndexOfName(prev, prev[i].name).value];
    }
  }

  /**
   * The conflict messages of the loop are exactly one message per fact whose
   * image differs from the first fact with its name, in the order of the facts.
   */
  lemma {:induction false} ScanConflicts(facts: seq<Fact>)
    ensures Scan(facts).1 == Flatten(ConflictsOf(facts))
    decreases |facts|
  {
    if facts == [] {
      assert ConflictsOf(facts) == [];
    } else {
      var prev := facts[..|facts| - 1];
      var latest := facts[|facts| - 1];
      ScanConflicts(prev);
      ScanLast(facts);
      ConflictsOfExtend(facts);
      FlattenSnoc(ConflictsOf(prev), ConflictAt(facts, |facts| - 1));
      ScanLookup(prev, latest.name);
      var byName := Scan(prev).0;
      if IndexOfName(byName, latest.name).Some? {
        FirstIndexOfNameExtend(facts, latest.name);
        assert facts[FirstIndexOfName(prev, latest.name).value] == prev[FirstIndexOfName(prev, latest.name).value];
      } else {
        assert FirstIndexOfName(facts, latest.name) == Some(|facts| - 1);
      }
    }
  }

  /** All facts with the same name carry the same image. */
  predicate Consistent(facts: seq<Fact>)
  {
    forall i, i' :: 0 <= i < |facts| && 0 <= i' < |facts| && facts[i].name == facts[i'].name ==> facts[i].image == facts[i'].image
  }

  /** A prefix of consistent facts, extended by one that agrees with every earlier fact of its name, is consistent. */
  lemma ConsistentExtend(prev: seq<Fact>, latest: Fact)
    requires Consistent(prev)
    requires forall i :: 0 <= i < |prev| && prev[i].name == latest.name ==> prev[i].image == latest.image
    ensures Consistent(prev + [latest])
  {
    var facts := prev + [latest];
    forall a, b | 0 <= a < |facts| && 0 <= b < |facts| && facts[a].name == facts[b].name
      ensures facts[a].image == facts[b].image
    {
      if a < |prev| {
        assert facts[a] == prev[a];
      }
      if b < |prev| {
        assert facts[b] == prev[b];
      }
    }
  }

  lemma ConsistentPrefix(prev: seq<Fact>, latest: Fact)
    requires Consistent(prev + [latest])
    ensures Consistent(prev)
    ensures forall i :: 0 <= i < |prev| && prev[i].name == latest.name ==> prev[i].image == latest.image
  {
    var facts := prev + [latest];
    forall a, b | 0 <= a < |prev| && 0 <= b < |prev| && prev[a].name == prev[b].name
      ensures prev[a].image == prev[b].image
    {
      assert facts[a] == prev[a] && facts[b] == prev[b];
    }
    forall i | 0 <= i < |prev| && prev[i].name == latest.name
      ensures prev[i].image == latest.image
    {
      assert facts[i] == prev[i] && facts[|prev|] == latest;
    }
  }

  /** Consistent facts raise no conflict. */
  lemma {:induction false} ConsistentNoConflicts(facts: seq<Fact>)
    requires Consistent(facts)
    ensures Scan(facts).1 == []
    decreases |facts|
  {
    if facts != [] {
      var prev := facts[..|facts| - 1];
      var latest := facts[|facts| - 1];
      assert facts == prev + [latest];
      ConsistentPrefix(prev, latest);
      ConsistentNoConflicts(prev);
      ScanLast(facts);
      var byName := Scan(prev).0;
      match IndexOfName(byName, latest.name)
      case None =>
      case Some(j) =>
        ScanFirst(prev);
        var i :| 0 <= i < |prev| && prev[i] == byName[j] && FirstOfName(prev, i);
    }
  }

  /** Facts that raise no conflict are consistent. */
  lemma {:induction false} NoConflictsConsistent(facts: seq<Fact>)
    requires Scan(facts).1 == []
    ensures Consistent(facts)
    decreases |facts|
  {
    if facts != [] {
      var prev := facts[..|facts| - 1];
      var latest := facts[|facts| - 1];
      assert facts == prev + [latest];
      ScanLast(facts);
      var byName := Scan(prev).0;
      NoConflictsConsistent(prev);
      match IndexOfName(byName, latest.name)
      case None =>
        FirstOfNameLast(facts);
        forall i | 0 <= i < |prev|
          ensures prev[i].name != latest.name
        {
          assert facts[i] == prev[i];
        }
        ConsistentExtend(prev, latest);
      case Some(j) =>
        ScanFirst(prev);
        var i :| 0 <= i < |prev| && prev[i] == byName[j] && FirstOfName(prev, i);
        ConsistentExtend(prev, latest);
    }
  }

  /** There is no conflict exactly when every name is given a single image. */
  lemma NoConflictsIffConsistent(facts: seq<Fact>)
    ensures Scan(facts).1 == [] <==> Consistent(facts)
  {
    if Consistent(facts) {
      ConsistentNoConflicts(facts);
    }
    if Scan(facts).1 == [] {
      NoConflictsConsistent(facts);
    }
  }

  /** `CommentedMap([("name", p.name), ("image", p.image)])` */
  function Record(name: Node, image: Node): Node
  {
    Map([("name", name), ("image", image)])
  }

  function Records(byName: seq<Fact>): (r: seq<Node>)
    ensures |r| == |byName| && forall j :: 0 <= j < |byName| ==> r[j] == Record(byName[j].name, byName[j].image)
  {
    seq(|byName|, j requires 0 <= j < |byName| => Record(byName[j].name, byName[j].image))
  }

  /** The entries of a mapping with the value of entry `i` replaced. */
  function SetEntry(es: seq<(string, Node)>, i: nat, v: Node): (r: seq<(string, Node)>)
    requires i < |es|
    ensures |r| == |es| && r[i] == (es[i].0, v)
    ensures forall j :: 0 <= j < |es| && j != i ==> r[j] == es[j]
    ensures forall j :: 0 <= j < |es| ==> r[j].0 == es[j].0
  {
    es[..i] + [(es[i].0, v)] + es[i + 1..]
  }

  /**
   * `data.setdefault("spec", {}).setdefault("relatedImages", [])`, emptied
   * and filled with the records: a `spec` that is not a mapping has no
   * `setdefault`, and a `relatedImages` that is not a list cannot have its
   * items deleted.
   */
  function WithRelatedImages(data: Node, records: seq<Node>): (r: Result<Node, Error>)
    requires data.Map?
    ensures r.Ok? ==> r.value.Map? && |r.value.entries| >= |data.entries|
  {
    var related := Seq(records);
    match KeyIndex(data.entries, "spec")
    case None => Ok(Map(data.entries + [("spec", Map([("relatedImages", related)]))]))
    case Some(i) =>
      var spec := data.entries[i].1;
      if !spec.Map? then Err(AttributeError)
      else match KeyIndex(spec.entries, "relatedImages")
        case None => Ok(Map(SetEntry(data.entries, i, Map(spec.entries + [("relatedImages", related)]))))
        case Some(j) =>
          if !spec.entries[j].1.Seq? then Err(TypeError)
          else Ok(Map(SetEntry(data.entries, i, Map(SetEntry(spec.entries, j, related)))))
  }

  /**
   * The write fails exactly when `spec` is there but is not a mapping
   * (AttributeError), or `spec.relatedImages` is there but is not a list
   * (TypeError).
   */
  lemma WithRelatedImagesFails(data: Node, records: seq<Node>)
    requires data.Map?
    ensures var r := WithRelatedImages(data, records);
      && (r.Err? <==>
            match Subscript(data, Key("spec"))
            case Found(spec) => !spec.Map? || (match Subscript(spec, Key("relatedImages")) case Found(related) => !related.Seq? case _ => false)
            case _ => false)
      && (r.Err? ==> Subscript(data, Key("spec")).Found? && r.error == (if Subscript(data, Key("spec")).value.Map? then TypeError else AttributeError))
  {
  }

  /** Looking a key up after the value of an entry was replaced. */
  lemma SubscriptSetEntry(es: seq<(string, Node)>, i: nat, v: Node, k: string)
    requires i < |es|
    ensures Subscript(Map(SetEntry(es, i, v)), Key(k)) == if KeyIndex(es, k) == Some(i) then Found(v) else Subscript(Map(es), Key(k))
  {
    var r := SetEntry(es, i, v);
    match KeyIndex(es, k)
    case None =>
      assert KeyIndex(r, k).None?;
    case Some(x) =>
      assert r[x].0 == k;
      assert forall y :: 0 <= y < x ==> r[y].0 != k by {
        forall y | 0 <= y < x ensures r[y].0 != k {
          assert r[y].0 == es[y].0;
        }
      }
      assert KeyIndex(r, k) == Some(x);
  }

  /** The index of a key after an entry was appended. */
  lemma KeyIndexAppend(es: seq<(string, Node)>, e: (string, Node), k: string)
    ensures KeyIndex(es + [e], k) ==
      if KeyIndex(es, k).Some? then KeyIndex(es, k) else if e.0 == k then Some(|es|) else None
  {
    var r := es + [e];
    assert r[|es|] == e;
    assert forall i :: 0 <= i < |es| ==> r[i] == es[i];
  }

  /** Looking a key up after an entry was appended. */
  lemma SubscriptAppend(es: seq<(string, Node)>, e: (string, Node), k: string)
    ensures Subscript(Map(es + [e]), Key(k)) ==
      if KeyIndex(es, k).Some? then Subscript(Map(es), Key(k)) else if e.0 == k then Found(e.1) else Missing
  {
    KeyIndexAppend(es, e, k);
    var r := es + [e];
    if KeyIndex(es, k).Some? {
      assert r[KeyIndex(es, k).value] == es[KeyIndex(es, k).value];
    } else if e.0 == k {
      assert r[|es|] == e;
    }
  }

  /** What the write leaves: the records under `spec.relatedImages`, everything else as it was. */
  ghost predicate WriteEffect(data: Node, records: seq<Node>, r: Node)
  {
    && r.Map?
    && Subscript(r, Key("spec")).Found?
    && Subscript(Subscript(r, Key("spec")).value, Key("relatedImages")) == Found(Seq(records))
    && (forall k :: k != "spec" ==> Subscript(r, Key(k)) == Subscript(data, Key(k)))
    && (Subscript(data, Key("spec")).Found? ==> forall k :: k != "relatedImages" ==>
          Subscript(Subscript(r, Key("spec")).value, Key(k)) == Subscript(Subscript(data, Key("spec")).value, Key(k)))
  }

  /** The write when the document has no `spec`: a new `spec` holding only the records. */
  lemma WriteNewSpec(data: Node, records: seq<Node>)
    requires data.Map? && KeyIndex(data.entries, "spec").None?
    ensures WriteEffect(data, records, WithRelatedImages(data, records).value)
  {
    var spec' := Map([("relatedImages", Seq(records))]);
    var r := Map(data.entries + [("spec", spec')]);
    assert WithRelatedImages(data, records).value == r;
    forall k | k != "spec" ensures Subscript(r, Key(k)) == Subscript(data, Key(k))
    {
      SubscriptAppend(data.entries, ("spec", spec'), k);
    }
    SubscriptAppend(data.entries, ("spec", spec'), "spec");
    assert KeyIndex(spec'.entries, "relatedImages") == Some(0);
  }

  /** The write when `spec` has no `relatedImages`: it is appended to `spec`. */
  lemma WriteNewRelated(data: Node, records: seq<Node>, i: nat)
    requires data.Map? && KeyIndex(data.entries, "spec") == Some(i)
    requires data.entries[i].1.Map? && KeyIndex(data.entries[i].1.entries, "relatedImages").None?
    ensures WriteEffect(data, records, WithRelatedImages(data, records).value)
  {
    var spec := data.entries[i].1;
    var spec' := Map(spec.entries + [("relatedImages", Seq(records))]);
    var r := Map(SetEntry(data.entries, i, spec'));
    assert WithRelatedImages(data, records).value == r;
    forall k | k != "spec" ensures Subscript(r, Key(k)) == Subscript(data, Key(k))
    {
      SubscriptSetEntry(data.entries, i, spec', k);
    }
    SubscriptSetEntry(data.entries, i, spec', "spec");
    assert Subscript(r, Key("spec")) == Found(spec');
    assert Subscript(data, Key("spec")) == Found(spec);
    forall k | k != "relatedImages" ensures Subscript(spec', Key(k)) == Subscript(spec, Key(k))
    {
      SubscriptAppend(spec.entries, ("relatedImages", Seq(records)), k);
    }
    SubscriptAppend(spec.entries, ("relatedImages", Seq(records)), "relatedImages");
  }

  /** The write when `spec.relatedImages` is a list: its value is replaced. */
  lemma WriteExistingRelated(data: Node, records: seq<Node>, i: nat, j: nat)
    requires data.Map? && KeyIndex(data.entries, "spec") == Some(i)
    requires data.entries[i].1.Map? && KeyIndex(data.entries[i].1.entries, "relatedImages") == Some(j)
    requires data.entries[i].1.entries[j].1.Seq?
    ensures WriteEffect(data, records, WithRelatedImages(data, records).value)
  {
    var spec := data.entries[i].1;
    var spec' := Map(SetEntry(spec.entries, j, Seq(records)));
    var r := Map(SetEntry(data.entries, i, spec'));
    assert WithRelatedImages(data, records).value == r;
    forall k | k != "spec" ensures Subscript(r, Key(k)) == Subscript(data, Key(k))
    {
      SubscriptSetEntry(data.entries, i, spec', k);
    }
    SubscriptSetEntry(data.entries, i, spec', "spec");
    assert Subscript(r, Key("spec")) == Found(spec');
    assert Subscript(data, Key("spec")) == Found(spec);
    forall k | k != "relatedImages" ensures Subscript(spec', Key(k)) == Subscript(spec, Key(k))
    {
      SubscriptSetEntry(spec.entries, j, Seq(records), k);
    }
    SubscriptSetEntry(spec.entries, j, Seq(records), "relatedImages");
  }

  /**
   * After the write, `spec.relatedImages` is the list of records, and every
   * other key of the document and of `spec` holds what it held.
   */
  lemma WithRelatedImagesEffect(data: Node, records: seq<Node>)
    requires data.Map? && WithRelatedImages(data, records).Ok?
    ensures WriteEffect(data, records, WithRelatedImages(data, records).value)
  {
    match KeyIndex(data.entries, "spec")
    case None => WriteNewSpec(data, records);
    case Some(i) =>
      match KeyIndex(data.entries[i].1.entries, "relatedImages")
      case None => WriteNewRelated(data, records, i);
      case Some(j) => WriteExistingRelated(data, records, i, j);
  }

  /**
   * `set_related_images` on the document of a CSV at `path`: the views are
   * found, read and scanned; a conflict raises with every message, one per
   * line; otherwise the records are written.
   */
  function RelatedImagesUpdate(path: string, data: Node): (r: Result<Node, Error>)
    requires data.Map?
    ensures r.Ok? ==> r.value.Map?
    ensures r.Ok? <==>
      && NamedPullspecs(data).Ok? && Facts(NamedPullspecs(data).value).Ok?
      && Consistent(Facts(NamedPullspecs(data).value).value)
      && WithRelatedImages(data, Records(Scan(Facts(NamedPullspecs(data).value).value).0)).Ok?
  {
    var ps :- NamedPullspecs(data);
    var facts :- Facts(ps);
    NoConflictsIffConsistent(facts);
    var (byName, conflicts) := Scan(facts);
    if conflicts != [] then Err(RelatedImagesConflict(ConflictReport(path, conflicts)))
    else WithRelatedImages(data, Records(byName))
  }

  const ConflictHeader := " - Found conflicts when setting relatedImages:\n"

  /** The text of the error: the path, a header line, then the conflicts joined by newlines. */
  function ConflictReport(path: string, conflicts: seq<string>): (r: string)
    ensures StartsWith(r, path + ConflictHeader)
    ensures conflicts != [] ==> StartsWith(r[|path + ConflictHeader|..], conflicts[0])
  {
    ReportPrefix(path + ConflictHeader, conflicts);
    path + ConflictHeader + Join(conflicts, "\n")
  }

  lemma ReportPrefix(head: string, conflicts: seq<string>)
    ensures StartsWith(head + Join(conflicts, "\n"), head)
    ensures conflicts != [] ==> StartsWith((head + Join(conflicts, "\n"))[|head|..], conflicts[0])
  {
    var body := Join(conflicts, "\n");
    PrefixOf(head, body);
    assert (head + body)[|head|..] == body;
    if |conflicts| == 1 {
      PrefixOf(conflicts[0], "");
      assert conflicts[0] + "" == conflicts[0];
    } else if conflicts != [] {
      PrefixOf(conflicts[0], "\n" + Join(conflicts[1..], "\n"));
      assert body == conflicts[0] + ("\n" + Join(conflicts[1..], "\n"));
    }
  }

  /** Each conflict message that is a single line is one line of the report, in order. */
  lemma ConflictReportLines(path: string, conflicts: seq<string>)
    requires conflicts != [] && forall i :: 0 <= i < |conflicts| ==> '\n' !in conflicts[i]
    ensures Split(ConflictReport(path, conflicts)[|path + ConflictHeader|..], '\n') == conflicts
  {
    var body := Join(conflicts, "\n");
    assert ConflictReport(path, conflicts)[|path + ConflictHeader|..] == body;
    SplitJoin(conflicts, '\n');
  }

  /** The name of a record is the name it was built with. */
  lemma RecordName(name: Node, image: Node)
    ensures Subscript(Record(name, image), Key("name")) == Found(name)
  {
    assert KeyIndex([("name", name), ("image", image)], "name") == Some(0);
  }

  /** Without conflicts, the record of every fact is among the records of `by_name`. */
  lemma {:induction false} RecordsCover(facts: seq<Fact>)
    requires Scan(facts).1 == []
    ensures forall i :: 0 <= i < |facts| ==> Record(facts[i].name, facts[i].image) in Records(Scan(facts).0)
  {
    var byName := Scan(facts).0;
    var records := Records(byName);
    ScanCovers(facts);
    ScanFirst(facts);
    NoConflictsConsistent(facts);
    forall i | 0 <= i < |facts|
      ensures Record(facts[i].name, facts[i].image) in records
    {
      var j := IndexOfName(byName, facts[i].name).value;
      var i0 :| 0 <= i0 < |facts| && facts[i0] == byName[j] && FirstOfName(facts, i0);
      assert facts[i0].image == facts[i].image;
      assert records[j] == Record(facts[i].name, facts[i].image);
    }
  }

  /** The records of `by_name` carry distinct names, and one of them is the record of every fact. */
  lemma RecordsOfScan(facts: seq<Fact>)
    requires Scan(facts).1 == []
    ensures var records := Records(Scan(facts).0);
      && (forall j, j' :: 0 <= j < j' < |records| ==> Subscript(records[j], Key("name")) != Subscript(records[j'], Key("name")))
      && (forall i :: 0 <= i < |facts| ==> Record(facts[i].name, facts[i].image) in records)
  {
    var byName := Scan(facts).0;
    var records := Records(byName);
    ScanDistinct(facts);
    forall j, j' | 0 <= j < j' < |records|
      ensures Subscript(records[j], Key("name")) != Subscript(records[j'], Key("name"))
    {
      RecordName(byName[j].name, byName[j].image);
      RecordName(byName[j'].name, byName[j'].image);
    }
    RecordsCover(facts);
  }

  /**
   * When the update succeeds, `spec.relatedImages` holds one record per
   * name, no two with the same name, every view's name and image is one of
   * them, and nothing else in the document changed.
   */
  lemma RelatedImagesUpdateRecords(path: string, data: Node)
    requires data.Map? && RelatedImagesUpdate(path, data).Ok?
    ensures NamedPullspecs(data).Ok? && Facts(NamedPullspecs(data).value).Ok?
    ensures var ps := NamedPullspecs(data).value;
      var records := Records(Scan(Facts(ps).value).0);
      && WriteEffect(data, records, RelatedImagesUpdate(path, data).value)
      && (forall j, j' :: 0 <= j < j' < |records| ==> Subscript(records[j], Key("name")) != Subscript(records[j'], Key("name")))
      && (forall i :: 0 <= i < |ps| ==> Name(ps[i]).Ok? && Image(ps[i]).Ok? && Record(Name(ps[i]).value, Value(Image(ps[i]).value)) in records)
  {
    var ps := NamedPullspecs(data).value;
    var facts := Facts(ps).value;
    var records := Records(Scan(facts).0);
    assert Scan(facts).1 == [];
    assert RelatedImagesUpdate(path, data) == WithRelatedImages(data, records);
    WithRelatedImagesEffect(data, records);
    RecordsOfScan(facts);
    forall i | 0 <= i < |ps|
      ensures Name(ps[i]).Ok? && Image(ps[i]).Ok? && Record(Name(ps[i]).value, Value(Image(ps[i]).value)) in records
    {
      FactsAt(ps, i);
    }
  }

  /** A conflict leaves the document as it was and reports every conflict message. */
  lemma RelatedImagesUpdateConflict(path: string, data: Node)
    requires data.Map? && NamedPullspecs(data).Ok? && Facts(NamedPullspecs(data).value).Ok?
    requires !Consistent(Facts(NamedPullspecs(data).value).value)
    ensures RelatedImagesUpdate(path, data) == Err(RelatedImagesConflict(ConflictReport(path, Scan(Facts(NamedPullspecs(data).value).value).1)))
    ensures Scan(Facts(NamedPullspecs(data).value).value).1 == Flatten(ConflictsOf(Facts(NamedPullspecs(data).value).value))
  {
    NoConflictsIffConsistent(Facts(NamedPullspecs(data).value).value);
    ScanConflicts(Facts(NamedPullspecs(data).value).value);
  }

  /**
   * The records a successful update writes are those of the first view of
   * each name, in the order the names are first met, and every view's name
   * is among them with the image of the first view of that name.
   */
  lemma RelatedImagesUpdateOrder(path: string, data: Node)
    requires data.Map? && RelatedImagesUpdate(path, data).Ok?
    ensures NamedPullspecs(data).Ok? && Facts(NamedPullspecs(data).value).Ok?
    ensures var facts := Facts(NamedPullspecs(data).value).value; var byName := Scan(facts).0;
      && WriteEffect(data, Records(byName), RelatedImagesUpdate(path, data).value)
      && (forall j :: 0 <= j < |byName| ==>
            FirstIndexOfName(facts, byName[j].name).Some? && byName[j] == facts[FirstIndexOfName(facts, byName[j].name).value])
      && (forall j, j' :: 0 <= j < j' < |byName| ==>
            FirstIndexOfName(facts, byName[j].name).value < FirstIndexOfName(facts, byName[j'].name).value)
      && (forall i :: 0 <= i < |facts| ==> IndexOfName(byName, facts[i].name).Some?)
  {
    var facts := Facts(NamedPullspecs(data).value).value;
    RelatedImagesUpdateRecords(path, data);
    ScanOrder(facts);
    ScanCovers(facts);
  }

}

=== FILE: replacement.dfy ===
/**
 * Replacing pullspecs: `replace_pullspecs_everywhere`, which rewrites every
 * string of the document that names an image with a replacement, and
 * `replace_pullspecs`, which rewrites only the images of the named pullspecs
 * (operator_manifest/operator.py). The document is a value; a rewrite returns
 * the new document together with the error that stopped it, if any, since
 * Python leaves the replacements made before an exception in place.
 */
module Replacement {
  import opened Wrappers
  import opened Document
  import opened ImageNames
  import opened Pullspecs

  /** The mapping of pullspec to replacement. */
  type Replacements = map<ImageName, ImageName>

  /**
   * `_replace_unnamed_pullspec` on one string: the string is replaced by the
   * rendering of its replacement when there is one that differs from it.
   */
  function Rewrite(s: string, m: Replacements): (r: Result<string, Error>)
    ensures r.Err? ==> r.error == NoImageRepository
    ensures Parse(s) !in m || m[Parse(s)] == Parse(s) ==> r == Ok(s)
    ensures Parse(s) in m && m[Parse(s)] != Parse(s) ==>
      (r.Ok? <==> m[Parse(s)].repo.Some?) && (r.Ok? ==> r.value == Render(m[Parse(s)]))
  {
    var found := Parse(s);
    if found in m && m[found] != found then ToStr(m[found], true, true, false, false) else Ok(s)
  }

  /** After a rewrite the string names the replacement, when the replacement is one that renders faithfully. */
  lemma RewriteNamesReplacement(s: string, m: Replacements)
    requires Parse(s) in m && Canonical(m[Parse(s)])
    ensures Rewrite(s, m).Ok? && Parse(Rewrite(s, m).value) == m[Parse(s)]
  {
    if m[Parse(s)] != Parse(s) {
      ParseRender(m[Parse(s)]);
    }
  }

  /** How each string is rewritten. */
  type Rewriting = string -> Result<string, Error>

  /** The rewriting of `_replace_unnamed_pullspec` with the mapping `m`. */
  function Rewriter(m: Replacements): Rewriting
  {
    s => Rewrite(s, m)
  }

  /**
   * `_replace_pullspecs_everywhere` on a node, with the rewriting of each
   * string as a parameter: every string is rewritten, depth first, until
   * an error.
   */
  function Walk(n: Node, f: Rewriting): (r: (Node, Option<Error>))
    ensures r.0.Map? == n.Map? && r.0.Seq? == n.Seq? && r.0.Str? == n.Str?
    ensures n.Other? ==> r == (n, None)
    ensures n.Map? ==> |r.0.entries| == |n.entries|
    ensures n.Seq? ==> |r.0.items| == |n.items|
    decreases n, 1
  {
    match n
    case Str(s) => (match f(s) case Ok(t) => (Str(t), None) case Err(e) => (n, Some(e)))
    case Map(es) => var (es2, err) := WalkEntries(es, f); (Map(es2), err)
    case Seq(xs) => var (xs2, err) := WalkItems(xs, f); (Seq(xs2), err)
    case Other(_) => (n, None)
  }

  /** The entries of a mapping, in order; those after an error are left as they are. */
  function WalkEntries(es: seq<(string, Node)>, f: Rewriting): (r: (seq<(string, Node)>, Option<Error>))
    ensures |r.0| == |es|
    decreases es, 0
  {
    if es == [] then ([], None)
    else
      var (key, child) := es[0];
      assert child < es[0];
      var (v, err) := Walk(child, f);
      if err.Some? then ([(key, v)] + es[1..], err)
      else var (rest, err') := WalkEntries(es[1..], f); ([(key, v)] + rest, err')
  }

  /** The items of a sequence, in order; those after an error are left as they are. */
  function WalkItems(xs: seq<Node>, f: Rewriting): (r: (seq<Node>, Option<Error>))
    ensures |r.0| == |xs|
    decreases xs, 0
  {
    if xs == [] then ([], None)
    else
      var (v, err) := Walk(xs[0], f);
      if err.Some? then ([v] + xs[1..], err)
      else var (rest, err') := WalkItems(xs[1..], f); ([v] + rest, err')
  }

  /** The walk keeps every key of a mapping, in place, whether or not it ends in an error. */
  lemma {:induction false} WalkEntriesKeys(es: seq<(string, Node)>, f: Rewriting)
    ensures forall i :: 0 <= i < |es| ==> WalkEntries(es, f).0[i].0 == es[i].0
    decreases |es|
  {
    if es != [] {
      var first := Walk(es[0].1, f);
      if first.1.None? {
        var rest := WalkEntries(es[1..], f);
        WalkEntriesKeys(es[1..], f);
        assert WalkEntries(es, f).0 == [(es[0].0, first.0)] + rest.0;
        forall i | 0 < i < |es|
          ensures WalkEntries(es, f).0[i].0 == es[i].0
        {
          assert rest.0[i - 1].0 == es[1..][i - 1].0;
        }
      }
    }
  }

  /** A walked node has the shape of the original: the same kind, the same length and the same keys. */
  lemma WalkKeys(n: Node, f: Rewriting)
    ensures SameKeys(Walk(n, f).0, n)
  {
    if n.Map? {
      WalkEntriesKeys(n.entries, f);
    }
  }

  /** A walk that ends without error walked every entry without error. */
  lemma {:induction false} WalkEntriesAt(es: seq<(string, Node)>, f: Rewriting, i: nat)
    requires i < |es| && WalkEntries(es, f).1.None?
    ensures Walk(es[i].1, f).1.None? && WalkEntries(es, f).0[i].1 == Walk(es[i].1, f).0
    decreases i
  {
    var first := Walk(es[0].1, f);
    assert first.1.None?;
    var rest := WalkEntries(es[1..], f);
    assert WalkEntries(es, f).0 == [(es[0].0, first.0)] + rest.0;
    if i > 0 {
      assert rest.1.None? && es[1..][i - 1] == es[i];
      WalkEntriesAt(es[1..], f, i - 1);
    }
  }

  lemma {:induction false} WalkItemsAt(xs: seq<Node>, f: Rewriting, i: nat)
    requires i < |xs| && WalkItems(xs, f).1.None?
    ensures Walk(xs[i], f).1.None? && WalkItems(xs, f).0[i] == Walk(xs[i], f).0
    decreases i
  {
    var first := Walk(xs[0], f);
    assert first.1.None?;
    var rest := WalkItems(xs[1..], f);
    assert WalkItems(xs, f).0 == [first.0] + rest.0;
    if i > 0 {
      assert rest.1.None? && xs[1..][i - 1] == xs[i];
      WalkItemsAt(xs[1..], f, i - 1);
    }
  }

  /** A child of a walked node is the walked child. */
  lemma WalkChild(n: Node, f: Rewriting, i: nat)
    requires Walk(n, f).1.None? && Child(n, i).Some?
    ensures Walk(Child(n, i).value, f).1.None?
    ensures Child(Walk(n, f).0, i) == Some(Walk(Child(n, i).value, f).0)
  {
    if n.Map? {
      WalkEntriesAt(n.entries, f, i);
    } else {
      WalkItemsAt(n.items, f, i);
    }
  }

  /**
   * Without an error, what the rewritten document holds at any position is
   * the rewrite of what the document held there; with `WalkKeys` and the
   * contract of `Walk`, each string is replaced by its rewrite while every
   * key, length and non-string value stays.
   */
  lemma {:induction false} WalkAt(n: Node, f: Rewriting, p: Pos)
    requires Walk(n, f).1.None? && At(n, p).Some?
    ensures Walk(At(n, p).value, f).1.None?
    ensures At(Walk(n, f).0, p) == Some(Walk(At(n, p).value, f).0)
    decreases |p|
  {
    if p != [] {
      var c := Child(n, p[0]).value;
      WalkChild(n, f, p[0]);
      WalkAt(c, f, p[1..]);
    }
  }

  /** The string at a position of the walked document is the rewrite of the original one. */
  lemma WalkLeaf(n: Node, f: Rewriting, p: Pos, s: string)
    requires Walk(n, f).1.None? && At(n, p) == Some(Str(s))
    ensures f(s).Ok? && At(Walk(n, f).0, p) == Some(Str(f(s).value))
  {
    WalkAt(n, f, p);
  }

  /** A rewrite that never fails never makes the walk fail. */
  lemma {:induction false} WalkNoError(n: Node, f: Rewriting)
    requires forall s :: f(s).Ok?
    ensures Walk(n, f).1.None?
    decreases n, 1
  {
    match n
    case Str(_) =>
    case Map(es) => WalkEntriesNoError(es, f);
    case Seq(xs) => WalkItemsNoError(xs, f);
    case Other(_) =>
  }

  lemma {:induction false} WalkEntriesNoError(es: seq<(string, Node)>, f: Rewriting)
    requires forall s :: f(s).Ok?
    ensures WalkEntries(es, f).1.None?
    decreases es, 0
  {
    if es != [] {
      var (key, child) := es[0];
      assert child < es[0];
      WalkNoError(child, f);
      WalkEntriesNoError(es[1..], f);
    }
  }

  lemma {:induction false} WalkItemsNoError(xs: seq<Node>, f: Rewriting)
    requires forall s :: f(s).Ok?
    ensures WalkItems(xs, f).1.None?
    decreases xs, 0
  {
    if xs != [] {
      WalkNoError(xs[0], f);
      WalkItemsNoError(xs[1..], f);
    }
  }

  /** A rewrite that keeps every string leaves the document as it is. */
  lemma {:induction false} WalkIdentity(n: Node, f: Rewriting)
    requires forall s :: f(s) == Ok(s)
    ensures Walk(n, f) == (n, None)
    decreases n, 1
  {
    match n
    case Str(_) =>
    case Map(es) => WalkEntriesIdentity(es, f);
    case Seq(xs) => WalkItemsIdentity(xs, f);
    case Other(_) =>
  }

  lemma {:induction false} WalkEntriesIdentity(es: seq<(string, Node)>, f: Rewriting)
    requires forall s :: f(s) == Ok(s)
    ensures WalkEntries(es, f) == (es, None)
    decreases es, 0
  {
    if es != [] {
      var (key, child) := es[0];
      assert child < es[0];
      WalkIdentity(child, f);
      WalkEntriesIdentity(es[1..], f);
      assert [(key, child)] + es[1..] == es;
    }
  }

  lemma {:induction false} WalkItemsIdentity(xs: seq<Node>, f: Rewriting)
    requires forall s :: f(s) == Ok(s)
    ensures WalkItems(xs, f) == (xs, None)
    decreases xs, 0
  {
    if xs != [] {
      WalkIdentity(xs[0], f);
      WalkItemsIdentity(xs[1..], f);
      assert [xs[0]] + xs[1..] == xs;
    }
  }

  /** The walk of the entries of a mapping begins with the walk of the first one. */
  lemma WalkEntriesFirst(es: seq<(string, Node)>, f: Rewriting)
    requires es != []
    ensures var (v, e) := Walk(es[0].1, f);
      WalkEntries(es, f) ==
        if e.Some? then ([(es[0].0, v)] + es[1..], e)
        else ([(es[0].0, v)] + WalkEntries(es[1..], f).0, WalkEntries(es[1..], f).1)
  {
  }

  /** The walk of the items of a sequence begins with the walk of the first one. */
  lemma WalkItemsFirst(xs: seq<Node>, f: Rewriting)
    requires xs != []
    ensures var (v, e) := Walk(xs[0], f);
      WalkItems(xs, f) ==
        if e.Some? then ([v] + xs[1..], e)
        else ([v] + WalkItems(xs[1..], f).0, WalkItems(xs[1..], f).1)
  {
  }

  /**
   * One turn of the loop over the entries of a mapping: when the walk of
   * the whole is what is done so far followed by the walk of the entries
   * from `i` on, the walk of entry `i` either stops it there or moves it on.
   */
  lemma WalkEntriesTurn(rest: seq<(string, Node)>, f: Rewriting, total: (seq<(string, Node)>, Option<Error>), done: seq<(string, Node)>, v: Node, e: Option<Error>)
    requires rest != [] && (v, e) == Walk(rest[0].1, f)
    requires total == (done + WalkEntries(rest, f).0, WalkEntries(rest, f).1)
    ensures e.Some? ==> total == (done + ([(rest[0].0, v)] + rest[1..]), e)
    ensures e.None? ==> total == ((done + [(rest[0].0, v)]) + WalkEntries(rest[1..], f).0, WalkEntries(rest[1..], f).1)
  {
    WalkEntriesFirst(rest, f);
    if e.None? {
      var after := WalkEntries(rest[1..], f);
      assert done + ([(rest[0].0, v)] + after.0) == (done + [(rest[0].0, v)]) + after.0;
    }
  }

  /** One turn of the loop over the items of a sequence. */
  lemma WalkItemsTurn(rest: seq<Node>, f: Rewriting, total: (seq<Node>, Option<Error>), done: seq<Node>, v: Node, e: Option<Error>)
    requires rest != [] && (v, e) == Walk(rest[0], f)
    requires total == (done + WalkItems(rest, f).0, WalkItems(rest, f).1)
    ensures e.Some? ==> total == (done + ([v] + rest[1..]), e)
    ensures e.None? ==> total == ((done + [v]) + WalkItems(rest[1..], f).0, WalkItems(rest[1..], f).1)
  {
    WalkItemsFirst(rest, f);
    if e.None? {
      var after := WalkItems(rest[1..], f);
      assert done + ([v] + after.0) == (done + [v]) + after.0;
    }
  }

  /** `_replace_unnamed_pullspec` on one string, parsing it with the `@`/`:` loop of `ImageName.parse`. */
  method ReplaceString(s: string, m: Replacements) returns (r: Result<string, Error>)
    ensures r == Rewrite(s, m)
  {
    var found := ParseImageName(Raw(s));
    if found in m && m[found] != found {
      r := ToStr(m[found], true, true, false, false);
    } else {
      r := Ok(s);
    }
  }

  /**
   * `_replace_pullspecs_everywhere` as Python runs it: a string is parsed
   * and replaced, a mapping is walked key by key, a sequence index by index.
   */
  method ReplaceEverywhere(n: Node, m: Replacements) returns (r: Node, err: Option<Error>)
    ensures (r, err) == Walk(n, Rewriter(m))
    decreases n, 1
  {
    match n {
      case Str(s) =>
        var rewritten := ReplaceString(s, m);
        if rewritten.Ok? {
          r, err := Str(rewritten.value), None;
        } else {
          r, err := n, Some(rewritten.error);
        }
      case Map(es) =>
        var done;
        done, err := ReplaceInEntries(es, m);
        r := Map(done);
      case Seq(xs) =>
        var done;
        done, err := ReplaceInItems(xs, m);
        r := Seq(done);
      case Other(_) =>
        r, err := n, None;
    }
  }

  /** The `for k in item` loop over a mapping. */
  method ReplaceInEntries(es: seq<(string, Node)>, m: Replacements) returns (done: seq<(string, Node)>, err: Option<Error>)
    ensures (done, err) == WalkEntries(es, Rewriter(m))
    decreases es, 0
  {
    done := [];
    err := None;
    ghost var total := WalkEntries(es, Rewriter(m));
    ghost var k := 0;
    var rest := es;
    assert [] + total.0 == total.0;
    while rest != [] && err.None?
      invariant k <= |es| && rest == es[k..]
      invariant err.None? ==> total == (done + WalkEntries(rest, Rewriter(m)).0, WalkEntries(rest, Rewriter(m)).1)
      invariant err.Some? ==> total == (done, err)
      decreases |rest|
    {
      var key, child := rest[0].0, rest[0].1;
      assert rest[0] == es[k] && child < rest[0];
      var v, e := ReplaceEverywhere(child, m);
      WalkEntriesTurn(rest, Rewriter(m), total, done, v, e);
      if e.Some? {
        done := done + ([(key, v)] + rest[1..]);
        err := e;
      } else {
        done := done + [(key, v)];
      }
      rest := rest[1..];
      k := k + 1;
    }
    if err.None? {
      assert done + [] == done;
    }
  }

  /** The `for i in range(len(item))` loop over a sequence. */
  method ReplaceInItems(xs: seq<Node>, m: Replacements) returns (done: seq<Node>, err: Option<Error>)
    ensures (done, err) == WalkItems(xs, Rewriter(m))
    decreases xs, 0
  {
    done := [];
    err := None;
    ghost var total := WalkItems(xs, Rewriter(m));
    ghost var k := 0;
    var rest := xs;
    assert [] + total.0 == total.0;
    while rest != [] && err.None?
      invariant k <= |xs| && rest == xs[k..]
      invariant err.None? ==> total == (done + WalkItems(rest, Rewriter(m)).0, WalkItems(rest, Rewriter(m)).1)
      invariant err.Some? ==> total == (done, err)
      decreases |rest|
    {
      var child := rest[0];
      assert child == xs[k];
      var v, e := ReplaceEverywhere(child, m);
      WalkItemsTurn(rest, Rewriter(m), total, done, v, e);
      if e.Some? {
        done := done + ([v] + rest[1..]);
        err := e;
      } else {
        done := done + [v];
      }
      rest := rest[1..];
      k := k + 1;
    }
    if err.None? {
      assert done + [] == done;
    }
  }

  /** The view `p` as it reads the document `tree` now: the value at its position. */
  function Current(tree: Node, p: NamedPullspec): (r: NamedPullspec)
    ensures r.kind == p.kind
    ensures p.data.Attached? && At(tree, p.data.at).Some? ==> r.data == Attached(At(tree, p.data.at).value, p.data.at) && InTree(tree, r.data)
    ensures !(p.data.Attached? && At(tree, p.data.at).Some?) ==> r == p
  {
    if p.data.Attached? && At(tree, p.data.at).Some? then NamedPullspec(p.kind, Attached(At(tree, p.data.at).value, p.data.at))
    else p
  }

  /**
   * What one turn of the loop of `replace_pullspecs` writes, if anything:
   * the image of the view is parsed; when the mapping has a different
   * replacement for it, the description is formatted for the log and the
   * rendering of the replacement is to be written where the image was.
   */
  function Write(tree: Node, p: NamedPullspec, m: Replacements): (r: Result<Option<(Pos, string)>, Error>)
    ensures r.Ok? && r.value.Some? ==>
      && p.data.Attached?
      && Image(Current(tree, p)).Ok?
      && Value(Image(Current(tree, p)).value).Str?
      && var image := Image(Current(tree, p)).value;
         var found := Parse(Value(image).s);
         && r.value.value.0 == image.at
         && IsPrefix(p.data.at, image.at) && |image.at| == |p.data.at| + 1
         && found in m && m[found] != found && m[found].repo.Some?
         && r.value.value.1 == Render(m[found])
  {
    var view := Current(tree, p);
    var image :- Image(view);
    var found :- ParseNode(Value(image));
    if found in m && m[found] != found then
      var description :- Description(view);
      var rendered :- ToStr(m[found], true, true, false, false);
      Ok(Some((image.at, rendered)))
    else Ok(None)
  }

  /** One turn of the loop of `replace_pullspecs`. */
  function ReplaceOne(tree: Node, p: NamedPullspec, m: Replacements): (r: Result<Node, Error>)
  {
    var w :- Write(tree, p, m);
    if w.None? then Ok(tree) else Ok(Put(tree, w.value.0, Str(w.value.1)))
  }

  /** `q` lies outside the value a view looks at (and is not above it). */
  predicate Away(q: Pos, l: Located)
  {
    l.Attached? ==> !IsPrefix(l.at, q) && !IsPrefix(q, l.at)
  }

  lemma AwayFromChild(q: Pos, at: Pos, child: Pos)
    requires !IsPrefix(at, q) && !IsPrefix(q, at)
    requires IsPrefix(at, child) && |child| == |at| + 1
    ensures !IsPrefix(child, q) && !IsPrefix(q, child)
  {
    assert child[..|at|] == at;
    if |q| <= |at| {
      assert child[..|q|] == at[..|q|];
    }
  }

  /**
   * A turn of the loop changes nothing but the image it reads: every
   * position neither at, above nor below that image keeps its value.
   */
  lemma ReplaceOneLocal(tree: Node, p: NamedPullspec, m: Replacements, q: Pos)
    requires ReplaceOne(tree, p, m).Ok?
    requires Image(Current(tree, p)).Ok? ==> Away(q, Image(Current(tree, p)).value)
    ensures At(ReplaceOne(tree, p, m).value, q) == At(tree, q)
  {
    var w := Write(tree, p, m).value;
    if w.Some? {
      PutElsewhere(tree, w.value.0, Str(w.value.1), q);
    }
  }

  /** A position outside the value a view looks at is outside its image too. */
  lemma AwayFromImage(tree: Node, p: NamedPullspec, q: Pos)
    requires Away(q, p.data)
    ensures Image(Current(tree, p)).Ok? ==> Away(q, Image(Current(tree, p)).value)
  {
    if Image(Current(tree, p)).Ok? {
      AwayFromChild(q, p.data.at, Image(Current(tree, p)).value.at);
    }
  }

  /** When a turn replaces, the image position of the view holds the rendering of the replacement. */
  lemma ReplaceOneWrites(tree: Node, p: NamedPullspec, m: Replacements)
    requires Write(tree, p, m).Ok? && Write(tree, p, m).value.Some? && At(tree, p.data.at).Some?
    ensures var image := Image(Current(tree, p)).value;
      var found := Parse(Value(image).s);
      At(ReplaceOne(tree, p, m).value, image.at) == Some(Str(Render(m[found])))
  {
    var w := Write(tree, p, m).value.value;
    var view := Current(tree, p);
    SubscriptInTree(tree, view.data, ImageKey(view.kind));
    PutAt(tree, w.0, Str(w.1));
  }


  /** One turn of the loop of `replace_pullspecs`, as a step of the document. */
  function Turn(m: Replacements): (Node, NamedPullspec) -> Result<Node, Error>
  {
    (tree, p) => ReplaceOne(tree, p, m)
  }

  /** The document and the error, if any, after the first `k` turns of the loop of `replace_pullspecs`. */
  function ReplaceUpTo(tree: Node, ps: seq<NamedPullspec>, m: Replacements, k: nat): (r: (Node, Option<Error>))
    requires k <= |ps|
  {
    Steps(tree, ps, Turn(m), k)
  }

  lemma ReplaceOneKeepsMap(tree: Node, p: NamedPullspec, m: Replacements)
    requires tree.Map? && ReplaceOne(tree, p, m).Ok?
    ensures ReplaceOne(tree, p, m).value.Map?
  {
  }


  /** Once a turn has raised, later turns do nothing: the loop has stopped. */
  lemma ReplaceUpToStops(tree: Node, ps: seq<NamedPullspec>, m: Replacements, k: nat, k': nat)
    requires k <= k' <= |ps| && ReplaceUpTo(tree, ps, m, k).1.Some?
    ensures ReplaceUpTo(tree, ps, m, k') == ReplaceUpTo(tree, ps, m, k)
  {
    StepsStop(tree, ps, Turn(m), k, k');
  }

  /** The document stays a mapping: every write is below the top level. */
  lemma ReplaceUpToKeepsMap(tree: Node, ps: seq<NamedPullspec>, m: Replacements, k: nat)
    requires k <= |ps| && tree.Map?
    ensures ReplaceUpTo(tree, ps, m, k).0.Map?
  {
    var inv := (t: Node) => t.Map?;
    forall t, x | x in ps && inv(t) && Turn(m)(t, x).Ok?
      ensures inv(Turn(m)(t, x).value)
    {
      ReplaceOneKeepsMap(t, x, m);
    }
    StepsKeep(tree, ps, Turn(m), k, inv);
  }

  /**
   * The loop of `replace_pullspecs` over the views: each turn reads the
   * view again from the document as the earlier turns left it, and the
   * first error stops the loop with the earlier writes in place.
   */
  method ReplaceViews(tree: Node, ps: seq<NamedPullspec>, m: Replacements) returns (r: Node, err: Option<Error>)
    ensures (r, err) == ReplaceUpTo(tree, ps, m, |ps|)
  {
    r, err := RunSteps(tree, ps, Turn(m));
  }

  /** `replace_pullspecs`: the named pullspecs are found first, then replaced one by one. */
  function ReplaceNamed(tree: Node, m: Replacements): (r: (Node, Option<Error>))
  {
    match NamedPullspecs(tree)
    case Err(e) => (tree, Some(e))
    case Ok(ps) => ReplaceUpTo(tree, ps, m, |ps|)
  }

  /**
   * `replace_pullspecs` writes nothing but the images of the named
   * pullspecs: every position neither at, above nor below one of those
   * images keeps its value, whether or not the loop raises.
   */
  lemma ReplaceNamedLocal(tree: Node, m: Replacements, q: Pos)
    requires NamedPullspecs(tree).Ok?
    requires AwayFromImages(q, NamedPullspecs(tree).value)
    ensures At(ReplaceNamed(tree, m).0, q) == At(tree, q)
  {
    var ps := NamedPullspecs(tree).value;
    NamedPullspecsPlaced(tree);
    NamedPullspecsSeparate(tree);
    ReplaceUpToApart(tree, ps, m, |ps|, q);
  }

  /** The mapping a view looks at is still there, with the same keys in the same order. */
  predicate Kept(tree: Node, p: NamedPullspec)
  {
    p.data.Attached? ==> At(tree, p.data.at).Some? && SameKeys(At(tree, p.data.at).value, p.data.node)
  }

  /** Its image, as read from the document the views were found in, is still where it was. */
  predicate ImageIntact(tree: Node, p: NamedPullspec)
  {
    Image(p).Ok? ==> At(tree, Image(p).value.at) == Some(Image(p).value.node)
  }

  /** After its turn, the image of a view holds its rewrite. */
  predicate ImageRewritten(tree: Node, p: NamedPullspec, m: Replacements)
  {
    && p.data.Attached? && Image(p).Ok? && Value(Image(p).value).Str?
    && Rewrite(Value(Image(p).value).s, m).Ok?
    && At(tree, Image(p).value.at) == Some(Str(Rewrite(Value(Image(p).value).s, m).value))
  }

  /** The document after `k` turns: views before `k` rewritten, the others still as they were found. */
  predicate Progress(tree: Node, ps: seq<NamedPullspec>, m: Replacements, k: nat)
  {
    forall i :: 0 <= i < |ps| ==>
      (i < k ==> ImageRewritten(tree, ps[i], m)) && (k <= i ==> Kept(tree, ps[i]) && ImageIntact(tree, ps[i]))
  }

  lemma SameKeysTrans(a: Node, b: Node, c: Node)
    requires SameKeys(a, b) && SameKeys(b, c)
    ensures SameKeys(a, c)
  {
  }

  /** Reading the image of a view from a later document gives the image it had, as long as the view was kept and its image is intact. */
  lemma ImageKept(tree: Node, p: NamedPullspec)
    requires p.data.Attached? && Kept(tree, p) && ImageIntact(tree, p)
    ensures Image(Current(tree, p)) == Image(p)
  {
    var n := At(tree, p.data.at).value;
    var key := ImageKey(p.kind);
    if n.Map? {
      KeyIndexSameKeys(n.entries, p.data.node.entries, key);
      match KeyIndex(p.data.node.entries, key)
      case None =>
      case Some(i) =>
        AtExtend(tree, p.data.at, i);
    }
  }

  /**
   * The turn of a view that was kept and whose image is intact: when it does
   * not raise, the view is attached, its image a string whose rewrite
   * succeeds, and the turn writes that rewrite at the image exactly when the
   * mapping has a different replacement.
   */
  lemma TurnReads(tree: Node, p: NamedPullspec, m: Replacements)
    requires Kept(tree, p) && ImageIntact(tree, p) && ReplaceOne(tree, p, m).Ok?
    ensures p.data.Attached? && Image(p).Ok? && Value(Image(p).value).Str?
    ensures var s := Value(Image(p).value).s;
      && Rewrite(s, m).Ok?
      && ReplaceOne(tree, p, m).value ==
           if Parse(s) in m && m[Parse(s)] != Parse(s) then Put(tree, Image(p).value.at, Str(Rewrite(s, m).value)) else tree
  {
    TurnAttached(tree, p, m);
    ImageKept(tree, p);
    TurnWrites(tree, p, m);
  }

  /** A turn that does not raise read the image of an attached view. */
  lemma TurnAttached(tree: Node, p: NamedPullspec, m: Replacements)
    requires ReplaceOne(tree, p, m).Ok?
    ensures p.data.Attached?
  {
  }

  /** What a turn that does not raise writes, in terms of the image it read. */
  lemma TurnWrites(tree: Node, p: NamedPullspec, m: Replacements)
    requires Image(Current(tree, p)) == Image(p) && ReplaceOne(tree, p, m).Ok?
    ensures Image(p).Ok? && Value(Image(p).value).Str?
    ensures var s := Value(Image(p).value).s;
      && Rewrite(s, m).Ok?
      && ReplaceOne(tree, p, m).value ==
           if Parse(s) in m && m[Parse(s)] != Parse(s) then Put(tree, Image(p).value.at, Str(Rewrite(s, m).value)) else tree
  {
    var w := Write(tree, p, m);
    assert w.Ok?;
    var image := Image(p).value;
    assert ParseNode(Value(image)).Ok?;
    var str := Value(image).s;
    var found := Parse(str);
    if found in m && m[found] != found {
      assert w.value == Some((image.at, Rewrite(str, m).value));
    } else {
      assert w.value == None;
    }
  }

  /** The image of a container and a variable of that container are apart: one is under `image`, the other under `env`. */
  lemma EnvImageApart(root: Node, c: NamedPullspec, e: NamedPullspec)
    requires EnvOf(root, c, e) && InTree(root, c.data) && InTree(root, e.data) && Image(c).Ok?
    ensures Apart(Image(c).value.at, e.data.at)
  {
    var ic := Image(c).value;
    FieldRoute(root, c.data, "image");
    var t := |c.data.at|;
    assert Route(root, e.data.at)[..|e.data.at| - 1] == Route(root, c.data.at) + KeySteps(["env"]);
    assert Route(root, e.data.at)[t] == Route(root, e.data.at)[..|e.data.at| - 1][t];
    assert Route(root, ic.at)[t] == KeyStep("image");
    RouteApart(root, ic.at, e.data.at, t);
  }

  /** Where a view of a container and a view of one of its variables write: apart. */
  lemma EnvWritesApart(root: Node, c: NamedPullspec, e: NamedPullspec)
    requires EnvOf(root, c, e) && InTree(root, c.data) && InTree(root, e.data)
    requires Image(c).Ok? && Image(e).Ok?
    ensures Apart(Image(c).value.at, Image(e).value.at)
  {
    EnvImageApart(root, c, e);
    ApartBelow(Image(c).value.at, e.data.at, Image(c).value.at, Image(e).value.at);
  }

  /**
   * Where view `q` writes is neither the mapping view `p` looks at nor above
   * it, and is apart from where `p` writes.
   */
  lemma WritesApart(root: Node, p: NamedPullspec, q: NamedPullspec)
    requires Disjoint(root, p, q) && InTree(root, p.data) && InTree(root, q.data)
    requires p.data.Attached? && q.data.Attached? && Image(p).Ok? && Image(q).Ok?
    ensures !IsPrefix(Image(q).value.at, p.data.at)
    ensures !IsPrefix(Image(q).value.at, Image(p).value.at) && !IsPrefix(Image(p).value.at, Image(q).value.at)
  {
    var ip, iq := Image(p).value.at, Image(q).value.at;
    if Apart(p.data.at, q.data.at) {
      ApartBelow(p.data.at, q.data.at, p.data.at, iq);
      ApartBelow(p.data.at, q.data.at, ip, iq);
      ApartNotPrefix(p.data.at, iq);
      ApartNotPrefix(ip, iq);
    } else if EnvOf(root, p, q) {
      EnvWritesApart(root, p, q);
      ApartNotPrefix(ip, iq);
    } else {
      EnvImageApart(root, q, p);
      EnvWritesApart(root, q, p);
      ApartNotPrefix(iq, p.data.at);
      ApartNotPrefix(iq, ip);
    }
  }

  /** A write at a position neither at nor above the mapping a view looks at keeps it. */
  lemma PutKeeps(tree: Node, w: Pos, v: Node, p: NamedPullspec)
    requires Kept(tree, p) && At(tree, w).Some?
    requires p.data.Attached? ==> !IsPrefix(w, p.data.at)
    ensures Kept(Put(tree, w, v), p)
  {
    if p.data.Attached? {
      var q := p.data.at;
      if IsPrefix(q, w) {
        PutAbove(tree, w, v, q);
        SameKeysTrans(At(Put(tree, w, v), q).value, At(tree, q).value, p.data.node);
      } else {
        PutElsewhere(tree, w, v, q);
      }
    }
  }

  /** The write of turn `k` leaves every other view as `Progress` describes it. */
  lemma OtherViewsKept(root: Node, tree: Node, ps: seq<NamedPullspec>, m: Replacements, k: nat, v: Node)
    requires AllPlaced(root, ps) && Separate(root, ps) && k < |ps| && Progress(tree, ps, m, k)
    requires ps[k].data.Attached? && Image(ps[k]).Ok? && At(tree, Image(ps[k]).value.at).Some?
    ensures forall i :: 0 <= i < |ps| && i != k ==>
      (i < k ==> ImageRewritten(Put(tree, Image(ps[k]).value.at, v), ps[i], m))
      && (k < i ==> Kept(Put(tree, Image(ps[k]).value.at, v), ps[i]) && ImageIntact(Put(tree, Image(ps[k]).value.at, v), ps[i]))
  {
    var w := Image(ps[k]).value.at;
    forall i | 0 <= i < |ps| && i != k
      ensures i < k ==> ImageRewritten(Put(tree, w, v), ps[i], m)
      ensures k < i ==> Kept(Put(tree, w, v), ps[i]) && ImageIntact(Put(tree, w, v), ps[i])
    {
      assert Placed(root, ps[i]) && Placed(root, ps[k]);
      assert Disjoint(root, ps[i], ps[k]);
      if ps[i].data.Attached? {
        if Image(ps[i]).Ok? {
          WritesApart(root, ps[i], ps[k]);
          PutElsewhere(tree, w, v, Image(ps[i]).value.at);
        } else {
          WritesApart0(root, ps[i], ps[k]);
        }
        if k < i {
          PutKeeps(tree, w, v, ps[i]);
        }
      }
    }
  }

  /** Where view `q` writes is neither the mapping view `p` looks at nor above it. */
  lemma WritesApart0(root: Node, p: NamedPullspec, q: NamedPullspec)
    requires Disjoint(root, p, q) && InTree(root, p.data) && InTree(root, q.data)
    requires p.data.Attached? && q.data.Attached? && Image(q).Ok?
    ensures !IsPrefix(Image(q).value.at, p.data.at)
  {
    var iq := Image(q).value.at;
    if Apart(p.data.at, q.data.at) {
      ApartBelow(p.data.at, q.data.at, p.data.at, iq);
      ApartNotPrefix(p.data.at, iq);
    } else if EnvOf(root, p, q) {
      assert |iq| > |p.data.at|;
    } else {
      EnvImageApart(root, q, p);
      ApartNotPrefix(iq, p.data.at);
    }
  }

  /** One turn moves `Progress` on by one view. */
  lemma ProgressStep(root: Node, tree: Node, ps: seq<NamedPullspec>, m: Replacements, k: nat)
    requires AllPlaced(root, ps) && Separate(root, ps) && k < |ps| && Progress(tree, ps, m, k)
    requires ReplaceOne(tree, ps[k], m).Ok?
    ensures Progress(ReplaceOne(tree, ps[k], m).value, ps, m, k + 1)
  {
    var p := ps[k];
    TurnReads(tree, p, m);
    var img := Image(p).value;
    var s := Value(img).s;
    var next := ReplaceOne(tree, p, m).value;
    if Parse(s) in m && m[Parse(s)] != Parse(s) {
      var v := Str(Rewrite(s, m).value);
      OtherViewsKept(root, tree, ps, m, k, v);
      PutAt(tree, img.at, v);
      assert ImageRewritten(next, p, m);
    } else {
      assert next == tree;
      assert ImageRewritten(next, p, m);
    }
  }

  /** Before the first turn the views are as they were found. */
  lemma ProgressStart(root: Node, ps: seq<NamedPullspec>, m: Replacements)
    requires AllPlaced(root, ps)
    ensures Progress(root, ps, m, 0)
  {
    forall i | 0 <= i < |ps|
      ensures Kept(root, ps[i]) && ImageIntact(root, ps[i])
    {
      assert Placed(root, ps[i]);
      if Image(ps[i]).Ok? {
        SubscriptInTree(root, ps[i].data, ImageKey(ps[i].kind));
      }
    }
  }

  /** After `k` turns without error, the first `k` views are rewritten and the others are as they were found. */
  lemma ReplaceUpToProgress(root: Node, ps: seq<NamedPullspec>, m: Replacements, k: nat)
    requires AllPlaced(root, ps) && Separate(root, ps) && k <= |ps|
    requires ReplaceUpTo(root, ps, m, k).1.None?
    ensures Progress(ReplaceUpTo(root, ps, m, k).0, ps, m, k)
  {
    var inv := (t: Node, i: nat) => Progress(t, ps, m, i);
    ProgressStart(root, ps, m);
    ProgressSteps(root, ps, m);
    StepsInduct(root, ps, Turn(m), k, inv);
  }

  /** Every turn that does not raise moves `Progress` on by one view. */
  lemma ProgressSteps(root: Node, ps: seq<NamedPullspec>, m: Replacements)
    requires AllPlaced(root, ps) && Separate(root, ps)
    ensures forall t, i :: 0 <= i < |ps| && Progress(t, ps, m, i) && Turn(m)(t, ps[i]).Ok? ==>
      Progress(Turn(m)(t, ps[i]).value, ps, m, i + 1)
  {
    forall t, i | 0 <= i < |ps| && Progress(t, ps, m, i) && Turn(m)(t, ps[i]).Ok?
      ensures Progress(Turn(m)(t, ps[i]).value, ps, m, i + 1)
    {
      ProgressStep(root, t, ps, m, i);
    }
  }

  /** `q` is neither at, above nor below the image of any of the views, as they were found. */
  predicate AwayFromImages(q: Pos, ps: seq<NamedPullspec>)
  {
    forall i :: 0 <= i < |ps| && Image(ps[i]).Ok? ==> Away(q, Image(ps[i]).value)
  }

  /**
   * The loop over views found in `root` changes nothing but their images,
   * whether or not it stops with an error.
   */
  lemma ReplaceUpToApart(root: Node, ps: seq<NamedPullspec>, m: Replacements, k: nat, q: Pos)
    requires AllPlaced(root, ps) && Separate(root, ps) && k <= |ps|
    requires AwayFromImages(q, ps)
    ensures At(ReplaceUpTo(root, ps, m, k).0, q) == At(root, q)
  {
    var inv := (t: Node, i: nat) => Progress(t, ps, m, i) && At(t, q) == At(root, q);
    ProgressStart(root, ps, m);
    ApartSteps(root, ps, m, q);
    var j := StepsInductAny(root, ps, Turn(m), k, inv);
  }

  /** Every turn that does not raise moves `Progress` on and keeps the value at `q`. */
  lemma ApartSteps(root: Node, ps: seq<NamedPullspec>, m: Replacements, q: Pos)
    requires AllPlaced(root, ps) && Separate(root, ps) && AwayFromImages(q, ps)
    ensures forall t, i :: 0 <= i < |ps| && Progress(t, ps, m, i) && At(t, q) == At(root, q) && Turn(m)(t, ps[i]).Ok? ==>
      Progress(Turn(m)(t, ps[i]).value, ps, m, i + 1) && At(Turn(m)(t, ps[i]).value, q) == At(root, q)
  {
    forall t, i | 0 <= i < |ps| && Progress(t, ps, m, i) && At(t, q) == At(root, q) && Turn(m)(t, ps[i]).Ok?
      ensures Progress(Turn(m)(t, ps[i]).value, ps, m, i + 1) && At(Turn(m)(t, ps[i]).value, q) == At(root, q)
    {
      ProgressStep(root, t, ps, m, i);
      ApartStep(t, ps, m, i, q);
    }
  }

  /** The turn of view `i`, kept and intact, writes at most its original image. */
  lemma ApartStep(tree: Node, ps: seq<NamedPullspec>, m: Replacements, i: nat, q: Pos)
    requires i < |ps| && Progress(tree, ps, m, i) && AwayFromImages(q, ps) && ReplaceOne(tree, ps[i], m).Ok?
    ensures At(ReplaceOne(tree, ps[i], m).value, q) == At(tree, q)
  {
    var p := ps[i];
    assert Kept(tree, p) && ImageIntact(tree, p);
    TurnAttached(tree, p, m);
    ImageKept(tree, p);
    ReplaceOneLocal(tree, p, m, q);
  }

  /**
   * When `replace_pullspecs` raises nothing, the image of every named
   * pullspec holds the rewrite of the string it held: the rendering of its
   * replacement when the mapping has a different one, the string itself
   * otherwise.
   */
  lemma ReplaceNamedEffect(tree: Node, m: Replacements)
    requires ReplaceNamed(tree, m).1.None?
    ensures NamedPullspecs(tree).Ok?
    ensures var ps := NamedPullspecs(tree).value;
      forall i :: 0 <= i < |ps| ==>
        && ps[i].data.Attached? && Image(ps[i]).Ok? && Value(Image(ps[i]).value).Str?
        && var s := Value(Image(ps[i]).value).s;
           && Rewrite(s, m).Ok?
           && At(ReplaceNamed(tree, m).0, Image(ps[i]).value.at) == Some(Str(Rewrite(s, m).value))
  {
    var ps := NamedPullspecs(tree).value;
    NamedPullspecsPlaced(tree);
    NamedPullspecsSeparate(tree);
    ReplaceUpToProgress(tree, ps, m, |ps|);
    var r := ReplaceNamed(tree, m).0;
    forall i | 0 <= i < |ps|
      ensures ImageRewritten(r, ps[i], m)
    {
    }
  }

  /** With no replacements a turn writes nothing. */
  lemma ReplaceOneEmpty(tree: Node, p: NamedPullspec)
    requires ReplaceOne(tree, p, map[]).Ok?
    ensures ReplaceOne(tree, p, map[]).value == tree
  {
  }

  /** With no replacements, `replace_pullspecs` leaves the document as it is (it may still raise while reading the views). */
  lemma ReplaceUpToEmpty(tree: Node, ps: seq<NamedPullspec>, k: nat)
    requires k <= |ps|
    ensures ReplaceUpTo(tree, ps, map[], k).0 == tree
  {
    var inv := (t: Node) => t == tree;
    forall t, x | x in ps && inv(t) && Turn(map[])(t, x).Ok?
      ensures inv(Turn(map[])(t, x).value)
    {
      ReplaceOneEmpty(t, x);
    }
    StepsKeep(tree, ps, Turn(map[]), k, inv);
  }
}

=== FILE: resolver.dfy ===
/**
 * Resolving an image reference to a digest reference: the image name is
 * cut from the reference, the manifest digest is found by `skopeo inspect`
 * (retried on failure), and the two are joined with `@`. The commands
 * themselves, the file system and SHA-256 are parameters.
 */
module Resolver {
  import opened Wrappers
  import opened Text

  /**
   * `_get_container_image_name` as the source writes it: the text before
   * the first `@` if there is one, otherwise the text before the last `:`.
   */
  function ContainerImageNameAsWritten(ref: string): (r: string)
    ensures |r| <= |ref| && r == ref[..|r|]
    ensures '@' in ref ==> |r| < |ref| && ref[|r|] == '@' && '@' !in r
    ensures '@' !in ref && ':' in ref ==> |r| < |ref| && ref[|r|] == ':' && ':' !in ref[|r| + 1..]
    ensures '@' !in ref && ':' !in ref ==> r == ref
  {
    match FirstIndex(ref, '@')
    case Some(i) => ref[..i]
    case None =>
      match LastIndex(ref, ':')
      case Some(i) => ref[..i]
      case None => ref
  }

  /** The last `:` of the reference `registry:5000/image` is the one of the port. */
  lemma PortReferenceColon()
    ensures '@' !in "registry:5000/image"
    ensures LastIndex("registry:5000/image", ':') == Some(8)
  {
    var ref := "registry:5000/image";
    assert '@' !in ref;
    assert ref[8] == ':' && ':' !in ref[9..];
  }

  /** A reference whose registry has a port and which has no tag loses everything after the port's colon. */
  lemma ContainerImageNameAsWrittenCutsPort()
    ensures ContainerImageNameAsWritten("registry:5000/image") == "registry"
  {
    PortReferenceColon();
    assert "registry:5000/image"[..8] == "registry";
  }

  /** The name part of a reference: a `:` counts as the tag separator only after the last `/`. */
  function ContainerImageName(ref: string): (r: string)
    ensures |r| <= |ref| && r == ref[..|r|]
    ensures '@' in ref ==> |r| < |ref| && ref[|r|] == '@' && '@' !in r
  {
    match FirstIndex(ref, '@')
    case Some(i) => ref[..i]
    case None =>
      match LastIndex(ref, ':')
      case Some(i) => if '/' in ref[i + 1..] then ref else ref[..i]
      case None => ref
  }

  /** The name of `name@digest` is `name`. */
  lemma ContainerImageNameOfDigest(name: string, digest: string)
    requires '@' !in name
    ensures ContainerImageName(name + "@" + digest) == name
  {
    var ref := name + "@" + digest;
    assert ref[|name|] == '@' && ref[..|name|] == name;
    assert FirstIndex(ref, '@') == Some(|name|);
  }

  /** The name of `name:tag` is `name`, whatever colons the registry part of `name` has. */
  lemma ContainerImageNameOfTag(name: string, tag: string)
    requires '@' !in name && '@' !in tag && ':' !in tag && '/' !in tag
    ensures ContainerImageName(name + ":" + tag) == name
  {
    var ref := name + ":" + tag;
    assert ref[|name|] == ':' && ref[..|name|] == name && ref[|name| + 1..] == tag;
    assert '@' !in ref by {
      assert ref == name + [':'] + tag;
    }
    assert LastIndex(ref, ':') == Some(|name|);
  }

  /** A reference without a tag is its own name, whatever colons its registry part has. */
  lemma ContainerImageNameOfUntagged(name: string)
    requires '@' !in name
    requires forall i :: 0 <= i < |name| && name[i] == ':' ==> '/' in name[i + 1..]
    ensures ContainerImageName(name) == name
  {
  }

  /** The corrected function keeps the whole of a tagless reference with a registry port. */
  lemma ContainerImageNameKeepsPort()
    ensures ContainerImageName("registry:5000/image") == "registry:5000/image"
  {
    PortReferenceColon();
    assert '/' in "registry:5000/image"[9..];
  }

  /** The number of calls `_retry` allows: the countdown raises once it reaches zero, so at least one. */
  function AttemptLimit(attempts: int): (r: nat)
    ensures r >= 1 && (attempts >= 1 ==> r == attempts)
  {
    if attempts >= 1 then attempts else 1
  }

  /**
   * The result of the wrapped function from call `k` on, and the number of
   * calls made in all: a success or an error it does not wait on ends
   * the loop, and so does an error it waits on at the last allowed call.
   */
  function RetryFrom<T>(k: nat, limit: nat, waitOn: Error -> bool, call: nat -> Result<T, Error>): (r: (Result<T, Error>, nat))
    requires k < limit
    ensures k < r.1 <= limit && r.0 == call(r.1 - 1)
    decreases limit - k
  {
    var result := call(k);
    if result.Ok? || !waitOn(result.error) || k + 1 >= limit then (result, k + 1)
    else RetryFrom(k + 1, limit, waitOn, call)
  }

  /**
   * `_retry(attempts, wait_on)` around a function whose `n`-th call gives
   * `call(n)`: it is called until it succeeds, raises an error it does not
   * wait on, or has failed `attempts` times (once, when `attempts` is not
   * positive).
   */
  method Retry<T>(attempts: int, waitOn: Error -> bool, call: nat -> Result<T, Error>) returns (r: Result<T, Error>, calls: nat)
    ensures (r, calls) == RetryFrom(0, AttemptLimit(attempts), waitOn, call)
  {
    var remaining := attempts;
    calls := 0;
    while true
      invariant calls < AttemptLimit(attempts) && remaining == attempts - calls
      invariant RetryFrom(calls, AttemptLimit(attempts), waitOn, call) == RetryFrom(0, AttemptLimit(attempts), waitOn, call)
      decreases AttemptLimit(attempts) - calls
    {
      r := call(calls);
      calls := calls + 1;
      if r.Ok? || !waitOn(r.error) {
        return;
      }
      remaining := remaining - 1;
      if remaining <= 0 {
        return;
      }
    }
  }

  /**
   * What the loop promises: the last call made gives the result; every
   * earlier call failed with an error the loop waits on; no more calls are
   * made than allowed; and an error it waits on is given up on only after
   * all allowed calls.
   */
  lemma {:induction false} RetryOutcome<T>(k: nat, limit: nat, waitOn: Error -> bool, call: nat -> Result<T, Error>)
    requires k < limit
    ensures var (r, calls) := RetryFrom(k, limit, waitOn, call);
      && calls <= limit
      && r == call(calls - 1)
      && (forall j :: k <= j < calls - 1 ==> call(j).Err? && waitOn(call(j).error))
      && (r.Err? && waitOn(r.error) ==> calls == limit)
    decreases limit - k
  {
    var result := call(k);
    if !(result.Ok? || !waitOn(result.error) || k + 1 >= limit) {
      RetryOutcome(k + 1, limit, waitOn, call);
    }
  }

  /** The first success within the allowed calls is what the loop returns. */
  lemma RetryFirstSuccess<T>(attempts: int, waitOn: Error -> bool, call: nat -> Result<T, Error>, n: nat)
    requires n < AttemptLimit(attempts) && call(n).Ok?
    requires forall j :: 0 <= j < n ==> call(j).Err? && waitOn(call(j).error)
    ensures RetryFrom(0, AttemptLimit(attempts), waitOn, call) == (call(n), n + 1)
  {
    var limit := AttemptLimit(attempts);
    RetryOutcome(0, limit, waitOn, call);
    var (r, calls) := RetryFrom(0, limit, waitOn, call);
    if calls - 1 < n {
      assert false;
    }
    if calls - 1 > n {
      assert false;
    }
  }

  /** `extra_args`: `--authfile` and the path when an authfile is given (a non-empty path). */
  function AuthArgs(authfile: string): (r: seq<string>)
    ensures authfile == "" ==> r == []
    ensures authfile != "" ==> r == ["--authfile", authfile]
  {
    if authfile == "" then [] else ["--authfile", authfile]
  }

  /** The answers from outside the model that `resolve_image_reference` relies on. */
  datatype Environment = Environment(
    /** Whether a path exists on the file system. */
    pathExists: string -> bool,
    /** The output of `skopeo inspect` (already retried) for the given arguments. */
    inspect: seq<string> -> Result<string, Error>,
    /** Whether a raw manifest declares `schemaVersion` 2. */
    schemaTwo: string -> bool,
    /** The `Digest` field of the non-raw `skopeo inspect` output. */
    digestField: string -> Result<string, Error>,
    /** The hexadecimal SHA-256 of a text's UTF-8 encoding. */
    sha256: string -> string)

  /**
   * `resolve_image_reference`: the resolved reference and the argument
   * lists of the `skopeo inspect` commands run, in order.
   */
  function Resolve(ref: string, authfile: string, env: Environment): (r: (Result<string, Error>, seq<seq<string>>))
    ensures authfile != "" && !env.pathExists(authfile) ==>
      r == (Err(AuthfileMissing("Specified authfile " + authfile + " does not exist")), [])
    ensures r.0.Ok? ==> StartsWith(r.0.value, ContainerImageName(ref) + "@")
    ensures r.1 != [] ==> r.1[0] == ["docker://" + ref, "--raw"] + AuthArgs(authfile)
    ensures |r.1| <= 2
  {
    if authfile != "" && !env.pathExists(authfile) then
      (Err(AuthfileMissing("Specified authfile " + authfile + " does not exist")), [])
    else
      var extra := AuthArgs(authfile);
      var name := ContainerImageName(ref);
      var rawArgs := ["docker://" + ref, "--raw"] + extra;
      match env.inspect(rawArgs)
      case Err(e) => (Err(e), [rawArgs])
      case Ok(raw) =>
        if env.schemaTwo(raw) then
          (Ok(name + "@" + "sha256:" + env.sha256(raw)), [rawArgs])
        else
          var args := ["docker://" + ref] + extra;
          match env.inspect(args)
          case Err(e) => (Err(e), [rawArgs, args])
          case Ok(out) =>
            match env.digestField(out)
            case Err(e) => (Err(e), [rawArgs, args])
            case Ok(digest) => (Ok(name + "@" + digest), [rawArgs, args])
  }

  /** For a schema 2 manifest the digest is `sha256:` and the hash of the raw manifest; the name of the result is the name of the reference. */
  lemma ResolveSchemaTwo(ref: string, authfile: string, env: Environment)
    requires !(authfile != "" && !env.pathExists(authfile))
    requires env.inspect(["docker://" + ref, "--raw"] + AuthArgs(authfile)).Ok?
    requires env.schemaTwo(env.inspect(["docker://" + ref, "--raw"] + AuthArgs(authfile)).value)
    requires '@' !in ContainerImageName(ref)
    ensures var raw := env.inspect(["docker://" + ref, "--raw"] + AuthArgs(authfile)).value;
      && Resolve(ref, authfile, env).0 == Ok(ContainerImageName(ref) + "@" + "sha256:" + env.sha256(raw))
      && ContainerImageName(Resolve(ref, authfile, env).0.value) == ContainerImageName(ref)
      && |Resolve(ref, authfile, env).1| == 1
  {
    var raw := env.inspect(["docker://" + ref, "--raw"] + AuthArgs(authfile)).value;
    var name := ContainerImageName(ref);
    assert name + "@" + "sha256:" + env.sha256(raw) == name + "@" + ("sha256:" + env.sha256(raw));
    ContainerImageNameOfDigest(name, "sha256:" + env.sha256(raw));
  }

  /**
   * For any other manifest a second, non-raw `skopeo inspect` is run with
   * the same extra arguments, and the digest is its `Digest` field; the
   * name of the result is the name of the reference.
   */
  lemma ResolveSchemaOne(ref: string, authfile: string, env: Environment)
    requires !(authfile != "" && !env.pathExists(authfile))
    requires env.inspect(["docker://" + ref, "--raw"] + AuthArgs(authfile)).Ok?
    requires !env.schemaTwo(env.inspect(["docker://" + ref, "--raw"] + AuthArgs(authfile)).value)
    requires '@' !in ContainerImageName(ref)
    ensures var args := ["docker://" + ref] + AuthArgs(authfile);
      && Resolve(ref, authfile, env).1 == [["docker://" + ref, "--raw"] + AuthArgs(authfile), args]
      && (env.inspect(args).Err? ==> Resolve(ref, authfile, env).0 == Err(env.inspect(args).error))
      && (env.inspect(args).Ok? ==> env.digestField(env.inspect(args).value).Err? ==>
            Resolve(ref, authfile, env).0 == Err(env.digestField(env.inspect(args).value).error))
      && (env.inspect(args).Ok? ==> env.digestField(env.inspect(args).value).Ok? ==>
            && Resolve(ref, authfile, env).0 == Ok(ContainerImageName(ref) + "@" + env.digestField(env.inspect(args).value).value)
            && ContainerImageName(Resolve(ref, authfile, env).0.value) == ContainerImageName(ref))
  {
    var args := ["docker://" + ref] + AuthArgs(authfile);
    if env.inspect(args).Ok? && env.digestField(env.inspect(args).value).Ok? {
      ContainerImageNameOfDigest(ContainerImageName(ref), env.digestField(env.inspect(args).value).value);
    }
  }

  /** When the raw `skopeo inspect` fails, its error is the result and no second command is run. */
  lemma ResolveRawFails(ref: string, authfile: string, env: Environment)
    requires !(authfile != "" && !env.pathExists(authfile))
    requires env.inspect(["docker://" + ref, "--raw"] + AuthArgs(authfile)).Err?
    ensures Resolve(ref, authfile, env) ==
      (Err(env.inspect(["docker://" + ref, "--raw"] + AuthArgs(authfile)).error), [["docker://" + ref, "--raw"] + AuthArgs(authfile)])
  {
  }
}

=== FILE: text.dfy ===
/**
 * The string operations the Python code relies on, on `seq<char>`:
 * `find`/`rfind` of one character, `split` on a one-character separator,
 * `join`, `startswith`, ASCII `lower`, the `^\W+` / `\W+$` trims, and
 * `os.path.basename`.
 */
module Text {
  import opened Wrappers

  /** Index of the first occurrence of `c` in `s`. */
  function FirstIndex(s: string, c: char): (r: Option<nat>)
    ensures r.None? <==> c !in s
    ensures r.Some? ==> r.value < |s| && s[r.value] == c && c !in s[..r.value]
  {
    if |s| == 0 then None
    else if s[0] == c then Some(0)
    else match FirstIndex(s[1..], c)
      case None => None
      case Some(i) => assert s[1..][..i] == s[1..i + 1]; Some(i + 1)
  }

  /** Index of the last occurrence of `c` in `s` (what `rsplit(c, 1)` cuts at). */
  function LastIndex(s: string, c: char): (r: Option<nat>)
    ensures r.None? <==> c !in s
    ensures r.Some? ==> r.value < |s| && s[r.value] == c && c !in s[r.value + 1..]
  {
    if |s| == 0 then None
    else if s[|s| - 1] == c then Some(|s| - 1)
    else
      var r := LastIndex(s[..|s| - 1], c);
      assert r.Some? ==> s[r.value + 1..] == s[..|s| - 1][r.value + 1..] + [s[|s| - 1]];
      assert r.None? ==> s == s[..|s| - 1] + [s[|s| - 1]];
      r
  }

  /** `sep.join(parts)`. */
  function Join(parts: seq<string>, sep: string): string
  {
    if |parts| == 0 then ""
    else if |parts| == 1 then parts[0]
    else parts[0] + sep + Join(parts[1..], sep)
  }

  /** `s.split(c)`: every occurrence of `c` cuts, empty pieces are kept. */
  function Split(s: string, c: char): (r: seq<string>)
    ensures |r| >= 1
    ensures forall i :: 0 <= i < |r| ==> c !in r[i]
    ensures Join(r, [c]) == s
    decreases |s|
  {
    match FirstIndex(s, c)
    case None => [s]
    case Some(i) =>
      var rest := Split(s[i + 1..], c);
      assert s == s[..i] + [c] + s[i + 1..];
      [s[..i]] + rest
  }

  /** A text without the separator splits into itself alone. */
  lemma SplitNone(s: string, c: char)
    requires c !in s
    ensures Split(s, c) == [s]
  {
    assert FirstIndex(s, c).None?;
  }

  /** Joining pieces that do not contain the separator and splitting again gives the pieces back. */
  lemma {:induction false} SplitJoin(parts: seq<string>, c: char)
    requires |parts| >= 1
    requires forall i :: 0 <= i < |parts| ==> c !in parts[i]
    ensures Split(Join(parts, [c]), c) == parts
  {
    if |parts| == 1 {
      assert FirstIndex(parts[0], c).None?;
    } else {
      var s := Join(parts, [c]);
      assert s == parts[0] + [c] + Join(parts[1..], [c]);
      var i := |parts[0]|;
      assert s[i] == c && s[..i] == parts[0];
      assert FirstIndex(s, c) == Some(i);
      assert s[i + 1..] == Join(parts[1..], [c]);
      SplitJoin(parts[1..], c);
    }
  }

  /** The pieces of `a + [c] + b` are the pieces of `a` followed by those of `b`. */
  lemma SplitAppend(a: string, b: string, c: char)
    ensures Split(a + [c] + b, c) == Split(a, c) + Split(b, c)
  {
    var pa, pb := Split(a, c), Split(b, c);
    JoinAppend(pa, pb, [c]);
    SplitJoin(pa + pb, c);
  }

  lemma {:induction false} JoinAppend(p: seq<string>, q: seq<string>, sep: string)
    requires |p| >= 1 && |q| >= 1
    ensures Join(p + q, sep) == Join(p, sep) + sep + Join(q, sep)
  {
    if |p| == 1 {
      assert (p + q)[1..] == q;
    } else {
      assert (p + q)[1..] == p[1..] + q;
      JoinAppend(p[1..], q, sep);
    }
  }

  lemma JoinTwo(a: string, b: string, sep: string)
    ensures Join([a, b], sep) == a + sep + b
  {
    assert [a, b][1..] == [b];
  }

  lemma JoinThree(a: string, b: string, c: string, sep: string)
    ensures Join([a, b, c], sep) == a + sep + b + sep + c
  {
    assert [a, b, c][1..] == [b, c];
    JoinTwo(b, c, sep);
  }

  predicate StartsWith(s: string, prefix: string)
  {
    |prefix| <= |s| && s[..|prefix|] == prefix
  }

  /** `s.endswith(suffix)` */
  predicate Suffix(suffix: string, s: string)
  {
    |suffix| <= |s| && s[|s| - |suffix|..] == suffix
  }

  lemma SuffixOf(a: string, b: string)
    ensures Suffix(b, a + b)
  {
    assert (a + b)[|a|..] == b;
  }

  lemma PrefixOf(a: string, b: string)
    ensures StartsWith(a + b, a)
  {
    assert (a + b)[..|a|] == a;
  }

  /** `needle` occurs in `hay` starting at index `i`. */
  predicate OccursAt(hay: string, needle: string, i: nat)
  {
    i + |needle| <= |hay| && hay[i..i + |needle|] == needle
  }

  /** Python's `needle in hay` for two strings. */
  function ContainsSubstring(hay: string, needle: string): (r: bool)
    ensures r <==> exists i :: 0 <= i <= |hay| && OccursAt(hay, needle, i)
    decreases |hay|
  {
    if StartsWith(hay, needle) then
      assert OccursAt(hay, needle, 0);
      true
    else if |hay| == 0 then false
    else
      var r := ContainsSubstring(hay[1..], needle);
      assert forall i :: 1 <= i <= |hay| ==> (OccursAt(hay, needle, i) <==> OccursAt(hay[1..], needle, i - 1)) by {
        forall i | 1 <= i <= |hay|
          ensures OccursAt(hay, needle, i) <==> OccursAt(hay[1..], needle, i - 1)
        {
          if i + |needle| <= |hay| {
            var tail := hay[1..];
            assert hay[i..i + |needle|] == tail[i - 1..i - 1 + |needle|] by {
              assert forall k :: i <= k < i + |needle| ==> hay[k] == tail[k - 1];
            }
          }
        }
      }
      assert r ==> exists i :: 0 <= i <= |hay| && OccursAt(hay, needle, i) by {
        if r {
          var j :| 0 <= j <= |hay[1..]| && OccursAt(hay[1..], needle, j);
          assert OccursAt(hay, needle, j + 1);
        }
      }
      assert !OccursAt(hay, needle, 0);
      r
  }

  /** A character matched by the regular-expression class `\w`, restricted to ASCII. */
  predicate IsWordChar(ch: char)
  {
    ('a' <= ch <= 'z') || ('A' <= ch <= 'Z') || ('0' <= ch <= '9') || ch == '_'
  }

  /** Every character of `s` is a non-word character. */
  predicate NoWordChars(s: string)
  {
    forall c :: c in s ==> !IsWordChar(c)
  }

  /** `re.sub(r'^\W+', '', s)`: drop the leading run of non-word characters. */
  function TrimStart(s: string): (r: string)
    ensures |r| <= |s| && r == s[|s| - |r|..]
    ensures NoWordChars(s[..|s| - |r|])
    ensures r == [] || IsWordChar(r[0])
  {
    if |s| > 0 && !IsWordChar(s[0]) then
      var r := TrimStart(s[1..]);
      assert s[..|s| - |r|] == [s[0]] + s[1..][..|s| - 1 - |r|];
      r
    else s
  }

  /** `re.sub(r'\W+$', '', s)`: drop the trailing run of non-word characters. */
  function TrimEnd(s: string): (r: string)
    ensures |r| <= |s| && r == s[..|r|]
    ensures NoWordChars(s[|r|..])
    ensures r == [] || IsWordChar(r[|r| - 1])
  {
    if |s| > 0 && !IsWordChar(s[|s| - 1]) then
      var r := TrimEnd(s[..|s| - 1]);
      assert s[|r|..] == s[..|s| - 1][|r|..] + [s[|s| - 1]];
      r
    else s
  }

  function LowerChar(ch: char): char
  {
    if 'A' <= ch <= 'Z' then (ch as int + 32) as char else ch
  }

  /** `s.lower()` on ASCII letters. */
  function Lower(s: string): string
  {
    seq(|s|, i requires 0 <= i < |s| => LowerChar(s[i]))
  }

  function DigitChar(d: nat): char
    requires d < 10
  {
    "0123456789"[d]
  }

  /** `str(n)` for a natural number. */
  function NatToString(n: nat): string
    decreases n
  {
    if n < 10 then [DigitChar(n)] else NatToString(n / 10) + [DigitChar(n % 10)]
  }

  /** `str(i)` for an integer. */
  function IntToString(i: int): string
  {
    if i < 0 then "-" + NatToString(-i) else NatToString(i)
  }

  /** `os.path.basename(p)`: the text after the last `/`. */
  function Basename(p: string): (r: string)
    ensures '/' !in r
    ensures |r| <= |p| && r == p[|p| - |r|..]
    ensures r == p <==> '/' !in p
    ensures r != p ==> p[|p| - |r| - 1] == '/'
  {
    match LastIndex(p, '/')
    case None => assert p == p[0..]; p
    case Some(i) => p[i + 1..]
  }
}

=== FILE: wrappers.dfy ===
/** Failure-compatible wrappers and the error taxonomy shared by every module. */
module Wrappers {

  datatype Option<+T> = None | Some(value: T)

  datatype Result<+R, +E> = Ok(value: R) | Err(error: E) {
    predicate IsFailure() { Err? }
    function PropagateFailure<U>(): Result<U, E> requires Err? { Err(error) }
    function Extract(): R requires Ok? { value }
  }

  /** A step that either passes or fails with an error, carrying no value. */
  datatype Outcome<+E> = Pass | Fail(error: E) {
    predicate IsFailure() { Fail? }
    function PropagateFailure(): Outcome<E> requires Fail? { this }
  }

  /**
   * The exceptions the modelled code raises. The Python built-in exceptions
   * raised by duck typing (a subscript on a list with a string key, `.get` on
   * a string, ...) keep their Python names; the rest are the messages the
   * program raises itself.
   */
  datatype Error =
    | NotOperatorCSV                       // kind is not ClusterServiceVersion
    | KeyError(key: string)                // a missing mapping key that is not caught
    | TypeError                            // wrong container type for a subscript, iteration, `in` or `del`
    | AttributeError                       // `.get`, `.startswith`, `.split`, `.setdefault` on the wrong type
    | ValueFromNotSupported(message: string)
    | RelatedImagesConflict(message: string)
    | NoImageRepository                    // to_str of an ImageName without repo
    | RelatedImagesWithEnvs(csvFile: string)   // the base name of the CSV file the message names
    | NotSeekable
    | AuthfileMissing(message: string)
    | CommandFailed(message: string)       // a failed external command, as reported by its wrapper

  /** The values of the results in order, or the error of the first result that is one. */
  function Collect<T, E>(rs: seq<Result<T, E>>): (r: Result<seq<T>, E>)
    ensures r.Ok? ==> |r.value| == |rs|
  {
    if rs == [] then Ok([])
    else
      var prev :- Collect(rs[..|rs| - 1]);
      var last :- rs[|rs| - 1];
      Ok(prev + [last])
  }

  /** Collected value `i` is the value of result `i`. */
  lemma {:induction false} CollectAt<T, E>(rs: seq<Result<T, E>>, i: nat)
    requires Collect(rs).Ok? && i < |rs|
    ensures rs[i] == Ok(Collect(rs).value[i])
  {
    var prev := rs[..|rs| - 1];
    assert Collect(rs).value == Collect(prev).value + [rs[|rs| - 1].value];
    if i < |prev| {
      CollectAt(prev, i);
    }
  }

  /** The results collect to values exactly when every one of them is a value. */
  lemma {:induction false} CollectOk<T, E>(rs: seq<Result<T, E>>)
    ensures Collect(rs).Ok? <==> forall i :: 0 <= i < |rs| ==> rs[i].Ok?
  {
    if rs != [] {
      var prev := rs[..|rs| - 1];
      CollectOk(prev);
      assert forall i :: 0 <= i < |prev| ==> prev[i] == rs[i];
    }
  }

  /** Collecting one more result: its value is appended, or its error is the outcome. */
  lemma CollectNext<T, E>(rs: seq<Result<T, E>>, i: nat)
    requires i < |rs| && Collect(rs[..i]).Ok?
    ensures Collect(rs[..i + 1]) == if rs[i].Ok? then Ok(Collect(rs[..i]).value + [rs[i].value]) else Err(rs[i].error)
  {
    assert rs[..i + 1][..i] == rs[..i];
  }

  /** The first error among the first `i` results is the outcome of collecting all of them. */
  lemma {:induction false} CollectPrefixError<T, E>(rs: seq<Result<T, E>>, i: nat)
    requires i <= |rs| && Collect(rs[..i]).Err?
    ensures Collect(rs) == Collect(rs[..i])
    decreases |rs| - i
  {
    if i < |rs| {
      assert rs[..i + 1][..i] == rs[..i];
      CollectPrefixError(rs, i + 1);
    } else {
      assert rs[..i] == rs;
    }
  }

  /**
   * The state after the turns of a loop over the first `k` elements of
   * `xs`, each turn applying `step`, and the error of the turn that raised,
   * if any: the loop stops at that turn, keeping the state before it.
   */
  function Steps<S, X, E>(s: S, xs: seq<X>, step: (S, X) -> Result<S, E>, k: nat): (r: (S, Option<E>))
    requires k <= |xs|
  {
    if k == 0 then (s, None)
    else
      var prev := Steps(s, xs, step, k - 1);
      if prev.1.Some? then prev
      else
        var next := step(prev.0, xs[k - 1]);
        if next.Ok? then (next.value, None) else (prev.0, Some(next.error))
  }

  /** Once a turn has raised, later turns do nothing. */
  lemma {:induction false} StepsStop<S, X, E>(s: S, xs: seq<X>, step: (S, X) -> Result<S, E>, k: nat, k': nat)
    requires k <= k' <= |xs| && Steps(s, xs, step, k).1.Some?
    ensures Steps(s, xs, step, k') == Steps(s, xs, step, k)
    decreases k'
  {
    if k' > k {
      StepsStop(s, xs, step, k, k' - 1);
    }
  }

  /**
   * One more turn, when the loop has not stopped: a turn that succeeds gives
   * the next state, and one that raises ends the loop with the state as it was.
   */
  lemma StepsNext<S, X, E>(s: S, xs: seq<X>, step: (S, X) -> Result<S, E>, k: nat)
    requires k < |xs| && Steps(s, xs, step, k).1.None?
    ensures var t := Steps(s, xs, step, k).0;
      var next := step(t, xs[k]);
      && (next.Ok? ==> Steps(s, xs, step, k + 1) == (next.value, None))
      && (next.Err? ==> Steps(s, xs, step, |xs|) == (t, Some(next.error)))
  {
    var t := Steps(s, xs, step, k).0;
    if step(t, xs[k]).Err? {
      StepsStop(s, xs, step, k + 1, |xs|);
    }
  }

  /** One successful turn with an element of `xs` keeps a property every such turn keeps. */
  lemma TurnKeeps<S, X, E>(xs: seq<X>, step: (S, X) -> Result<S, E>, inv: S -> bool, t: S, x: X)
    requires forall t, x :: x in xs && inv(t) && step(t, x).Ok? ==> inv(step(t, x).value)
    requires x in xs && inv(t) && step(t, x).Ok?
    ensures inv(step(t, x).value)
  {
  }

  /** A property of states that every successful turn keeps holds of the state the loop ends in. */
  lemma {:induction false} StepsKeep<S, X, E>(s: S, xs: seq<X>, step: (S, X) -> Result<S, E>, k: nat, inv: S -> bool)
    requires k <= |xs| && inv(s)
    requires forall t, x :: x in xs && inv(t) && step(t, x).Ok? ==> inv(step(t, x).value)
    ensures inv(Steps(s, xs, step, k).0)
  {
    if k > 0 {
      StepsKeep(s, xs, step, k - 1, inv);
      var prev := Steps(s, xs, step, k - 1);
      if prev.1.None? && step(prev.0, xs[k - 1]).Ok? {
        TurnKeeps(xs, step, inv, prev.0, xs[k - 1]);
      }
    }
  }

  /**
   * A property of the state and the number of turns taken, which holds
   * before the first turn and which every successful turn moves on by one,
   * holds after `k` turns without error.
   */
  lemma {:induction false} StepsInduct<S, X, E>(s: S, xs: seq<X>, step: (S, X) -> Result<S, E>, k: nat, inv: (S, nat) -> bool)
    requires k <= |xs| && inv(s, 0) && Steps(s, xs, step, k).1.None?
    requires forall t: S, i: nat :: i < |xs| && inv(t, i) && step(t, xs[i]).Ok? ==> inv(step(t, xs[i]).value, i + 1)
    ensures inv(Steps(s, xs, step, k).0, k)
  {
    if k > 0 {
      var prev := Steps(s, xs, step, k - 1);
      assert prev.1.None? && step(prev.0, xs[k - 1]).Ok?;
      StepsInduct(s, xs, step, k - 1, inv);
      StepKeeps(xs, step, inv, prev.0, k - 1);
    }
  }

  /**
   * The same, whether or not the loop stopped with an error: the state it
   * ends in satisfies the property after some number `j` of turns, the
   * turns that succeeded.
   */
  lemma {:induction false} StepsInductAny<S, X, E>(s: S, xs: seq<X>, step: (S, X) -> Result<S, E>, k: nat, inv: (S, nat) -> bool)
    returns (j: nat)
    requires k <= |xs| && inv(s, 0)
    requires forall t: S, i: nat :: i < |xs| && inv(t, i) && step(t, xs[i]).Ok? ==> inv(step(t, xs[i]).value, i + 1)
    ensures j <= k && inv(Steps(s, xs, step, k).0, j)
  {
    if k == 0 {
      j := 0;
    } else {
      var prev := Steps(s, xs, step, k - 1);
      if prev.1.Some? {
        j := StepsInductAny(s, xs, step, k - 1, inv);
      } else {
        StepsInduct(s, xs, step, k - 1, inv);
        if step(prev.0, xs[k - 1]).Ok? {
          StepKeeps(xs, step, inv, prev.0, k - 1);
          j := k;
        } else {
          j := k - 1;
        }
      }
    }
  }

  /** One instance of the step hypothesis of `StepsInduct`. */
  lemma StepKeeps<S, X, E>(xs: seq<X>, step: (S, X) -> Result<S, E>, inv: (S, nat) -> bool, u: S, j: nat)
    requires forall t: S, i: nat :: i < |xs| && inv(t, i) && step(t, xs[i]).Ok? ==> inv(step(t, xs[i]).value, i + 1)
    requires j < |xs| && inv(u, j) && step(u, xs[j]).Ok?
    ensures inv(step(u, xs[j]).value, j + 1)
  {
  }

  /** The loop `Steps` describes: `step` applied to each element of `xs` in turn, stopping at the first turn that raises. */
  method RunSteps<S, X, E>(s: S, xs: seq<X>, step: (S, X) -> Result<S, E>) returns (r: S, err: Option<E>)
    ensures (r, err) == Steps(s, xs, step, |xs|)
  {
    r, err := s, None;
    var i := 0;
    while i < |xs|
      invariant 0 <= i <= |xs|
      invariant Steps(s, xs, step, i) == (r, None)
    {
      StepsNext(s, xs, step, i);
      var next := step(r, xs[i]);
      if next.Err? {
        err := Some(next.error);
        return;
      }
      r := next.value;
      i := i + 1;
    }
  }
}
